=== FILE: README.md ===
# dynamodb-kotlin-module in Dafny

A model of the core of the Kotlin library that maps Kotlin data classes to the
DynamoDB Enhanced Client's attribute maps, with proofs about it. The core is:

- The io package's `DataClassTableSchema`. It writes an item as an attribute map
  (`itemToMap`, `attributeValue`) and reads one back through the primary
  constructor (`mapToItem`).
- Its attribute list, `DataClassAttributes`. This covers `get`, and `create`,
  which sorts and pairs properties with constructor parameters.
- The per-field `DataClassAttribute`, with `convert`, `unConvert` and
  `initConverter`.
- The derivation of an `EnhancedType` from a property's declared type
  (`toEnhancedType`).
- The table metadata, `DataClassTableMetadata`: keys, indices, index keys and
  scalar key types.
- `createTableEnhancedRequestWithIndices`, which splits the indices into global
  and local secondary indices.
- The dev package's `ImmutableDataClassBuilder` and its
  `toImmutableDataClassAttribute`.

Kotlin reflection is replaced by explicit descriptions of classes, properties,
constructor parameters and annotations (module `DataClasses`). Reflective
constructor calls are modelled by `DataClasses.CallBy`. Converters are abstract
encode/decode pairs (module `Converters`). The SDK's default converter provider
is a parameter: a function from an `EnhancedType` to an optional converter.

Every exception the source throws itself is a `Failure` carrying a model of
that exception. So is every failure of a reflective call that the source's own
checks lead to: a missing argument, a null for a non-nullable parameter, a
wrong arity, an inaccessible or missing constructor. Of the exceptions thrown
from inside user code, a data class constructor's own checks are modelled (a
class's `accepts` predicate). Those thrown by converter constructors, `create`
functions and tag generators are listed under Left out. Each nested data-class schema built by the io package uses one stack
frame. The number of free frames is `Schemas.Frames`. Running out of frames is
`StackOverflow`, which is how a self-referential data class behaves.

Files:

| file | contents |
|---|---|
| `wrappers.dfy` | `Option`, `Result` and the error datatype |
| `attribute_values.dfy` | `AttributeValue` and the scalar types |
| `converters.dfy` | converters and their reflective instantiation |
| `data_classes.dfy` | data-class descriptions, annotations and `callBy` |
| `names.dfy` | Kotlin string order and `sortedBy` |
| `filters.dfy` | Kotlin's `filter`, as the positions it keeps |
| `enhanced_types.dfy` | `EnhancedType` and the shape relation `Mirrors` |
| `data_class_attribute.dfy` | `DataClassAttribute` |
| `data_class_attributes.dfy` | `DataClassAttributes` |
| `schemas.dfy` | io `toEnhancedType`, converter resolution, schema construction |
| `data_class_table_schema.dfy` | the runtime operations of `DataClassTableSchema` |
| `data_class_table_metadata.dfy` | `DataClassTableMetadata` |
| `table_extensions.dfy` | the create-table request |
| `dev_builder.dfy` | `ImmutableDataClassBuilder` |
| `dev_attribute.dfy` | the dev package's attribute construction |

## Model

Paths are relative to the repository root.

| member | source | states |
|---|---|---|
| Converters.FirstPublicConstructor | src/main/kotlin/io/andrewohara/dynamokt/DataClassAttributes.kt:27 | absent exactly when no constructor is public; otherwise a public constructor with no public one before it |
| Converters.FirstPublicCreate | src/main/kotlin/io/andrewohara/dynamokt/DataClassAttributes.kt:30-33 | absent exactly when no static function is a public, parameterless `create`; otherwise such a function of the class |
| Converters.InitConverter | src/main/kotlin/io/andrewohara/dynamokt/DataClassAttributes.kt:26-37 | given a public constructor, the result is that constructor's instance, or the arity error when it takes arguments. Without one, it succeeds exactly when a public parameterless `create` exists. Every success comes from such a constructor or `create`, and the only failures are the class's own error and the arity error |
| Converters.CreateInstance | src/main/kotlin/io/andrewohara/dynamokt/DataClassTableMetadata.kt:122-123 | succeeds exactly when the class has exactly one constructor callable without arguments and that constructor is public; the result is then its instance. Any other number of such constructors fails with the single no-arg constructor error, and a lone non-public one fails with the illegal-access error |
| Converters.CreateInstanceNeedsSingleCandidate | src/main/kotlin/io/andrewohara/dynamokt/DataClassTableMetadata.kt:123 | a class with two constructors callable without arguments cannot be instantiated, even when both are public |
| DataClasses.FindRename | src/main/kotlin/io/andrewohara/dynamokt/DataClassAttributes.kt:48 | absent exactly when no `DynamoKtAttribute` annotation is present; otherwise the name of one that is |
| DataClasses.FindConverter | src/main/kotlin/io/andrewohara/dynamokt/DataClassAttributes.kt:44-45 | absent exactly when no `DynamoKtConverted` annotation is present; otherwise the converter class of the first one |
| DataClasses.StorageName | src/main/kotlin/io/andrewohara/dynamokt/DataClassAttributes.kt:48 | the property name when no rename is present, else the name the first `DynamoKtAttribute` annotation of the property carries |
| DataClasses.SecondaryPartitionIndexNames | src/main/kotlin/io/andrewohara/dynamokt/DataClassTableMetadata.kt:94 | empty when no secondary-partition annotation is present; otherwise the index names of the first such annotation |
| DataClasses.SecondarySortIndexNames | src/main/kotlin/io/andrewohara/dynamokt/DataClassTableMetadata.kt:103 | empty when no secondary-sort annotation is present; otherwise the index names of the first such annotation |
| DataClasses.FirstMissing | src/main/kotlin/io/andrewohara/dynamokt/DataClassTableSchema.kt:27 | absent exactly when every parameter gets a value from the arguments or its default; otherwise a parameter that gets none |
| DataClasses.FirstNullViolation | src/main/kotlin/io/andrewohara/dynamokt/DataClassTableSchema.kt:27 | absent exactly when no non-nullable parameter receives null; otherwise one that does |
| DataClasses.CallBy | src/main/kotlin/io/andrewohara/dynamokt/DataClassTableSchema.kt:27 | succeeds exactly when three things hold: every parameter is bound, no non-nullable parameter gets null, and the constructor accepts the values. The instance has one value per parameter name: the argument, else the default. A missing required argument fails with the first such parameter |
| Names.SortBy | src/main/kotlin/io/andrewohara/dynamokt/DataClassAttributes.kt:40-41 | the result is ordered by key in Kotlin's string order, which compares UTF-16 code units, and it is a permutation of the input |
| Names.LessIsCodeUnitOrder | src/main/kotlin/io/andrewohara/dynamokt/DataClassAttributes.kt:40-41 | the order `sortedBy { it.name }` uses is the lexicographic order of the names' UTF-16 code units, a proper prefix first |
| Names.SupplementaryBeforeHighBmp | src/main/kotlin/io/andrewohara/dynamokt/DataClassAttributes.kt:40-41 | a name starting with a supplementary character sorts before one starting with U+FF21, against the order of their scalar values |
| Names.SortByUnique | src/main/kotlin/io/andrewohara/dynamokt/DataClassAttributes.kt:40-41 | sorting keeps distinct keys distinct |
| Names.StrictlySortedUnique | src/main/kotlin/io/andrewohara/dynamokt/DataClassAttributes.kt:40-41 | two strictly sorted name lists with the same elements are equal, so sorted names fix the order |
| DataClassAttribute.Convert | src/main/kotlin/io/andrewohara/dynamokt/DataClassAttribute.kt:23-29 | the entry is keyed by the storage name; a null property becomes the null marker, anything else becomes the converter's encoding |
| DataClassAttribute.UnConvert | src/main/kotlin/io/andrewohara/dynamokt/DataClassAttribute.kt:31-34 | nothing exactly when the storage name is absent; otherwise the constructor parameter with the decoded value, or the converter's failure |
| DataClassAttribute.UnConvertReadsOnlyItsEntry | src/main/kotlin/io/andrewohara/dynamokt/DataClassAttribute.kt:31-34 | two maps that agree on the storage name decode alike |
| DataClassAttribute.UnConvertInvertsConvert | src/main/kotlin/io/andrewohara/dynamokt/DataClassAttribute.kt:23-34 | decoding the entry `convert` wrote returns the property's value for the parameter, whenever the converter round-trips |
| DataClassAttributes.Get | src/main/kotlin/io/andrewohara/dynamokt/DataClassAttributes.kt:17-19 | absent exactly when no attribute has the name; otherwise an attribute of the list stored under it |
| DataClassAttributes.GetFindsLast | src/main/kotlin/io/andrewohara/dynamokt/DataClassAttributes.kt:17 | `associateBy` keeps the last attribute with the name: `get` returns it and no later one has the name |
| DataClassAttributes.GetDistinct | src/main/kotlin/io/andrewohara/dynamokt/DataClassAttributes.kt:17-19 | with distinct storage names, looking up an attribute's name returns that attribute |
| DataClassAttributes.AttributeNames | src/main/kotlin/io/andrewohara/dynamokt/DataClassTableSchema.kt:50 | one storage name per attribute, in order, and exactly the declared names |
| DataClassAttributes.Zip | src/main/kotlin/io/andrewohara/dynamokt/DataClassAttributes.kt:43 | positional pairs, truncated to the shorter list |
| DataClassAttributes.ZipPairs | src/main/kotlin/io/andrewohara/dynamokt/DataClassAttributes.kt:40-43 | `create` as written: as many pairs as the shorter of properties and parameters |
| DataClassAttributes.MatchByName | src/main/kotlin/io/andrewohara/dynamokt/DataClassAttributes.kt:43 | every pair joins a property of the list and the first parameter of its name. Every property that has a parameter of its name is paired with that parameter, and when every property has one, none is dropped |
| DataClassAttributes.MatchByNameSorted | src/main/kotlin/io/andrewohara/dynamokt/DataClassAttributes.kt:40-43 | pairing keeps the order of the properties, so properties sorted by name give pairs sorted by property name |
| DataClassAttributes.MatchByNameUnique | src/main/kotlin/io/andrewohara/dynamokt/DataClassAttributes.kt:40-43 | with distinct property names, no property name appears in two pairs |
| DataClassAttributes.NamePairs | src/main/kotlin/io/andrewohara/dynamokt/DataClassAttributes.kt:40-43 | `create` as intended. Each pair joins a property of the class and the first constructor parameter of its name. Every property with a parameter of its name is paired, the pairs are sorted by property name, and with distinct property names each name is paired once |
| DataClassAttributes.ZipPairsMisalignBodyProperty | src/main/kotlin/io/andrewohara/dynamokt/DataClassAttributes.kt:40-43 | for `data class X(val a, val c) { val b = "" }` the code pairs property `b` with parameter `c` and never pairs property `c`; the intended pairing is `(a, a), (c, c)` |
| DataClassAttributes.MatchByNameIsZip | src/main/kotlin/io/andrewohara/dynamokt/DataClassAttributes.kt:43 | pairing by name equals zipping with a name-aligned parameter list |
| DataClassAttributes.PairingsAgree | src/main/kotlin/io/andrewohara/dynamokt/DataClassAttributes.kt:40-43 | when the properties are exactly the constructor parameters, the positional pairing equals the name pairing |
| Schemas.DataClassDocument | src/main/kotlin/io/andrewohara/dynamokt/typeExtensions.kt:23-24 | a data class becomes a document of that class holding a fresh schema built one frame deeper, with that schema's attributes. It fails exactly when that schema fails, with its error, and overflows when no frame is left |
| Schemas.ToEnhancedType | src/main/kotlin/io/andrewohara/dynamokt/typeExtensions.kt:8-30 | a success mirrors the declared type: a list, set or map of the translated arguments, a fresh document for a data class, a plain type otherwise. Without data classes it always succeeds. A data class fails exactly when its schema, one frame deeper, fails, and out of frames it overflows |
| Schemas.ResolveConverter | src/main/kotlin/io/andrewohara/dynamokt/DataClassAttributes.kt:44-46 | an annotated converter class is instantiated, and its failure is the result. Without the annotation, a failure to derive the `EnhancedType` is the result; otherwise it succeeds exactly when the provider has a converter for that type, with that converter, and fails with `ConverterNotFound` when it has none |
| Schemas.BuildAttributes | src/main/kotlin/io/andrewohara/dynamokt/DataClassAttributes.kt:43-51 | succeeds exactly when every pair's converter resolves; one attribute per pair, with the pair's property, parameter, storage name and resolved converter |
| Schemas.BuildAttributesFailsAtFirst | src/main/kotlin/io/andrewohara/dynamokt/DataClassAttributes.kt:43-51 | a failure carries the error of the first pair whose converter does not resolve |
| Schemas.CreateSchema | src/main/kotlin/io/andrewohara/dynamokt/DataClassTableSchema.kt:13-19 | a class that is not a data class fails the requirement. For a data class it succeeds exactly when the name-paired attribute list builds, the schema then holds that list, and a failure is the list's failure. Each attribute joins a property and the parameter of its name, both of the class, under the property's storage name |
| DataClassTableSchema.CreateSchemaIsWellFormed | src/main/kotlin/io/andrewohara/dynamokt/DataClassAttributes.kt:39-52 | a data class with distinct property, parameter and storage names, whose every constructor parameter is a property, gets a well-formed schema: distinct storage names, each attribute bound to the parameter of its property's name, and every parameter bound |
| DataClassTableSchema.SinglePropertyClassIsWellFormed | src/main/kotlin/io/andrewohara/dynamokt/DataClassTableSchema.kt:13-19 | `data class P(val a: String)`, with a provider that has a converter for every type, gets a schema, and that schema is well formed |
| Schemas.CreateAttributeList | src/main/kotlin/io/andrewohara/dynamokt/DataClassAttribute.kt:50-65 | the corrected pairing: attribute `i` joins the property and parameter of name pair `i`, under the property's storage name |
| Schemas.CreateAttributeListAsWritten | src/main/kotlin/io/andrewohara/dynamokt/DataClassAttribute.kt:50-54 | `create` as written: attribute `i` joins the `i`-th property and the `i`-th parameter in name order, as many as the shorter list |
| Schemas.StringPropertyResolves | src/main/kotlin/io/andrewohara/dynamokt/DataClassAttribute.kt:55-57 | an unannotated `String` property takes the provider's converter for `String` |
| Schemas.AttributeListAsWrittenMisbinds | src/main/kotlin/io/andrewohara/dynamokt/DataClassAttribute.kt:50-54 | for `data class X(val a, val c) { val b = "" }` the second attribute `create` builds reads property `b` and fills parameter `c` |
| Schemas.AttributeListByNameBindsOwnParameter | src/main/kotlin/io/andrewohara/dynamokt/DataClassAttribute.kt:50-54 | for the same class, pairing by name gives the second attribute property `c` and parameter `c` |
| Schemas.AttributeListsAgree | src/main/kotlin/io/andrewohara/dynamokt/DataClassAttribute.kt:50-65 | whenever the second copy of `create` succeeds, the schema's copy does too and builds the same attributes |
| Schemas.ResolveConverterErrorIrrelevant | src/main/kotlin/io/andrewohara/dynamokt/DataClassAttribute.kt:39-48 | the two `initConverter` copies differ only in the error for an uninstantiable class, never in a converter that resolves |
| Schemas.MentionFailsWithItsClass | src/main/kotlin/io/andrewohara/dynamokt/typeExtensions.kt:8-30 | a type that mentions a class whose translation fails also fails |
| Schemas.UnresolvedConverterFailsSchema | src/main/kotlin/io/andrewohara/dynamokt/DataClassAttributes.kt:43-46 | one property whose type cannot be translated fails the whole schema |
| Schemas.SelfReferenceNeverBuilds | src/main/kotlin/io/andrewohara/dynamokt/typeExtensions.kt:23-24 | a data class with a paired, unconverted property whose type refers to the class itself never yields a schema, whatever the stack |
| DataClassTableSchema.AssociateConverted | src/main/kotlin/io/andrewohara/dynamokt/DataClassTableSchema.kt:31-32 | the keys are exactly the declared storage names |
| DataClassTableSchema.AssociateConvertedIsLastWins | src/main/kotlin/io/andrewohara/dynamokt/DataClassTableSchema.kt:31-32 | each entry is the conversion by the attribute `get` finds for the name |
| DataClassTableSchema.ItemToMap | src/main/kotlin/io/andrewohara/dynamokt/DataClassTableSchema.kt:30-34 | only declared names appear; with `ignoreNulls` no null marker remains |
| DataClassTableSchema.ItemToMapEntries | src/main/kotlin/io/andrewohara/dynamokt/DataClassTableSchema.kt:30-34 | without filtering there is one entry per storage name: the conversion by the attribute `get` finds |
| DataClassTableSchema.ItemToMapDistinct | src/main/kotlin/io/andrewohara/dynamokt/DataClassTableSchema.kt:30-34 | with distinct storage names, each attribute's entry is its own conversion |
| DataClassTableSchema.IgnoreNullsDropsOnlyNullMarkers | src/main/kotlin/io/andrewohara/dynamokt/DataClassTableSchema.kt:33 | ignoring nulls removes exactly the null-marker entries and keeps the others unchanged |
| DataClassTableSchema.ItemToMapKeysAreAttributeNames | src/main/kotlin/io/andrewohara/dynamokt/DataClassTableSchema.kt:30-34 | every key is among `attributeNames()` |
| DataClassTableSchema.Selected | src/main/kotlin/io/andrewohara/dynamokt/DataClassTableSchema.kt:38 | keeps exactly the attributes whose name is requested, each taken from the schema |
| DataClassTableSchema.GetSelected | src/main/kotlin/io/andrewohara/dynamokt/DataClassTableSchema.kt:38 | for a requested name, the selection's lookup equals the schema's |
| DataClassTableSchema.ItemToMapSelected | src/main/kotlin/io/andrewohara/dynamokt/DataClassTableSchema.kt:36-40 | keys are exactly the declared names that were requested |
| DataClassTableSchema.SelectionIsRestriction | src/main/kotlin/io/andrewohara/dynamokt/DataClassTableSchema.kt:36-40 | the selected map is the full map restricted to the requested names, null markers included |
| DataClassTableSchema.AttributeValueOf | src/main/kotlin/io/andrewohara/dynamokt/DataClassTableSchema.kt:42-44 | absent exactly when the name is not declared |
| DataClassTableSchema.AttributeValueAgreesWithItemToMap | src/main/kotlin/io/andrewohara/dynamokt/DataClassTableSchema.kt:42-44 | `attributeValue` is absent exactly when the full map has no entry, and otherwise it is that entry |
| DataClassTableSchema.IsAbstract | src/main/kotlin/io/andrewohara/dynamokt/DataClassTableSchema.kt:52 | a data-class schema is never abstract |
| DataClassTableSchema.CollectArguments | src/main/kotlin/io/andrewohara/dynamokt/DataClassTableSchema.kt:24-25 | every collected argument is the decoding of a present entry for an attribute of that parameter |
| DataClassTableSchema.MapToItem | src/main/kotlin/io/andrewohara/dynamokt/DataClassTableSchema.kt:21-28 | the outcome is the constructor call on some arguments |
| DataClassTableSchema.Kept | src/main/kotlin/io/andrewohara/dynamokt/DataClassTableSchema.kt:23 | an attribute is kept exactly when it is one of the schema's and its storage name is in the map or its parameter has no default |
| DataClassTableSchema.KeptIsRedundant | src/main/kotlin/io/andrewohara/dynamokt/DataClassTableSchema.kt:23-25 | the `filterNot` step changes no argument: the attributes it drops have no entry to decode |
| DataClassTableSchema.AbsentAttributeTakesDefault | src/main/kotlin/io/andrewohara/dynamokt/DataClassTableSchema.kt:21-28 | a parameter none of whose attributes is in the map has a default, and the item holds it |
| DataClassTableSchema.CallByRebuilds | src/main/kotlin/io/andrewohara/dynamokt/DataClassTableSchema.kt:27 | calling the constructor with an item's own values rebuilds the item |
| DataClassTableSchema.CollectArgumentsRoundTrip | src/main/kotlin/io/andrewohara/dynamokt/DataClassTableSchema.kt:21-34 | decoding the first k attributes from the item's own map binds each of their parameters to the item's value |
| DataClassTableSchema.ArgumentsOfWrittenItem | src/main/kotlin/io/andrewohara/dynamokt/DataClassTableSchema.kt:21-34 | reading back what `itemToMap` wrote yields exactly the item's values as arguments |
| DataClassTableSchema.MapToItemInvertsItemToMap | src/main/kotlin/io/andrewohara/dynamokt/DataClassTableSchema.kt:21-34 | for a well-formed schema whose converters round-trip, `mapToItem(itemToMap(item, false))` is the item |
| DataClassTableSchema.ReadBackRebuilds | src/main/kotlin/io/andrewohara/dynamokt/DataClassTableSchema.kt:21-34 | the same round trip, for any map equal to the written one |
| DataClassTableSchema.BoundNamesAreParameterNames | src/main/kotlin/io/andrewohara/dynamokt/DataClassTableSchema.kt:22-25 | the attributes of a well-formed schema bind exactly the constructor's parameter names |
| DataClassTableMetadata.CreateMetadata | src/main/kotlin/io/andrewohara/dynamokt/DataClassTableMetadata.kt:25-27 | succeeds exactly for a data class; otherwise the requirement fails |
| DataClassTableMetadata.FindProperty | src/main/kotlin/io/andrewohara/dynamokt/DataClassTableMetadata.kt:18-19 | absent exactly when no property passes; otherwise a passing property with none passing before it |
| DataClassTableMetadata.SecondaryPartitionNames | src/main/kotlin/io/andrewohara/dynamokt/DataClassTableMetadata.kt:20-22 | exactly the index names of some property's secondary-partition annotation |
| DataClassTableMetadata.SecondaryPartitionNamesAppend | src/main/kotlin/io/andrewohara/dynamokt/DataClassTableMetadata.kt:20-22 | the names of two property lists in sequence are the names of the first followed by those of the second |
| DataClassTableMetadata.SecondaryPartitionNamesCons | src/main/kotlin/io/andrewohara/dynamokt/DataClassTableMetadata.kt:20-22 | a property in front contributes its own index names first, in annotation order |
| DataClassTableMetadata.SecondaryPartitionNamesSingle | src/main/kotlin/io/andrewohara/dynamokt/DataClassTableMetadata.kt:20-22 | a single property contributes exactly the index names of its secondary-partition annotation |
| DataClassTableMetadata.IndexNames | src/main/kotlin/io/andrewohara/dynamokt/DataClassTableMetadata.kt:20-23 | those names, each once |
| DataClassTableMetadata.IndexNamesInOrderOfMention | src/main/kotlin/io/andrewohara/dynamokt/DataClassTableMetadata.kt:20-23 | the index names appear in the order in which the properties first mention them |
| Names.Distinct | src/main/kotlin/io/andrewohara/dynamokt/DataClassTableMetadata.kt:20-23 | `toSet()`: the same elements as the list, each once |
| Names.DistinctKeepsFirstOccurrenceOrder | src/main/kotlin/io/andrewohara/dynamokt/DataClassTableMetadata.kt:23 | `toSet()` keeps the elements in the order of their first occurrence |
| DataClassTableMetadata.IndexPartitionProperty | src/main/kotlin/io/andrewohara/dynamokt/DataClassTableMetadata.kt:90-97 | for the primary index, the partition-key property. For another index, the first property listing it as a secondary partition, and none when no property does |
| DataClassTableMetadata.IndexSortProperty | src/main/kotlin/io/andrewohara/dynamokt/DataClassTableMetadata.kt:99-106 | the same for sort keys |
| DataClassTableMetadata.IndexPartitionKey | src/main/kotlin/io/andrewohara/dynamokt/DataClassTableMetadata.kt:29-32 | the property name when the index has a partition property, else an illegal argument without a message |
| DataClassTableMetadata.IndexSortKey | src/main/kotlin/io/andrewohara/dynamokt/DataClassTableMetadata.kt:34-37 | present exactly when the index has a sort property, and then its name |
| DataClassTableMetadata.PropertyScalarType | src/main/kotlin/io/andrewohara/dynamokt/DataClassTableMetadata.kt:121-132 | never the unknown type. The annotated converter's scalar type is used when it has one, and its instantiation failure propagates. Otherwise the provider's converter for the property's plain class decides: its scalar type when it has one, the null-dereference error when it has none, and converter-not-found when the provider has no converter |
| DataClassTableMetadata.AnnotatedScalarConverterIgnoresProvider | src/main/kotlin/io/andrewohara/dynamokt/DataClassTableMetadata.kt:122-125 | when the annotated converter supplies a scalar type, the provider plays no part |
| DataClassTableMetadata.KeyAttributeMetadata | src/main/kotlin/io/andrewohara/dynamokt/DataClassTableMetadata.kt:108-117 | succeeds exactly when the scalar type does. The name is the property name, and the value type maps back to that scalar type |
| DataClassTableMetadata.OptionalKey | src/main/kotlin/io/andrewohara/dynamokt/DataClassTableMetadata.kt:52-53 | no property gives no key; otherwise the property's key metadata or its failure |
| DataClassTableMetadata.IndexOf | src/main/kotlin/io/andrewohara/dynamokt/DataClassTableMetadata.kt:57-63 | the index is named as asked. It has a partition (sort) key exactly when the index has a partition (sort) property, and that key is the key metadata of that property. A failure is the partition property's failure, or else the sort property's |
| DataClassTableMetadata.IndexList | src/main/kotlin/io/andrewohara/dynamokt/DataClassTableMetadata.kt:57-63 | succeeds exactly when every named index does; one index per name, in order |
| DataClassTableMetadata.Indices | src/main/kotlin/io/andrewohara/dynamokt/DataClassTableMetadata.kt:48-66 | the primary index first, then one index per secondary name. Each index is the metadata its name yields |
| DataClassTableMetadata.FindIndex | src/main/kotlin/io/andrewohara/dynamokt/DataClassTableMetadata.kt:40 | absent exactly when no index has the name; otherwise a listed index with it |
| DataClassTableMetadata.KeyNames | src/main/kotlin/io/andrewohara/dynamokt/DataClassTableMetadata.kt:42-45 | the partition key's name first, the sort key's last, one name per present key |
| DataClassTableMetadata.IndexKeys | src/main/kotlin/io/andrewohara/dynamokt/DataClassTableMetadata.kt:39-46 | an index `indices()` does not list has no keys |
| DataClassTableMetadata.KeyProperties | src/main/kotlin/io/andrewohara/dynamokt/DataClassTableMetadata.kt:74-75 | exactly the properties with a key annotation |
| DataClassTableMetadata.KeyPropertiesKeepOrder | src/main/kotlin/io/andrewohara/dynamokt/DataClassTableMetadata.kt:74-75 | `filter` keeps declaration order: the result is the declared properties read at the increasing positions of exactly those with a key annotation, so each appears as often as it is declared |
| DataClassTableMetadata.KeyAttributeList | src/main/kotlin/io/andrewohara/dynamokt/DataClassTableMetadata.kt:76 | succeeds exactly when every property's key metadata does; one per property, in order |
| DataClassTableMetadata.KeyAttributes | src/main/kotlin/io/andrewohara/dynamokt/DataClassTableMetadata.kt:73-77 | one key attribute per key property, named after it |
| DataClassTableMetadata.AllKeys | src/main/kotlin/io/andrewohara/dynamokt/DataClassTableMetadata.kt:72 | the key attributes' names, in order |
| DataClassTableMetadata.FindKey | src/main/kotlin/io/andrewohara/dynamokt/DataClassTableMetadata.kt:80 | absent exactly when no key has the name; otherwise a key with it |
| DataClassTableMetadata.KeyScalarType | src/main/kotlin/io/andrewohara/dynamokt/DataClassTableMetadata.kt:79-82 | empty exactly for a name that is not a key; otherwise a known scalar type |
| DataClassTableMetadata.ListedIndexNames | src/main/kotlin/io/andrewohara/dynamokt/DataClassTableMetadata.kt:48-66 | every listed index is the primary index or a secondary name |
| DataClassTableMetadata.ListedIndexIsFound | src/main/kotlin/io/andrewohara/dynamokt/DataClassTableMetadata.kt:40 | looking up a listed index finds that index's metadata |
| DataClassTableMetadata.IndexKeysOfListedIndex | src/main/kotlin/io/andrewohara/dynamokt/DataClassTableMetadata.kt:29-46 | for a listed index, `indexKeys` is the key `indexPartitionKey` reports followed by the one `indexSortKey` reports |
| DataClassTableMetadata.UnlistedIndexHasNoKeys | src/main/kotlin/io/andrewohara/dynamokt/DataClassTableMetadata.kt:29-46 | a name no property lists as a secondary partition has no keys and no partition key, even when it is a secondary sort index |
| DataClassTableMetadata.IndicesAgreeWithKeyLookups | src/main/kotlin/io/andrewohara/dynamokt/DataClassTableMetadata.kt:29-66 | each listed index's keys are the ones the key lookups report for its name |
| DataClassTableMetadata.AllKeysAreKeyProperties | src/main/kotlin/io/andrewohara/dynamokt/DataClassTableMetadata.kt:72-77 | `allKeys` names exactly the properties with a key annotation |
| DataClassTableMetadata.KeyScalarTypeOfKeyProperty | src/main/kotlin/io/andrewohara/dynamokt/DataClassTableMetadata.kt:79-82 | a reported scalar type belongs to a key property of that name |
| DataClassTableMetadata.RenamedKeyKeepsPropertyName | src/main/kotlin/io/andrewohara/dynamokt/DataClassTableMetadata.kt:29-32 | a partition key stored as `pk` is reported under its property name `id` |
| TableExtensions.DefaultProjection | src/main/kotlin/io/andrewohara/dynamokt/tableExtensions.kt:41-43 | every index projects all attributes |
| TableExtensions.Positions | src/main/kotlin/io/andrewohara/dynamokt/tableExtensions.kt:17-18 | the increasing positions of exactly the indices the test keeps |
| TableExtensions.PartitionKeyName | src/main/kotlin/io/andrewohara/dynamokt/tableExtensions.kt:18 | the partition key's name, or `NoSuchElementException` without one |
| TableExtensions.Filter | src/main/kotlin/io/andrewohara/dynamokt/tableExtensions.kt:17-18 | succeeds exactly when every index has a partition key and, given any index, the primary key resolves. A first index without a key fails. Nothing at all succeeds empty |
| TableExtensions.FilterKeepsPositions | src/main/kotlin/io/andrewohara/dynamokt/tableExtensions.kt:17-33 | a filter keeps exactly the indices that pass its test, in their order |
| TableExtensions.Entries | src/main/kotlin/io/andrewohara/dynamokt/tableExtensions.kt:19-24 | one entry per kept index, with its name and its projection |
| TableExtensions.UnlessEmpty | src/main/kotlin/io/andrewohara/dynamokt/tableExtensions.kt:36-37 | a list is set exactly when it is non-empty |
| TableExtensions.CreateTableEnhancedRequestWithIndices | src/main/kotlin/io/andrewohara/dynamokt/tableExtensions.kt:14-38 | the global list holds the indices keyed off the primary partition key. The local list holds the others except the primary index. Each list is set only when non-empty, and the failures are the missing keys |
| TableExtensions.EveryIndexClassifiedOnce | src/main/kotlin/io/andrewohara/dynamokt/tableExtensions.kt:17-33 | every index with a partition key is global, local or the primary index on the primary key, and exactly one of these |
| TableExtensions.CreateTableRequestFor | src/main/kotlin/io/andrewohara/dynamokt/tableExtensions.kt:48 | failing indices fail the request with their error; otherwise it is the request for the listed indices and the primary index's partition key |
| TableExtensions.DataClassRequestNeedsPartitionKey | src/main/kotlin/io/andrewohara/dynamokt/tableExtensions.kt:14-38 | once the indices resolve, the request succeeds exactly when the class has a partition key; otherwise it fails with `NoSuchElementException` |
| TableExtensions.SecondaryIndexHasPartitionKey | src/main/kotlin/io/andrewohara/dynamokt/DataClassTableMetadata.kt:57-63 | with a primary partition key, every listed index has a partition key |
| TableExtensions.PrimaryIndexInNeitherList | src/main/kotlin/io/andrewohara/dynamokt/tableExtensions.kt:17-33 | the primary index appears in neither list |
| ImmutableDataClassBuilder.Get | src/main/kotlin/dev/andrewohara/dynamokt/ImmutableDataClassBuilder.kt:21 | the staged value, or null when nothing is staged |
| ImmutableDataClassBuilder.Set | src/main/kotlin/dev/andrewohara/dynamokt/ImmutableDataClassBuilder.kt:22 | the name reads back the new value, and every other name is unchanged |
| ImmutableDataClassBuilder.Arguments | src/main/kotlin/dev/andrewohara/dynamokt/ImmutableDataClassBuilder.kt:10-12 | every argument is the staged value of a parameter that is not omitted. Each such parameter is passed, and, with distinct names, no omitted one is |
| ImmutableDataClassBuilder.Build | src/main/kotlin/dev/andrewohara/dynamokt/ImmutableDataClassBuilder.kt:9-19 | succeeds exactly when the constructor call does; failures are wrapped with the class name and the cause |
| ImmutableDataClassBuilder.SetOverwrites | src/main/kotlin/dev/andrewohara/dynamokt/ImmutableDataClassBuilder.kt:22 | a later set of the same name replaces the earlier one |
| ImmutableDataClassBuilder.BuildBindsEveryParameter | src/main/kotlin/dev/andrewohara/dynamokt/ImmutableDataClassBuilder.kt:10-15 | every parameter receives a value, so no failure is a missing argument |
| ImmutableDataClassBuilder.BuiltValues | src/main/kotlin/dev/andrewohara/dynamokt/ImmutableDataClassBuilder.kt:9-19 | an omitted parameter gets its default; any other gets the staged value, or null |
| ImmutableDataClassBuilder.MissingNullableIsNull | src/main/kotlin/dev/andrewohara/dynamokt/ImmutableDataClassBuilder.kt:10-15 | a required parameter with nothing staged is built as null |
| ImmutableDataClassBuilder.MissingNonNullableFails | src/main/kotlin/dev/andrewohara/dynamokt/ImmutableDataClassBuilder.kt:10-18 | the same for a non-nullable parameter fails with a wrapped null-argument error |
| ImmutableDataClassBuilder.UnmatchedNameIsIgnored | src/main/kotlin/dev/andrewohara/dynamokt/ImmutableDataClassBuilder.kt:10-12 | staging a name that no parameter has does not change the build |
| ImmutableDataClassAttribute.ToEnhancedType | src/main/kotlin/dev/andrewohara/dynamokt/ImmutableDataClassAttribute.kt:19-45 | mirrors the declared type; every document uses the cached schema and its class's preserve-empty-object flag |
| ImmutableDataClassAttribute.MirrorsDetermineShape | src/main/kotlin/dev/andrewohara/dynamokt/ImmutableDataClassAttribute.kt:19-45 | two types mirroring the same declared type differ only in their documents' schemas and flags |
| ImmutableDataClassAttribute.PackagesAgreeOnShape | src/main/kotlin/dev/andrewohara/dynamokt/ImmutableDataClassAttribute.kt:19-45 | the io and dev translations of a type have the same shape |
| ImmutableDataClassAttribute.TagOf | src/main/kotlin/dev/andrewohara/dynamokt/ImmutableDataClassAttribute.kt:59-66 | each key annotation maps to its own role tag, with its index names; no other annotation yields a tag |
| ImmutableDataClassAttribute.AnnotationTags | src/main/kotlin/dev/andrewohara/dynamokt/ImmutableDataClassAttribute.kt:59-66 | exactly the tags of the key annotations |
| ImmutableDataClassAttribute.AnnotationTagsKeepOrder | src/main/kotlin/dev/andrewohara/dynamokt/ImmutableDataClassAttribute.kt:59-66 | `buildList` keeps annotation order: tag `k` is the tag of the `k`-th key annotation, one tag per key annotation |
| ImmutableDataClassAttribute.GetterTags | src/main/kotlin/dev/andrewohara/dynamokt/ImmutableDataClassAttribute.kt:68-75 | fails with the illegal state exactly when a tag annotation's generator lacks `attributeTagFor`; otherwise exactly the generators' extension tags |
| ImmutableDataClassAttribute.Tags | src/main/kotlin/dev/andrewohara/dynamokt/ImmutableDataClassAttribute.kt:58-76 | the key tags followed by the extension tags |
| ImmutableDataClassAttribute.InitDevConverter | src/main/kotlin/dev/andrewohara/dynamokt/ImmutableDataClassAttribute.kt:47-56 | given a public constructor, the result is that constructor's instance, or the arity error when it takes arguments. Without one, it succeeds exactly when a public parameterless `create` exists, and fails otherwise with `NoSuchElementException`. Every success comes from such a constructor or `create` |
| ImmutableDataClassAttribute.ConverterOf | src/main/kotlin/dev/andrewohara/dynamokt/ImmutableDataClassAttribute.kt:82-87 | with an annotated converter class, that class instantiated; without one, it succeeds exactly when the provider has a converter for the translated type, returns that converter, and otherwise fails with converter-not-found |
| ImmutableDataClassAttribute.ToImmutableAttribute | src/main/kotlin/dev/andrewohara/dynamokt/ImmutableDataClassAttribute.kt:78-101 | succeeds exactly when both the converter and the tags can be built. A converter failure comes first, then a tag failure. On success the storage name is the rename, the setter uses the property name, the tags are the property's, and the converter is the annotated class's, else the provider's for the translated type |
| ImmutableDataClassAttribute.ExplicitConverterIgnoresProvider | src/main/kotlin/dev/andrewohara/dynamokt/ImmutableDataClassAttribute.kt:82-87 | with an annotated converter, the provider plays no part |
| ImmutableDataClassAttribute.SetterStagesUnderPropertyName | src/main/kotlin/dev/andrewohara/dynamokt/ImmutableDataClassAttribute.kt:96-97 | the setter stages under the property name and leaves a renamed storage name unstaged; the getter reads the staged value back |
| ImmutableDataClassAttribute.TagsFollowAnnotations | src/main/kotlin/dev/andrewohara/dynamokt/ImmutableDataClassAttribute.kt:58-76 | every key annotation's tag is present, with its index names, and every non-extension tag comes from a key annotation |

## Left out

- Network and client calls. The two `createTableWithIndices` extensions on
  `DynamoDbTable` and `DynamoDbAsyncTable` only pass the request to the client's
  `createTable`. The model stops at the request (`TableExtensions.CreateTableRequestFor`).
- The SDK. Its converters, `AttributeConverterProvider` and `EnhancedType` builders
  are parameters or abstract datatypes. `converter.type()` and the
  `ImmutableAttribute` builder's validation are not modelled.
- Kotlin reflection. It is replaced by explicit class descriptions. A class's
  `accepts` predicate stands for its constructor's own checks.
- The dev package's `recursiveDataClassTableSchema` and `MetaTableSchemaCache`.
  They are not part of this model. A document built from the cache carries only
  the identity of its cache (`Cached(cacheId)`).
- `DynamoKtFlatten` and `DynamoKtPreserveEmptyObject` in the io package. Neither
  is consulted there: an io document takes the client's default for empty objects.
- `tableMetadata()`, `itemType()`, `customMetadata()` and `customMetadataObject()`.
  They return constants or stored objects.
- Exception messages. The tag error's message ends with the class name, and
  `build`'s uses `constructor.returnType`. The model keeps the fixed prefix for
  the first and the class name for the second. An exception built without a
  message has the message "". Kotlin's arity error reports how many arguments
  the constructor expects; the model's `CallArityMismatch` does not carry that
  count. The single no-arg constructor error's message ends with ": " and the
  class; the model's `NoSingleNoArgConstructor` omits that suffix.
- Converter failures in `convert`. The model's `encode` is total. A
  `transformFrom` that throws, or that returns null, which the `?:` at
  src/main/kotlin/io/andrewohara/dynamokt/DataClassAttribute.kt:25-26 turns into
  the null marker, is not modelled.
- Type arguments without a type. The `!!` on a star projection at
  src/main/kotlin/io/andrewohara/dynamokt/typeExtensions.kt:11,15,19 and
  src/main/kotlin/dev/andrewohara/dynamokt/ImmutableDataClassAttribute.kt:22,26,30
  throws. A model `KType` always carries its arguments' types.
- Classifiers that are not classes. The cast `classifier as KClass<Any>` at
  src/main/kotlin/io/andrewohara/dynamokt/typeExtensions.kt:9 fails for a type
  parameter. Every model type names a class.
- The primary constructor's `!!`. A data class always has a primary constructor,
  and the model gives every class one.
- Converter classes whose constructor or static `create` throws, or whose
  `create` returns something other than an `AttributeConverter`. The reflective
  calls at src/main/kotlin/io/andrewohara/dynamokt/DataClassAttributes.kt:28,34,
  src/main/kotlin/io/andrewohara/dynamokt/DataClassAttribute.kt:41,47,
  src/main/kotlin/dev/andrewohara/dynamokt/ImmutableDataClassAttribute.kt:49,55 and
  src/main/kotlin/io/andrewohara/dynamokt/DataClassTableMetadata.kt:123 then throw
  that exception or a `ClassCastException`. In the model a reachable
  constructor or `create` always yields a converter, so
  `Converters.InitConverter`, `Converters.CreateInstance` and
  `ImmutableDataClassAttribute.InitDevConverter` fail only for the reasons
  the source itself checks.
- Extension tag generators that throw. `generator.call(annotation)` at
  src/main/kotlin/dev/andrewohara/dynamokt/ImmutableDataClassAttribute.kt:74 always
  yields a tag in the model.
- The JVM stack. It is a count of free frames (`Schemas.Frames`), so the model
  says when a nested schema overflows but not at which depth.
- Tests that expect an unknown name to throw `IllegalArgumentException`. They
  cover `indexKeys` and `indexSortKey` for an unknown index, and
  `scalarAttributeType` for a name that is not a key. The code returns an empty
  list or `Optional.empty()`, and the model follows the code
  (`DataClassTableMetadata.IndexKeys`, `DataClassTableMetadata.IndexSortKey`,
  `DataClassTableMetadata.KeyScalarType`).
- Kotlin's `toMap()` keys `mapToItem`'s arguments by `KParameter`. The model keys
  them by parameter name, which is the same for the distinct names of one constructor.
- DataClassTableSchema.CollectArguments: its contract says only where each
  argument comes from. The full round trip is stated by
  `DataClassTableSchema.MapToItemInvertsItemToMap`.
- DataClassTableSchema.MapToItem: its contract says only that the result is a
  constructor call. The arguments are pinned down by
  `DataClassTableSchema.ArgumentsOfWrittenItem` for a written item and by
  `DataClassTableSchema.AbsentAttributeTakesDefault` for a missing attribute.
- DataClassTableSchema.MapToItemInvertsItemToMap: it needs a well-formed schema,
  one where every constructor parameter has an attribute of its own name.
  Without that, `mapToItem` depends on defaults, as
  `DataClassTableSchema.AbsentAttributeTakesDefault` states.
- Schemas.CreateSchema: it pairs properties with parameters by name, the
  corrected pairing described under Findings. The positional pairing as written
  is `DataClassAttributes.ZipPairs`.
- Schemas.CreateAttributeList: it pairs properties with parameters by name, while
  `create` at src/main/kotlin/io/andrewohara/dynamokt/DataClassAttribute.kt:54 zips them by
  position. The pairing as written is `Schemas.CreateAttributeListAsWritten`, and
  the difference is the second row under Findings.

## Findings

| source | as written | input that shows it | evidently intended | confidence | as-written member | corrected member |
|---|---|---|---|---|---|---|
| src/main/kotlin/io/andrewohara/dynamokt/DataClassAttributes.kt:40-43 | properties sorted by name are zipped by position with constructor parameters sorted by name | `data class X(val a: String, val c: String) { val b: String = "" }`: property `b` is paired with parameter `c`, and property `c` gets no attribute | each property is paired with the constructor parameter of its own name; where the properties are exactly the parameters, the two pairings agree (`DataClassAttributes.PairingsAgree`) | not executed | DataClassAttributes.ZipPairsMisalignBodyProperty | DataClassAttributes.NamePairs |
| src/main/kotlin/io/andrewohara/dynamokt/DataClassAttribute.kt:50-54 | the second copy of `create` zips properties sorted by name with constructor parameters sorted by name by position | the same class: the second attribute reads property `b` and fills parameter `c` | as in the row above; no caller of this copy of `create` appears in the io package, so the misbinding is latent there. The attribute list pairs by name, so the same class gets property `c` with parameter `c` (`Schemas.AttributeListByNameBindsOwnParameter`) | not executed | Schemas.AttributeListAsWrittenMisbinds | Schemas.CreateAttributeList |

=== FILE: attribute_values.dfy ===
/** The DynamoDB attribute-value model the schema reads and writes, and the
    type tags the enhanced client attaches to converters and key attributes. */
module AttributeValues {
  import opened Wrappers

  /** One stored value: exactly one of the ten members of DynamoDB's `AttributeValue`. */
  datatype AttributeValue =
    | S(s: string)
    | N(n: string)
    | B(b: seq<bv8>)
    | BOOL(boolValue: bool)
    | NUL(nul: bool)
    | SS(ss: set<string>)
    | NS(ns: set<string>)
    | BS(bs: set<seq<bv8>>)
    | L(l: seq<AttributeValue>)
    | M(m: map<string, AttributeValue>)

  /** The value a null property is written as: `AttributeValue.builder().nul(true).build()`. */
  const NullMarker: AttributeValue := NUL(true)

  /** The enhanced client's `AttributeValueType`: the kind of value a converter produces. */
  datatype AttributeValueType = B | BOOL | BS | L | M | N | NS | S | SS | NULL

  /** DynamoDB's `ScalarAttributeType`, the type a key attribute is declared with. */
  datatype ScalarAttributeType = S | N | B | UNKNOWN_TO_SDK_VERSION

  /** `AttributeValueType.scalarAttributeType()`: only string, number and binary
      values have a scalar type; every other kind has none (null on the JVM). */
  function ScalarAttributeTypeOf(t: AttributeValueType): (r: Option<ScalarAttributeType>)
    ensures r.Some? <==> t.S? || t.N? || t.B?
    ensures r.Some? ==> !r.value.UNKNOWN_TO_SDK_VERSION?
  {
    match t
    case S => Some(ScalarAttributeType.S)
    case N => Some(ScalarAttributeType.N)
    case B => Some(ScalarAttributeType.B)
    case _ => None
  }
}

=== FILE: converters.dfy ===
/** Converters between native Kotlin values and attribute values, and the two
    reflective ways the library instantiates a converter class named in a
    `DynamoKtConverted` annotation. The SDK's built-in converters are not
    modelled: a converter is an abstract encode/decode pair. */
module Converters {
  import opened Wrappers
  import opened AttributeValues

  /** A runtime value held by a property of a data class. */
  datatype Native =
    | Null
    | Str(s: string)
    | Num(n: int)
    | Bool(b: bool)
    | Bytes(bytes: seq<bv8>)
    | ListValue(items: seq<Native>)
    | SetValue(elements: set<Native>)
    | MapValue(entries: map<string, Native>)
    | Record(className: string, fields: map<string, Native>)
    | Opaque(className: string, repr: string)

  /** An `AttributeConverter`: `encode` is `transformFrom`, `decode` is `transformTo`
      (`None` when the stored value is malformed and the converter throws), and
      `valueType` is `attributeValueType()`. */
  datatype Converter = Converter(
    className: string,
    valueType: AttributeValueType,
    encode: Native -> AttributeValue,
    decode: AttributeValue -> Option<Native>)

  /** A converter used in examples: it writes every value as the null marker
      and reads nothing back. */
  const StringConverter := Converter("StringConverter", AttributeValueType.S, _ => NullMarker, _ => None)

  /** A constructor of a converter class; calling it with no arguments yields `instance`. */
  datatype Constructor = Constructor(
    isPublic: bool,
    parameterCount: nat,
    allParametersOptional: bool,
    instance: Converter)

  /** A static function of a converter class; calling it with no arguments yields `result`. */
  datatype StaticFunction = StaticFunction(
    name: string,
    isPublic: bool,
    parameterCount: nat,
    result: Converter)

  /** The reflective view of a converter class. */
  datatype ConverterClass = ConverterClass(
    simpleName: string,
    constructors: seq<Constructor>,
    staticFunctions: seq<StaticFunction>)

  /** The message `KFunction.call()` throws with when the callable needs arguments. */
  const CallArityMismatch: string := "Callable expects arguments, but 0 were provided."

  /** The message `createInstance()` throws with when no single no-argument constructor exists. */
  const NoSingleNoArgConstructor: string := "Class should have a single no-arg constructor"

  /** `constructors.firstOrNull { it.visibility == PUBLIC }`. */
  function FirstPublicConstructor(cs: seq<Constructor>): (r: Option<Constructor>)
    ensures r.None? <==> forall i :: 0 <= i < |cs| ==> !cs[i].isPublic
    ensures r.Some? ==> exists i :: 0 <= i < |cs| && cs[i] == r.value && r.value.isPublic
                          && forall j :: 0 <= j < i ==> !cs[j].isPublic
  {
    if |cs| == 0 then None
    else if cs[0].isPublic then Some(cs[0])
    else
      var r := FirstPublicConstructor(cs[1..]);
      assert r.Some? ==> exists i :: 1 <= i < |cs| && cs[i] == r.value && r.value.isPublic
                          && forall j :: 0 <= j < i ==> !cs[j].isPublic by {
        if r.Some? {
          var i :| 0 <= i < |cs[1..]| && cs[1..][i] == r.value && r.value.isPublic
                   && forall j :: 0 <= j < i ==> !cs[1..][j].isPublic;
          assert cs[i + 1] == r.value;
          assert forall j :: 1 <= j < i + 1 ==> !cs[j].isPublic by {
            forall j | 1 <= j < i + 1 ensures !cs[j].isPublic {
              assert cs[j] == cs[1..][j - 1];
            }
          }
        }
      }
      r
  }

  /** A public static function named `create` that takes no parameters. */
  predicate IsPublicCreate(f: StaticFunction) {
    f.name == "create" && f.isPublic && f.parameterCount == 0
  }

  /** `staticFunctions.filter { name == "create" }.filter { PUBLIC }.firstOrNull { parameters.isEmpty() }`. */
  function FirstPublicCreate(fs: seq<StaticFunction>): (r: Option<StaticFunction>)
    ensures r.None? <==> forall i :: 0 <= i < |fs| ==> !IsPublicCreate(fs[i])
    ensures r.Some? ==> IsPublicCreate(r.value) && r.value in fs
  {
    if |fs| == 0 then None
    else if IsPublicCreate(fs[0]) then Some(fs[0])
    else
      var r := FirstPublicCreate(fs[1..]);
      assert forall i :: 1 <= i < |fs| ==> fs[i] == fs[1..][i - 1];
      r
  }

  /** `initConverter`: call the first public constructor with no arguments; if
      the class has no public constructor, call its public no-argument static
      `create`; if it has neither, fail with `noCreate`. The three copies of
      `initConverter` differ only in that error. */
  function InitConverter(cls: ConverterClass, noCreate: Error): (r: Result<Converter>)
    ensures (exists i :: 0 <= i < |cls.constructors| && cls.constructors[i].isPublic) ==>
              var k := FirstPublicConstructor(cls.constructors).value;
              r == if k.parameterCount == 0 then Success(k.instance)
                   else Failure(IllegalArgument(CallArityMismatch, None))
    ensures (forall i :: 0 <= i < |cls.constructors| ==> !cls.constructors[i].isPublic) ==>
              (r.Success? <==> exists f :: f in cls.staticFunctions && IsPublicCreate(f))
    ensures r.Success? ==>
              (exists k :: k in cls.constructors && k.isPublic && k.parameterCount == 0 && r.value == k.instance) ||
              (exists f :: f in cls.staticFunctions && IsPublicCreate(f) && r.value == f.result)
    ensures r.Failure? ==> r.error == noCreate || r.error == IllegalArgument(CallArityMismatch, None)
  {
    match FirstPublicConstructor(cls.constructors)
    case Some(k) =>
      if k.parameterCount == 0 then Success(k.instance)
      else Failure(IllegalArgument(CallArityMismatch, None))
    case None =>
      match FirstPublicCreate(cls.staticFunctions)
      case Some(f) => Success(f.result)
      case None => Failure(noCreate)
  }

  /** The error `DataClassAttributes.initConverter` throws for a class it cannot instantiate. */
  function CannotInstantiate(cls: ConverterClass): Error {
    IllegalArgument("Cannot instantiate " + cls.simpleName, None)
  }

  /** A constructor `createInstance()` can call: every parameter is optional. */
  predicate TakesNoArguments(k: Constructor) {
    k.parameterCount == 0 || k.allParametersOptional
  }

  function NoArgumentConstructors(cs: seq<Constructor>): (r: seq<Constructor>)
    ensures forall k :: k in r <==> k in cs && TakesNoArguments(k)
  {
    if |cs| == 0 then []
    else
      var rest := NoArgumentConstructors(cs[1..]);
      assert forall k :: k in cs <==> k == cs[0] || k in cs[1..] by {
        assert cs == [cs[0]] + cs[1..];
      }
      if TakesNoArguments(cs[0]) then [cs[0]] + rest else rest
  }

  /** Two constructors callable without arguments both survive the filter. */
  lemma {:induction false} TwoCandidatesSurvive(cs: seq<Constructor>, i: nat, j: nat)
    requires i < j < |cs|
    requires TakesNoArguments(cs[i]) && TakesNoArguments(cs[j])
    ensures |NoArgumentConstructors(cs)| >= 2
  {
    var rest := NoArgumentConstructors(cs[1..]);
    assert cs[j] == cs[1..][j - 1];
    if i == 0 {
      assert cs[1..][j - 1] in rest;
    } else {
      assert cs[i] == cs[1..][i - 1];
      TwoCandidatesSurvive(cs[1..], i - 1, j - 1);
    }
  }

  /** Kotlin's `KClass.createInstance()`, used by the table metadata: the class
      must have exactly one constructor callable without arguments, and it must
      be public. Static `create` functions are not considered. */
  function CreateInstance(cls: ConverterClass): (r: Result<Converter>)
    ensures r.Success? ==> exists k :: k in cls.constructors && TakesNoArguments(k) && k.isPublic
                                       && r.value == k.instance
    ensures (forall k :: k in cls.constructors ==> !TakesNoArguments(k)) ==>
              r == Failure(IllegalArgument(NoSingleNoArgConstructor, None))
    ensures var candidates := NoArgumentConstructors(cls.constructors);
            && (r.Success? <==> |candidates| == 1 && candidates[0].isPublic)
            && (|candidates| != 1 ==> r == Failure(IllegalArgument(NoSingleNoArgConstructor, None)))
            && (|candidates| == 1 && !candidates[0].isPublic ==> r == Failure(IllegalCallableAccess))
  {
    var candidates := NoArgumentConstructors(cls.constructors);
    if |candidates| == 1 then
      assert candidates[0] in candidates;
      if candidates[0].isPublic then Success(candidates[0].instance) else Failure(IllegalCallableAccess)
    else
      assert |candidates| > 0 ==> candidates[0] in candidates;
      Failure(IllegalArgument(NoSingleNoArgConstructor, None))
  }

  /** A class with two constructors callable without arguments cannot be
      instantiated, even when both are public: `singleOrNull` finds no single one. */
  lemma CreateInstanceNeedsSingleCandidate(cls: ConverterClass, i: nat, j: nat)
    requires i < j < |cls.constructors|
    requires TakesNoArguments(cls.constructors[i]) && TakesNoArguments(cls.constructors[j])
    ensures CreateInstance(cls) == Failure(IllegalArgument(NoSingleNoArgConstructor, None))
  {
    TwoCandidatesSurvive(cls.constructors, i, j);
  }
}

=== FILE: data_class_attribute.dfy ===
/** One compiled field of a data class (`DataClassAttribute`): its storage
    name, the property it reads, its converter and the constructor parameter
    it feeds; and the per-field encoding (`convert`) and decoding (`unConvert`). */
module DataClassAttribute {
  import opened Wrappers
  import opened AttributeValues
  import opened Converters
  import opened DataClasses

  datatype Attribute = Attribute(
    attributeName: string,
    prop: Property,
    converter: Converter,
    constructorParam: Parameter)

  /** The flag the source calls `optional`: true when the constructor parameter
      has NO default value, the opposite of `KParameter.isOptional`. */
  predicate Optional(a: Attribute) {
    !IsOptional(a.constructorParam)
  }

  /** The item can be read through `a`'s property. */
  predicate Readable(a: Attribute, item: Instance) {
    a.prop.name in item.values
  }

  /** The attribute value a native value is written as: null becomes the null
      marker, anything else goes through the converter. */
  function Stored(c: Converter, v: Native): AttributeValue {
    if v == Null then NullMarker else c.encode(v)
  }

  /** `c` reads back what it wrote for `v`. */
  ghost predicate RoundTrips(c: Converter, v: Native) {
    c.decode(Stored(c, v)) == Some(v)
  }

  /** `convert(item)`: the entry for this field, keyed by its storage name. */
  function Convert(a: Attribute, item: Instance): (r: (string, AttributeValue))
    requires Readable(a, item)
    ensures r.0 == a.attributeName
    ensures item.values[a.prop.name] == Null ==> r.1 == NullMarker
    ensures item.values[a.prop.name] != Null ==> r.1 == a.converter.encode(item.values[a.prop.name])
  {
    (a.attributeName, Stored(a.converter, item.values[a.prop.name]))
  }

  /** `unConvert(attrs)`: nothing when the storage name is absent; otherwise the
      constructor parameter paired with the decoded value, or the converter's
      failure. */
  function UnConvert(a: Attribute, attrs: map<string, AttributeValue>): (r: Result<Option<(string, Native)>>)
    ensures r == Success(None) <==> a.attributeName !in attrs
    ensures a.attributeName in attrs ==>
              match a.converter.decode(attrs[a.attributeName])
              case Some(v) => r == Success(Some((a.constructorParam.name, v)))
              case None => r == Failure(ConverterThrew(a.attributeName))
  {
    if a.attributeName !in attrs then Success(None)
    else
      match a.converter.decode(attrs[a.attributeName])
      case Some(v) => Success(Some((a.constructorParam.name, v)))
      case None => Failure(ConverterThrew(a.attributeName))
  }

  /** `unConvert` looks at the entry under the storage name and nothing else. */
  lemma UnConvertReadsOnlyItsEntry(a: Attribute, m1: map<string, AttributeValue>, m2: map<string, AttributeValue>)
    requires a.attributeName in m1 <==> a.attributeName in m2
    requires a.attributeName in m1 ==> m1[a.attributeName] == m2[a.attributeName]
    ensures UnConvert(a, m1) == UnConvert(a, m2)
  {
  }

  /** Decoding the entry `convert` wrote gives back the property's value,
      paired with the constructor parameter, whenever the converter round-trips. */
  lemma UnConvertInvertsConvert(a: Attribute, item: Instance, attrs: map<string, AttributeValue>)
    requires Readable(a, item)
    requires RoundTrips(a.converter, item.values[a.prop.name])
    requires Convert(a, item).0 in attrs && attrs[Convert(a, item).0] == Convert(a, item).1
    ensures UnConvert(a, attrs) == Success(Some((a.constructorParam.name, item.values[a.prop.name])))
  {
  }
}

=== FILE: data_class_attributes.dfy ===
/** The ordered collection of a schema's attributes (`DataClassAttributes`):
    lookup by storage name, iteration order, and how `create` pairs each
    property with a constructor parameter. */
module DataClassAttributes {
  import opened Wrappers
  import opened Names
  import opened DataClasses
  import opened DataClassAttribute

  /** `get(name)`, i.e. `attributes.associateBy { it.attributeName }[name]`: the
      LAST attribute stored under `name`, or nothing. */
  function Get(attrs: seq<Attribute>, name: string): (r: Option<Attribute>)
    ensures r.None? <==> forall i :: 0 <= i < |attrs| ==> attrs[i].attributeName != name
    ensures r.Some? ==> r.value.attributeName == name && r.value in attrs
    decreases |attrs|
  {
    if |attrs| == 0 then None
    else if attrs[|attrs| - 1].attributeName == name then Some(attrs[|attrs| - 1])
    else
      var init := attrs[..|attrs| - 1];
      assert forall i :: 0 <= i < |init| ==> init[i] == attrs[i];
      Get(init, name)
  }

  /** What `get` finds is the last attribute stored under the name. */
  lemma {:induction false} GetFindsLast(attrs: seq<Attribute>, name: string)
    requires Get(attrs, name).Some?
    ensures exists i :: 0 <= i < |attrs| && attrs[i] == Get(attrs, name).value
                        && forall j :: i < j < |attrs| ==> attrs[j].attributeName != name
    decreases |attrs|
  {
    var last := |attrs| - 1;
    if attrs[last].attributeName == name {
      assert Get(attrs, name).value == attrs[last];
    } else {
      var init := attrs[..last];
      assert Get(attrs, name) == Get(init, name);
      GetFindsLast(init, name);
      var i :| 0 <= i < |init| && init[i] == Get(init, name).value
               && forall j :: i < j < |init| ==> init[j].attributeName != name;
      forall j | i < j < |attrs|
        ensures attrs[j].attributeName != name
      {
        if j < last {
          assert attrs[j] == init[j];
        }
      }
      assert attrs[i] == init[i];
    }
  }



  /** `name` is the storage name of some attribute. */
  ghost predicate Declared(attrs: seq<Attribute>, name: string) {
    exists i :: 0 <= i < |attrs| && attrs[i].attributeName == name
  }

  /** The storage names in iteration order (`attributes.map { it.attributeName }`). */
  function AttributeNames(attrs: seq<Attribute>): (r: seq<string>)
    ensures |r| == |attrs|
    ensures forall i :: 0 <= i < |attrs| ==> r[i] == attrs[i].attributeName
    ensures forall n :: n in r <==> Declared(attrs, n)
  {
    seq(|attrs|, i requires 0 <= i < |attrs| => attrs[i].attributeName)
  }

  /** With distinct storage names, `get` finds the attribute itself. */
  lemma GetDistinct(attrs: seq<Attribute>, i: nat)
    requires i < |attrs|
    requires forall j, k :: 0 <= j < k < |attrs| ==> attrs[j].attributeName != attrs[k].attributeName
    ensures Get(attrs, attrs[i].attributeName) == Some(attrs[i])
  {
    var r := Get(attrs, attrs[i].attributeName);
    GetFindsLast(attrs, attrs[i].attributeName);
    var k :| 0 <= k < |attrs| && attrs[k] == r.value
             && forall j :: k < j < |attrs| ==> attrs[j].attributeName != attrs[i].attributeName;
  }

  // ---- pairing properties with constructor parameters ----

  ghost function PropertyNames(props: seq<Property>): set<string> {
    set p | p in props :: p.name
  }

  /** Kotlin's `zip`: pairs by position, truncated to the shorter list. */
  function Zip<A, B>(xs: seq<A>, ys: seq<B>): (r: seq<(A, B)>)
    ensures |r| == if |xs| < |ys| then |xs| else |ys|
    ensures forall i :: 0 <= i < |r| ==> r[i] == (xs[i], ys[i])
  {
    if |xs| == 0 || |ys| == 0 then [] else [(xs[0], ys[0])] + Zip(xs[1..], ys[1..])
  }

  function SortedProperties(dc: DataClass): seq<Property> {
    SortBy(dc.properties, PropertyName)
  }

  function SortedParameters(dc: DataClass): seq<Parameter> {
    SortBy(dc.parameters, ParameterName)
  }

  /** `create` as written: properties sorted by name zipped with constructor
      parameters sorted by name. */
  function ZipPairs(dc: DataClass): (r: seq<(Property, Parameter)>)
    ensures |r| == if |dc.properties| < |dc.parameters| then |dc.properties| else |dc.parameters|
  {
    Zip(SortedProperties(dc), SortedParameters(dc))
  }

  /** Each property of `props`, in order, with the constructor parameter of the
      same name; properties without one (declared in the class body) are skipped. */
  function MatchByName(props: seq<Property>, params: seq<Parameter>): (r: seq<(Property, Parameter)>)
    ensures |r| <= |props|
    ensures forall i :: 0 <= i < |r| ==> r[i].0 in props && r[i].1 in params && r[i].0.name == r[i].1.name
    ensures (forall p :: p in props ==> ParameterNamed(params, p.name).Some?) ==> |r| == |props|
    ensures forall i :: 0 <= i < |r| ==> Some(r[i].1) == ParameterNamed(params, r[i].0.name)
    ensures forall p :: p in props && ParameterNamed(params, p.name).Some? ==>
              (p, ParameterNamed(params, p.name).value) in r
  {
    if |props| == 0 then []
    else
      var rest := MatchByName(props[1..], params);
      assert forall p :: p in props <==> p == props[0] || p in props[1..] by {
        assert props == [props[0]] + props[1..];
      }
      match ParameterNamed(params, props[0].name)
      case Some(q) => [(props[0], q)] + rest
      case None => rest
  }

  /** One step of `MatchByName`: the head property is kept exactly when a
      parameter carries its name. */
  lemma MatchByNameStep(props: seq<Property>, params: seq<Parameter>)
    requires |props| > 0
    ensures MatchByName(props, params) ==
              match ParameterNamed(params, props[0].name)
              case Some(q) => [(props[0], q)] + MatchByName(props[1..], params)
              case None => MatchByName(props[1..], params)
  {
  }

  predicate PairsSorted(r: seq<(Property, Parameter)>) {
    forall i, j :: 0 <= i < j < |r| ==> !Less(r[j].0.name, r[i].0.name)
  }

  predicate PairsUnique(r: seq<(Property, Parameter)>) {
    forall i, j :: 0 <= i < j < |r| ==> r[i].0.name != r[j].0.name
  }

  lemma ConsPairsSorted(x: (Property, Parameter), rest: seq<(Property, Parameter)>)
    requires PairsSorted(rest)
    requires forall k :: 0 <= k < |rest| ==> !Less(rest[k].0.name, x.0.name)
    ensures PairsSorted([x] + rest)
  {
    var r := [x] + rest;
    forall i, j | 0 <= i < j < |r| ensures !Less(r[j].0.name, r[i].0.name) {
      assert r[j] == rest[j - 1];
      if i > 0 {
        assert r[i] == rest[i - 1];
      }
    }
  }

  lemma ConsPairsUnique(x: (Property, Parameter), rest: seq<(Property, Parameter)>)
    requires PairsUnique(rest)
    requires forall k :: 0 <= k < |rest| ==> rest[k].0.name != x.0.name
    ensures PairsUnique([x] + rest)
  {
    var r := [x] + rest;
    forall i, j | 0 <= i < j < |r| ensures r[i].0.name != r[j].0.name {
      assert r[j] == rest[j - 1];
      if i > 0 {
        assert r[i] == rest[i - 1];
      }
    }
  }

  /** Matching keeps the order of the properties: sorted properties give pairs
      sorted by property name. */
  lemma {:induction false} MatchByNameSorted(props: seq<Property>, params: seq<Parameter>)
    requires SortedBy(props, PropertyName)
    ensures PairsSorted(MatchByName(props, params))
    decreases |props|
  {
    if |props| > 0 {
      var rest := MatchByName(props[1..], params);
      assert SortedBy(props[1..], PropertyName) by {
        forall i, j | 0 <= i < j < |props[1..]| ensures !Less(props[1..][j].name, props[1..][i].name) {
          assert props[1..][j] == props[j + 1] && props[1..][i] == props[i + 1];
        }
      }
      MatchByNameSorted(props[1..], params);
      MatchByNameStep(props, params);
      match ParameterNamed(params, props[0].name)
      case None =>
      case Some(q) =>
        forall k | 0 <= k < |rest| ensures !Less(rest[k].0.name, props[0].name) {
          var m :| 0 <= m < |props[1..]| && props[1..][m] == rest[k].0;
          assert props[m + 1] == rest[k].0;
        }
        ConsPairsSorted((props[0], q), rest);
    }
  }

  /** With distinct property names, every property is matched at most once. */
  lemma {:induction false} MatchByNameUnique(props: seq<Property>, params: seq<Parameter>)
    requires UniqueKeys(props, PropertyName)
    ensures PairsUnique(MatchByName(props, params))
    decreases |props|
  {
    if |props| > 0 {
      var rest := MatchByName(props[1..], params);
      assert UniqueKeys(props[1..], PropertyName) by {
        forall i, j | 0 <= i < |props[1..]| && 0 <= j < |props[1..]| && i != j
          ensures props[1..][i].name != props[1..][j].name {
          assert props[1..][j] == props[j + 1] && props[1..][i] == props[i + 1];
        }
      }
      MatchByNameUnique(props[1..], params);
      MatchByNameStep(props, params);
      match ParameterNamed(params, props[0].name)
      case None =>
      case Some(q) =>
        forall k | 0 <= k < |rest| ensures rest[k].0.name != props[0].name {
          var m :| 0 <= m < |props[1..]| && props[1..][m] == rest[k].0;
          assert props[m + 1] == rest[k].0;
        }
        ConsPairsUnique((props[0], q), rest);
    }
  }

  /** `create` as evidently intended: each property, sorted by name, with the
      constructor parameter of the same name; properties without one are skipped. */
  function NamePairs(dc: DataClass): (r: seq<(Property, Parameter)>)
    ensures forall i :: 0 <= i < |r| ==>
              r[i].0 in dc.properties && r[i].1 in dc.parameters && r[i].0.name == r[i].1.name
    ensures forall i :: 0 <= i < |r| ==> Some(r[i].1) == ParameterNamed(dc.parameters, r[i].0.name)
    ensures forall p :: p in dc.properties && ParameterNamed(dc.parameters, p.name).Some? ==>
              (p, ParameterNamed(dc.parameters, p.name).value) in r
    ensures PairsSorted(r)
    ensures UniqueKeys(dc.properties, PropertyName) ==> PairsUnique(r)
  {
    MatchByNameSorted(SortedProperties(dc), dc.parameters);
    SortedMatchUnique(dc);
    MatchByName(SortedProperties(dc), dc.parameters)
  }

  /** Distinct property names stay distinct through sorting and matching. */
  lemma SortedMatchUnique(dc: DataClass)
    ensures UniqueKeys(dc.properties, PropertyName) ==> PairsUnique(MatchByName(SortedProperties(dc), dc.parameters))
  {
    if UniqueKeys(dc.properties, PropertyName) {
      SortByUnique(dc.properties, PropertyName);
      MatchByNameUnique(SortedProperties(dc), dc.parameters);
    }
  }

  // A data class `X(val a, val c)` that also declares `val b` in its body.
  const PropA := Property("a", ClassType("kotlin.String"), [], [])
  const PropB := Property("b", ClassType("kotlin.String"), [], [])
  const PropC := Property("c", ClassType("kotlin.String"), [], [])
  const ParamA := Parameter("a", false, None)
  const ParamC := Parameter("c", false, None)
  const BodyPropertyClass := DataClass("X", true, [PropA, PropC, PropB], [ParamA, ParamC], false, _ => true)

  lemma SortOneProperty()
    ensures SortBy([PropA], PropertyName) == [PropA]
  {
    assert [PropA][..0] == [];
  }

  lemma SortTwoProperties()
    ensures SortBy([PropA, PropC], PropertyName) == [PropA, PropC]
  {
    SortOneProperty();
    assert [PropA, PropC][..1] == [PropA];
    assert !Less("c", "a");
  }

  lemma InsertBodyProperty()
    ensures Insert(PropB, [PropA, PropC], PropertyName) == [PropA, PropB, PropC]
  {
    assert Less("b", "c") && !Less("b", "a");
    assert [PropA, PropC][..1] == [PropA];
    assert Insert(PropB, [PropA], PropertyName) == [PropA, PropB];
  }

  lemma SortBodyPropertyClass()
    ensures SortedProperties(BodyPropertyClass) == [PropA, PropB, PropC]
    ensures SortedParameters(BodyPropertyClass) == [ParamA, ParamC]
  {
    SortBodyProperties();
    SortBodyParameters();
  }

  lemma SortBodyProperties()
    ensures SortBy([PropA, PropC, PropB], PropertyName) == [PropA, PropB, PropC]
  {
    SortTwoProperties();
    InsertBodyProperty();
    assert [PropA, PropC, PropB][..2] == [PropA, PropC];
  }

  lemma SortBodyParameters()
    ensures SortBy([ParamA, ParamC], ParameterName) == [ParamA, ParamC]
  {
    assert [ParamA, ParamC][..1] == [ParamA] && [ParamA][..0] == [];
    assert !Less("c", "a");
  }


  /** The positional pairing of `create` binds a property to a parameter of a
      different name as soon as the class declares a property in its body: the
      body property `b` is bound to the parameter `c`, and the property `c` is
      dropped. Pairing by name binds `a` and `c` to their own parameters. */
  lemma ZipPairsMisalignBodyProperty()
    ensures ZipPairs(BodyPropertyClass) == [(PropA, ParamA), (PropB, ParamC)]
    ensures NamePairs(BodyPropertyClass) == [(PropA, ParamA), (PropC, ParamC)]
  {
    SortBodyPropertyClass();
    ZipBodyPropertyClass();
    MatchBodyPropertyClass();
  }

  lemma ZipBodyPropertyClass()
    ensures Zip([PropA, PropB, PropC], [ParamA, ParamC]) == [(PropA, ParamA), (PropB, ParamC)]
  {
  }

  lemma MatchBodyPropertyClass()
    ensures MatchByName([PropA, PropB, PropC], [ParamA, ParamC]) == [(PropA, ParamA), (PropC, ParamC)]
  {
    assert ParameterNamed([ParamA, ParamC], "c") == Some(ParamC);
    assert ParameterNamed([ParamA, ParamC], "b") == None;
    assert ParameterNamed([ParamA, ParamC], "a") == Some(ParamA);
    assert [PropA, PropB, PropC][1..] == [PropB, PropC] && [PropB, PropC][1..] == [PropC] && [PropC][1..] == [];
  }

  /** Matching sorted properties by name agrees with zipping them against the
      sorted parameters when the two lists carry the same names in the same order. */
  lemma {:induction false} MatchByNameIsZip(props: seq<Property>, sorted: seq<Parameter>, params: seq<Parameter>)
    requires |props| == |sorted|
    requires forall i :: 0 <= i < |props| ==> props[i].name == sorted[i].name && sorted[i] in params
    requires DistinctParameterNames(params)
    ensures MatchByName(props, params) == Zip(props, sorted)
    decreases |props|
  {
    if |props| > 0 {
      var q := ParameterNamed(params, props[0].name);
      assert sorted[0] in params;
      var k :| 0 <= k < |params| && params[k] == sorted[0];
      var l :| 0 <= l < |params| && params[l] == q.value;
      assert k == l;
      MatchByNameIsZip(props[1..], sorted[1..], params);
    }
  }

  /** For a data class whose properties are exactly its constructor parameters
      (no property declared in the body), the positional pairing of `create`
      pairs every property with the parameter of its own name. */
  lemma PairingsAgree(dc: DataClass)
    requires |dc.properties| == |dc.parameters|
    requires UniqueKeys(dc.properties, PropertyName)
    requires UniqueKeys(dc.parameters, ParameterName)
    requires PropertyNames(dc.properties) == ParameterNames(dc.parameters)
    ensures ZipPairs(dc) == NamePairs(dc)
  {
    var sp := SortedProperties(dc);
    var sq := SortedParameters(dc);
    SortByUnique(dc.properties, PropertyName);
    SortByUnique(dc.parameters, ParameterName);
    SortedUniqueKeysAreStrict(sp, PropertyName);
    SortedUniqueKeysAreStrict(sq, ParameterName);
    var a := KeysOf(sp, PropertyName);
    var b := KeysOf(sq, ParameterName);
    forall x
      ensures x in a <==> x in b
    {
      SortedKeysAreKeys(dc.properties, sp, PropertyName, x);
      SortedKeysAreKeys(dc.parameters, sq, ParameterName, x);
      assert x in PropertyNames(dc.properties) <==> exists p :: p in dc.properties && PropertyName(p) == x;
    }
    StrictlySortedUnique(a, b);
    assert forall i :: 0 <= i < |sp| ==> sp[i].name == a[i] == b[i] == sq[i].name;
    MatchByNameIsZip(sp, sq, dc.parameters);
  }

  /** The keys of a reordering of `s` are the keys of `s`'s elements. */
  lemma SortedKeysAreKeys<T>(s: seq<T>, sorted: seq<T>, key: T -> string, x: string)
    requires forall y :: y in sorted <==> y in s
    ensures x in KeysOf(sorted, key) <==> exists y :: y in s && key(y) == x
  {
    var a := KeysOf(sorted, key);
    if x in a {
      var i :| 0 <= i < |a| && a[i] == x;
      assert sorted[i] in s;
    }
    if exists y :: y in s && key(y) == x {
      var y :| y in s && key(y) == x;
      var j :| 0 <= j < |sorted| && sorted[j] == y;
      assert a[j] == x;
    }
  }
}

=== FILE: data_class_table_metadata.dfy ===
/** The table metadata a data class describes (`DataClassTableMetadata`): the
    partition and sort key of the primary index and of every named secondary
    index, the key attributes, and the scalar type each key is declared with.
    Key names are property names; a `DynamoKtAttribute` rename is not applied. */
module DataClassTableMetadata {
  import opened Wrappers
  import opened Names
  import opened AttributeValues
  import opened Converters
  import opened DataClasses
  import opened EnhancedTypes
  import Filters

  /** `TableMetadata.primaryIndexName()`. */
  const PrimaryIndexName: string := "$PRIMARY_INDEX"

  /** The message of an exception constructed without one. */
  const NoMessage: string := ""

  /** `KeyAttributeMetadata`: a key's name and the kind of value stored under it. */
  datatype KeyAttribute = KeyAttribute(name: string, attributeValueType: AttributeValueType)

  /** `IndexMetadata`: an index and its optional partition and sort keys. */
  datatype IndexMetadata = IndexMetadata(name: string, partitionKey: Option<KeyAttribute>, sortKey: Option<KeyAttribute>)

  /** A constructed metadata object: the class it describes and the default
      converter provider it consults for key types. */
  datatype Metadata = Metadata(dataClass: DataClass, provider: Provider)

  /** The constructor, which requires a data class. */
  function CreateMetadata(dc: DataClass, provider: Provider): (r: Result<Metadata>)
    ensures r.Success? <==> dc.isData
    ensures r.Success? ==> r.value.dataClass == dc && r.value.provider == provider
    ensures r.Failure? ==> r.error == IllegalArgument(FailedRequirement, None)
  {
    if dc.isData then Success(Metadata(dc, provider)) else Failure(IllegalArgument(FailedRequirement, None))
  }

  /** `declaredMemberProperties.find(test)`: the first property passing `test`. */
  function FindProperty(props: seq<Property>, test: Property -> bool): (r: Option<Property>)
    ensures r.None? <==> forall i :: 0 <= i < |props| ==> !test(props[i])
    ensures r.Some? ==> exists i :: 0 <= i < |props| && props[i] == r.value && test(r.value)
                          && forall j :: 0 <= j < i ==> !test(props[j])
  {
    if |props| == 0 then None
    else if test(props[0]) then Some(props[0])
    else
      var r := FindProperty(props[1..], test);
      assert r.Some? ==> exists i :: 1 <= i < |props| && props[i] == r.value && test(r.value)
                          && forall j :: 0 <= j < i ==> !test(props[j]) by {
        if r.Some? {
          var i :| 0 <= i < |props[1..]| && props[1..][i] == r.value && test(r.value)
                   && forall j :: 0 <= j < i ==> !test(props[1..][j]);
          assert props[i + 1] == r.value;
          forall j | 1 <= j < i + 1 ensures !test(props[j]) {
            assert props[j] == props[1..][j - 1];
          }
        }
      }
      r
  }

  /** The property annotated `DynamoKtPartitionKey`, the first if several are. */
  function PartitionKeyProperty(dc: DataClass): Option<Property> {
    FindProperty(dc.properties, HasPartitionKey)
  }

  /** The property annotated `DynamoKtSortKey`, the first if several are. */
  function SortKeyProperty(dc: DataClass): Option<Property> {
    FindProperty(dc.properties, HasSortKey)
  }

  /** Every secondary-partition index name of `props`, property by property. */
  function SecondaryPartitionNames(props: seq<Property>): (r: seq<string>)
    ensures forall n :: n in r <==> exists i :: 0 <= i < |props| && n in SecondaryPartitionIndexNames(props[i].annotations)
  {
    if |props| == 0 then []
    else
      var rest := SecondaryPartitionNames(props[1..]);
      assert forall n :: (exists i :: 1 <= i < |props| && n in SecondaryPartitionIndexNames(props[i].annotations))
                         ==> n in rest by {
        forall n | exists i :: 1 <= i < |props| && n in SecondaryPartitionIndexNames(props[i].annotations)
          ensures n in rest
        {
          var i :| 1 <= i < |props| && n in SecondaryPartitionIndexNames(props[i].annotations);
          assert props[i] == props[1..][i - 1];
        }
      }
      SecondaryPartitionIndexNames(props[0].annotations) + rest
  }

  /** The names are collected property by property (`flatMap`): the names of
      a concatenation are the names of each part, in order. */
  lemma {:induction false} SecondaryPartitionNamesAppend(a: seq<Property>, b: seq<Property>)
    ensures SecondaryPartitionNames(a + b) == SecondaryPartitionNames(a) + SecondaryPartitionNames(b)
    decreases |a|
  {
    if |a| == 0 {
      assert a + b == b;
    } else {
      assert a + b == [a[0]] + (a[1..] + b);
      assert a == [a[0]] + a[1..];
      SecondaryPartitionNamesCons(a[0], a[1..] + b);
      SecondaryPartitionNamesCons(a[0], a[1..]);
      SecondaryPartitionNamesAppend(a[1..], b);
    }
  }

  /** A property in front contributes its own names, in annotation order, first. */
  lemma SecondaryPartitionNamesCons(p: Property, ps: seq<Property>)
    ensures SecondaryPartitionNames([p] + ps) == SecondaryPartitionIndexNames(p.annotations) + SecondaryPartitionNames(ps)
  {
    assert ([p] + ps)[1..] == ps;
  }

  /** A single property contributes its own names, in annotation order. */
  lemma SecondaryPartitionNamesSingle(p: Property)
    ensures SecondaryPartitionNames([p]) == SecondaryPartitionIndexNames(p.annotations)
  {
    assert [p][1..] == [];
  }

  /** `indexNames`: the secondary index names, each once, in order of first mention. */
  function IndexNames(dc: DataClass): (r: seq<string>)
    ensures forall n :: n in r <==>
              exists i :: 0 <= i < |dc.properties| && n in SecondaryPartitionIndexNames(dc.properties[i].annotations)
    ensures forall i, j :: 0 <= i < j < |r| ==> r[i] != r[j]
  {
    Distinct(SecondaryPartitionNames(dc.properties))
  }

  /** The index names follow the order in which the properties first mention them. */
  lemma IndexNamesInOrderOfMention(dc: DataClass)
    ensures InFirstOccurrenceOrder(SecondaryPartitionNames(dc.properties), IndexNames(dc))
  {
    DistinctKeepsFirstOccurrenceOrder(SecondaryPartitionNames(dc.properties));
  }

  /** `indexPartitionProp`: the primary partition key for the primary index,
      else the first property whose secondary-partition names include the index. */
  function IndexPartitionProperty(dc: DataClass, indexName: string): (r: Option<Property>)
    ensures indexName == PrimaryIndexName ==> r == PartitionKeyProperty(dc)
    ensures indexName != PrimaryIndexName ==>
              (r.None? <==> forall i :: 0 <= i < |dc.properties| ==>
                 indexName !in SecondaryPartitionIndexNames(dc.properties[i].annotations))
    ensures indexName != PrimaryIndexName && r.Some? ==>
              exists i :: 0 <= i < |dc.properties| && dc.properties[i] == r.value
                          && indexName in SecondaryPartitionIndexNames(r.value.annotations)
                          && forall j :: 0 <= j < i ==> indexName !in SecondaryPartitionIndexNames(dc.properties[j].annotations)
  {
    if indexName == PrimaryIndexName then PartitionKeyProperty(dc)
    else FindProperty(dc.properties, (p: Property) => indexName in SecondaryPartitionIndexNames(p.annotations))
  }

  /** `indexSortProp`: the primary sort key for the primary index, else the
      first property whose secondary-sort names include the index. */
  function IndexSortProperty(dc: DataClass, indexName: string): (r: Option<Property>)
    ensures indexName == PrimaryIndexName ==> r == SortKeyProperty(dc)
    ensures indexName != PrimaryIndexName ==>
              (r.None? <==> forall i :: 0 <= i < |dc.properties| ==>
                 indexName !in SecondarySortIndexNames(dc.properties[i].annotations))
    ensures indexName != PrimaryIndexName && r.Some? ==>
              exists i :: 0 <= i < |dc.properties| && dc.properties[i] == r.value
                          && indexName in SecondarySortIndexNames(r.value.annotations)
                          && forall j :: 0 <= j < i ==> indexName !in SecondarySortIndexNames(dc.properties[j].annotations)
  {
    if indexName == PrimaryIndexName then SortKeyProperty(dc)
    else FindProperty(dc.properties, (p: Property) => indexName in SecondarySortIndexNames(p.annotations))
  }

  /** `indexPartitionKey`: the name of the index's partition-key property; an
      index without one, including an unknown index, is an illegal argument. */
  function IndexPartitionKey(md: Metadata, indexName: string): (r: Result<string>)
    ensures r.Success? <==> IndexPartitionProperty(md.dataClass, indexName).Some?
    ensures r.Success? ==> r.value == IndexPartitionProperty(md.dataClass, indexName).value.name
    ensures r.Failure? ==> r.error == IllegalArgument(NoMessage, None)
  {
    match IndexPartitionProperty(md.dataClass, indexName)
    case Some(p) => Success(p.name)
    case None => Failure(IllegalArgument(NoMessage, None))
  }

  /** `indexSortKey`: the name of the index's sort-key property, if any. */
  function IndexSortKey(md: Metadata, indexName: string): (r: Option<string>)
    ensures r.Some? <==> IndexSortProperty(md.dataClass, indexName).Some?
    ensures r.Some? ==> r.value == IndexSortProperty(md.dataClass, indexName).value.name
  {
    match IndexSortProperty(md.dataClass, indexName)
    case Some(p) => Some(p.name)
    case None => None
  }

  // ---- key types ----

  /** The key's type comes from the default provider: the property has no
      converter annotation, or its converter's values have no scalar type. */
  predicate UsesDefaultProvider(p: Property) {
    match FindConverter(p.annotations)
    case None => true
    case Some(cls) =>
      CreateInstance(cls).Success? && ScalarAttributeTypeOf(CreateInstance(cls).value.valueType).None?
  }

  /** The scalar type of a key property (the private `scalarAttributeType()`):
      the explicit converter's, when it has one; otherwise the default
      provider's converter for the property's class, whose value type must be
      scalar. */
  function PropertyScalarType(p: Property, provider: Provider): (r: Result<ScalarAttributeType>)
    ensures r.Success? ==> !r.value.UNKNOWN_TO_SDK_VERSION?
    ensures FindConverter(p.annotations).Some? && CreateInstance(FindConverter(p.annotations).value).Success?
            && ScalarAttributeTypeOf(CreateInstance(FindConverter(p.annotations).value).value.valueType).Some? ==>
              r == Success(ScalarAttributeTypeOf(CreateInstance(FindConverter(p.annotations).value).value.valueType).value)
    ensures FindConverter(p.annotations).Some? && CreateInstance(FindConverter(p.annotations).value).Failure? ==>
              r == Failure(CreateInstance(FindConverter(p.annotations).value).error)
    ensures provider(Of(Classifier(p.returnType))).None? && r.Failure? ==>
              FindConverter(p.annotations).Some? || r.error == ConverterNotFound
    ensures UsesDefaultProvider(p) ==>
              match provider(Of(Classifier(p.returnType)))
              case None => r == Failure(ConverterNotFound)
              case Some(c) =>
                (r.Success? <==> ScalarAttributeTypeOf(c.valueType).Some?)
                && (r.Success? ==> Some(r.value) == ScalarAttributeTypeOf(c.valueType))
                && (r.Failure? ==> r.error == NullDereference)
  {
    var explicit :- match FindConverter(p.annotations)
      case Some(cls) =>
        var c :- CreateInstance(cls);
        Success(ScalarAttributeTypeOf(c.valueType))
      case None => Success(None);
    if explicit.Some? then Success(explicit.value)
    else
      match provider(Of(Classifier(p.returnType)))
      case None => Failure(ConverterNotFound)
      case Some(c) =>
        match ScalarAttributeTypeOf(c.valueType)
        case Some(t) => Success(t)
        case None => Failure(NullDereference)
  }

  /** An annotated converter with a scalar type decides the key's type, and
      the default provider plays no part. */
  lemma AnnotatedScalarConverterIgnoresProvider(p: Property, provider1: Provider, provider2: Provider)
    requires !UsesDefaultProvider(p)
    ensures PropertyScalarType(p, provider1) == PropertyScalarType(p, provider2)
  {
  }

  /** `keyAttributeMetadata()`: the property's NAME with the attribute value
      type of its scalar type; an unknown scalar type is an illegal state. */
  function KeyAttributeMetadata(p: Property, provider: Provider): (r: Result<KeyAttribute>)
    ensures r.Success? <==> PropertyScalarType(p, provider).Success?
    ensures r.Success? ==> r.value.name == p.name
    ensures r.Success? ==> ScalarAttributeTypeOf(r.value.attributeValueType) == Some(PropertyScalarType(p, provider).value)
  {
    var st :- PropertyScalarType(p, provider);
    match st
    case B => Success(KeyAttribute(p.name, AttributeValueType.B))
    case N => Success(KeyAttribute(p.name, AttributeValueType.N))
    case S => Success(KeyAttribute(p.name, AttributeValueType.S))
    case UNKNOWN_TO_SDK_VERSION => Failure(IllegalState(NoMessage))
  }

  /** `prop?.keyAttributeMetadata()`. */
  function OptionalKey(p: Option<Property>, provider: Provider): (r: Result<Option<KeyAttribute>>)
    ensures p.None? ==> r == Success(None)
    ensures p.Some? ==> (r.Success? <==> KeyAttributeMetadata(p.value, provider).Success?)
    ensures p.Some? && r.Success? ==> r.value == Some(KeyAttributeMetadata(p.value, provider).value)
    ensures p.Some? && r.Failure? ==> r == Failure(KeyAttributeMetadata(p.value, provider).error)
  {
    match p
    case None => Success(None)
    case Some(q) =>
      var k :- KeyAttributeMetadata(q, provider);
      Success(Some(k))
  }

  // ---- indices ----

  /** The metadata of one index, partition key first. */
  function IndexOf(md: Metadata, indexName: string): (r: Result<IndexMetadata>)
    ensures r.Success? <==> OptionalKey(IndexPartitionProperty(md.dataClass, indexName), md.provider).Success?
                            && OptionalKey(IndexSortProperty(md.dataClass, indexName), md.provider).Success?
    ensures r.Success? ==> r.value.name == indexName
    ensures r.Success? ==> (r.value.partitionKey.Some? <==> IndexPartitionProperty(md.dataClass, indexName).Some?)
    ensures r.Success? ==> (r.value.sortKey.Some? <==> IndexSortProperty(md.dataClass, indexName).Some?)
    ensures r.Success? && r.value.partitionKey.Some? ==>
              r.value.partitionKey.value.name == IndexPartitionProperty(md.dataClass, indexName).value.name
    ensures r.Success? && r.value.sortKey.Some? ==>
              r.value.sortKey.value.name == IndexSortProperty(md.dataClass, indexName).value.name
    ensures r.Success? && r.value.partitionKey.Some? ==>
              Success(r.value.partitionKey.value) == KeyAttributeMetadata(IndexPartitionProperty(md.dataClass, indexName).value, md.provider)
    ensures r.Success? && r.value.sortKey.Some? ==>
              Success(r.value.sortKey.value) == KeyAttributeMetadata(IndexSortProperty(md.dataClass, indexName).value, md.provider)
    ensures r.Failure? ==>
              var pk := OptionalKey(IndexPartitionProperty(md.dataClass, indexName), md.provider);
              r.error == if pk.Failure? then pk.error
                         else OptionalKey(IndexSortProperty(md.dataClass, indexName), md.provider).error
  {
    var pk :- OptionalKey(IndexPartitionProperty(md.dataClass, indexName), md.provider);
    var sk :- OptionalKey(IndexSortProperty(md.dataClass, indexName), md.provider);
    Success(IndexMetadata(indexName, pk, sk))
  }

  /** The metadata of the named indices, in order; the first failure aborts. */
  function IndexList(md: Metadata, names: seq<string>): (r: Result<seq<IndexMetadata>>)
    ensures r.Success? <==> forall i :: 0 <= i < |names| ==> IndexOf(md, names[i]).Success?
    ensures r.Success? ==> |r.value| == |names|
    ensures r.Success? ==> forall i :: 0 <= i < |names| ==> Success(r.value[i]) == IndexOf(md, names[i])
    ensures r.Failure? ==> exists i :: (
              && 0 <= i < |names|
              && IndexOf(md, names[i]) == Failure(r.error)
              && forall j :: 0 <= j < i ==> IndexOf(md, names[j]).Success?)
  {
    if |names| == 0 then Success([])
    else
      var first :- IndexOf(md, names[0]);
      var rest :- IndexList(md, names[1..]);
      Success([first] + rest)
  }

  /** `indices()`: the primary index followed by one index per secondary index name. */
  function Indices(md: Metadata): (r: Result<seq<IndexMetadata>>)
    ensures r.Success? ==> |r.value| == 1 + |IndexNames(md.dataClass)|
    ensures r.Success? ==> r.value[0].name == PrimaryIndexName
    ensures r.Success? ==> forall i :: 0 <= i < |IndexNames(md.dataClass)| ==>
              r.value[i + 1].name == IndexNames(md.dataClass)[i]
    ensures r.Success? <==> IndexOf(md, PrimaryIndexName).Success? && IndexList(md, IndexNames(md.dataClass)).Success?
    ensures r.Success? ==> forall i :: 0 <= i < |r.value| ==> Success(r.value[i]) == IndexOf(md, r.value[i].name)
  {
    var primary :- IndexOf(md, PrimaryIndexName);
    var secondary :- IndexList(md, IndexNames(md.dataClass));
    Success([primary] + secondary)
  }

  /** `indices().find { it.name() == indexName }`. */
  function FindIndex(ixs: seq<IndexMetadata>, indexName: string): (r: Option<IndexMetadata>)
    ensures r.None? <==> forall i :: 0 <= i < |ixs| ==> ixs[i].name != indexName
    ensures r.Some? ==> r.value.name == indexName && r.value in ixs
  {
    if |ixs| == 0 then None
    else if ixs[0].name == indexName then Some(ixs[0])
    else
      var r := FindIndex(ixs[1..], indexName);
      assert forall i :: 1 <= i < |ixs| ==> ixs[i] == ixs[1..][i - 1];
      r
  }

  /** The names of an index's keys, partition key first (`listOfNotNull`). */
  function KeyNames(ix: IndexMetadata): (r: seq<string>)
    ensures |r| <= 2
    ensures ix.partitionKey.Some? ==> |r| > 0 && r[0] == ix.partitionKey.value.name
    ensures ix.sortKey.Some? ==> |r| > 0 && r[|r| - 1] == ix.sortKey.value.name
    ensures |r| == (if ix.partitionKey.Some? then 1 else 0) + (if ix.sortKey.Some? then 1 else 0)
  {
    (match ix.partitionKey case Some(k) => [k.name] case None => [])
      + (match ix.sortKey case Some(k) => [k.name] case None => [])
  }

  /** `indexKeys`: nothing for an index `indices()` does not list; otherwise its key names. */
  function IndexKeys(md: Metadata, indexName: string): (r: Result<seq<string>>)
    ensures r.Success? <==> Indices(md).Success?
    ensures r.Success? && (forall i :: 0 <= i < |Indices(md).value| ==> Indices(md).value[i].name != indexName) ==>
              r.value == []
  {
    var ixs :- Indices(md);
    match FindIndex(ixs, indexName)
    case None => Success([])
    case Some(ix) => Success(KeyNames(ix))
  }

  // ---- key attributes ----

  /** `isIndex()`: the property carries any of the four key annotations. */
  predicate IsIndex(p: Property) {
    HasPartitionKey(p) || HasSortKey(p) || HasSecondaryPartitionKey(p) || HasSecondarySortKey(p)
  }

  /** `declaredMemberProperties.filter { it.isIndex() }`. */
  function KeyProperties(props: seq<Property>): (r: seq<Property>)
    ensures |r| <= |props|
    ensures forall p :: p in r <==> p in props && IsIndex(p)
  {
    if |props| == 0 then []
    else
      var rest := KeyProperties(props[1..]);
      assert forall p :: p in props <==> p == props[0] || p in props[1..] by {
        assert props == [props[0]] + props[1..];
      }
      if IsIndex(props[0]) then [props[0]] + rest else rest
  }

  /** `filter` keeps declaration order: the key properties are the declared
      properties read at exactly the positions of those carrying a key
      annotation, so each appears as often as it is declared. */
  lemma {:induction false} KeyPropertiesKeepOrder(props: seq<Property>)
    ensures Filters.ReadAt(KeyProperties(props), props, Filters.KeptPositions(props, IsIndex))
    decreases |props|
  {
    if |props| > 0 {
      var rest := KeyProperties(props[1..]);
      var pos := Filters.KeptPositions(props[1..], IsIndex);
      KeyPropertiesKeepOrder(props[1..]);
      Filters.KeptPositionsStep(props, IsIndex);
      Filters.ReadAtShift(rest, props, pos);
      if IsIndex(props[0]) {
        Filters.ReadAtCons(rest, props, Filters.Shift(pos));
      }
    }
  }

  /** `keyAttributeMetadata()` of each property in turn; the first failure aborts. */
  function KeyAttributeList(props: seq<Property>, provider: Provider): (r: Result<seq<KeyAttribute>>)
    ensures r.Success? <==> forall i :: 0 <= i < |props| ==> KeyAttributeMetadata(props[i], provider).Success?
    ensures r.Success? ==> |r.value| == |props|
    ensures r.Success? ==> forall i :: 0 <= i < |props| ==> Success(r.value[i]) == KeyAttributeMetadata(props[i], provider)
  {
    if |props| == 0 then Success([])
    else
      var k :- KeyAttributeMetadata(props[0], provider);
      var rest :- KeyAttributeList(props[1..], provider);
      Success([k] + rest)
  }

  /** `keyAttributes()`: one key attribute per key property, in declaration order. */
  function KeyAttributes(md: Metadata): (r: Result<seq<KeyAttribute>>)
    ensures r.Success? ==> |r.value| == |KeyProperties(md.dataClass.properties)|
    ensures r.Success? ==> forall i :: 0 <= i < |r.value| ==>
              r.value[i].name == KeyProperties(md.dataClass.properties)[i].name
    ensures r.Success? ==> forall i :: 0 <= i < |r.value| ==>
              ScalarAttributeTypeOf(r.value[i].attributeValueType).Some?
  {
    KeyAttributeList(KeyProperties(md.dataClass.properties), md.provider)
  }

  /** `allKeys()`: the key attributes' names. */
  function AllKeys(md: Metadata): (r: Result<seq<string>>)
    ensures r.Success? <==> KeyAttributes(md).Success?
    ensures r.Success? ==> |r.value| == |KeyAttributes(md).value|
    ensures r.Success? ==> forall i :: 0 <= i < |r.value| ==> r.value[i] == KeyAttributes(md).value[i].name
  {
    var ks :- KeyAttributes(md);
    Success(seq(|ks|, i requires 0 <= i < |ks| => ks[i].name))
  }

  /** The first key attribute named `name`. */
  function FindKey(ks: seq<KeyAttribute>, name: string): (r: Option<KeyAttribute>)
    ensures r.None? <==> forall i :: 0 <= i < |ks| ==> ks[i].name != name
    ensures r.Some? ==> r.value.name == name && r.value in ks
  {
    if |ks| == 0 then None
    else if ks[0].name == name then Some(ks[0])
    else
      assert forall i :: 1 <= i < |ks| ==> ks[i] == ks[1..][i - 1];
      FindKey(ks[1..], name)
  }

  /** `scalarAttributeType(keyAttribute)`: nothing for a name that is not a key;
      otherwise the key's scalar type (`Optional.of` of a null type would throw). */
  function KeyScalarType(md: Metadata, keyAttribute: string): (r: Result<Option<ScalarAttributeType>>)
    ensures r.Success? <==> KeyAttributes(md).Success?
    ensures r.Success? ==> (r.value.None? <==> keyAttribute !in AllKeys(md).value)
    ensures r.Success? && r.value.Some? ==> !r.value.value.UNKNOWN_TO_SDK_VERSION?
  {
    var ks :- KeyAttributes(md);
    match FindKey(ks, keyAttribute)
    case None => Success(None)
    case Some(k) =>
      match ScalarAttributeTypeOf(k.attributeValueType)
      case Some(t) => Success(Some(t))
      case None => Failure(NullDereference)
  }

  // ---- how the lookups relate ----

  /** Every index `indices()` lists is the primary index or a secondary index name. */
  lemma ListedIndexNames(md: Metadata, k: nat)
    requires Indices(md).Success?
    requires k < |Indices(md).value|
    ensures Indices(md).value[k].name == PrimaryIndexName || Indices(md).value[k].name in IndexNames(md.dataClass)
  {
    if k > 0 {
      assert Indices(md).value[k].name == IndexNames(md.dataClass)[k - 1];
    }
  }

  /** For an index `indices()` lists, `indexKeys` is the partition key that
      `indexPartitionKey` reports followed by the sort key `indexSortKey` reports. */
  lemma IndexKeysOfListedIndex(md: Metadata, indexName: string)
    requires Indices(md).Success?
    requires indexName == PrimaryIndexName || indexName in IndexNames(md.dataClass)
    ensures IndexKeys(md, indexName).Success?
    ensures IndexKeys(md, indexName).value ==
              (if IndexPartitionKey(md, indexName).Success? then [IndexPartitionKey(md, indexName).value] else [])
              + IndexSortKey(md, indexName).ToSeq()
  {
    ListedIndexIsFound(md, indexName);
    KeyNamesOfIndex(md, indexName);
  }

  lemma ListedIndexIsFound(md: Metadata, indexName: string)
    requires Indices(md).Success?
    requires indexName == PrimaryIndexName || indexName in IndexNames(md.dataClass)
    ensures FindIndex(Indices(md).value, indexName).Some?
    ensures Success(FindIndex(Indices(md).value, indexName).value) == IndexOf(md, indexName)
  {
    var ixs := Indices(md).value;
    if indexName == PrimaryIndexName {
      assert ixs[0].name == indexName;
    } else {
      var i :| 0 <= i < |IndexNames(md.dataClass)| && IndexNames(md.dataClass)[i] == indexName;
      assert ixs[i + 1].name == indexName;
    }
    var ix := FindIndex(ixs, indexName).value;
    var j :| 0 <= j < |ixs| && ixs[j] == ix;
  }

  lemma KeyNamesOfIndex(md: Metadata, indexName: string)
    requires IndexOf(md, indexName).Success?
    ensures KeyNames(IndexOf(md, indexName).value) ==
              (if IndexPartitionKey(md, indexName).Success? then [IndexPartitionKey(md, indexName).value] else [])
              + IndexSortKey(md, indexName).ToSeq()
  {
  }

  /** A name that is neither the primary index nor a secondary-partition index
      name has no keys and no partition key, even when some property names it
      as a secondary SORT key. */
  lemma UnlistedIndexHasNoKeys(md: Metadata, indexName: string)
    requires Indices(md).Success?
    requires indexName != PrimaryIndexName
    requires forall i :: 0 <= i < |md.dataClass.properties| ==>
               indexName !in SecondaryPartitionIndexNames(md.dataClass.properties[i].annotations)
    ensures IndexKeys(md, indexName) == Success([])
    ensures IndexPartitionKey(md, indexName) == Failure(IllegalArgument(NoMessage, None))
  {
    forall k | 0 <= k < |Indices(md).value|
      ensures Indices(md).value[k].name != indexName
    {
      ListedIndexNames(md, k);
    }
  }

  /** The partition and sort keys of every listed index are the ones
      `indexPartitionKey` and `indexSortKey` report for its name. */
  lemma IndicesAgreeWithKeyLookups(md: Metadata, k: nat)
    requires Indices(md).Success?
    requires k < |Indices(md).value|
    ensures var ix := Indices(md).value[k];
            && (ix.partitionKey.Some? <==> IndexPartitionKey(md, ix.name).Success?)
            && (ix.partitionKey.Some? ==> ix.partitionKey.value.name == IndexPartitionKey(md, ix.name).value)
            && (ix.sortKey.Some? <==> IndexSortKey(md, ix.name).Some?)
            && (ix.sortKey.Some? ==> ix.sortKey.value.name == IndexSortKey(md, ix.name).value)
  {
    var ix := Indices(md).value[k];
    assert Success(ix) == IndexOf(md, ix.name);
  }

  /** `allKeys` names exactly the properties carrying a key annotation. */
  lemma AllKeysAreKeyProperties(md: Metadata)
    requires AllKeys(md).Success?
    ensures forall n :: n in AllKeys(md).value <==>
              exists p :: p in md.dataClass.properties && IsIndex(p) && p.name == n
  {
    var keyProps := KeyProperties(md.dataClass.properties);
    var names := AllKeys(md).value;
    assert |names| == |keyProps| && forall i :: 0 <= i < |names| ==> names[i] == keyProps[i].name;
    forall n
      ensures n in names <==> exists p :: p in md.dataClass.properties && IsIndex(p) && p.name == n
    {
      NamesOfKeyProperties(md.dataClass.properties, keyProps, names, n);
    }
  }

  lemma NamesOfKeyProperties(props: seq<Property>, keyProps: seq<Property>, names: seq<string>, n: string)
    requires forall p :: p in keyProps <==> p in props && IsIndex(p)
    requires |names| == |keyProps| && forall i :: 0 <= i < |names| ==> names[i] == keyProps[i].name
    ensures n in names <==> exists p :: p in props && IsIndex(p) && p.name == n
  {
    if n in names {
      var i :| 0 <= i < |names| && names[i] == n;
      assert keyProps[i] in keyProps;
    }
    if exists p :: p in props && IsIndex(p) && p.name == n {
      var p :| p in props && IsIndex(p) && p.name == n;
      var i :| 0 <= i < |keyProps| && keyProps[i] == p;
      assert names[i] == n;
    }
  }


  /** The scalar type reported for a key is the scalar type of a key property of that name. */
  lemma KeyScalarTypeOfKeyProperty(md: Metadata, keyAttribute: string, t: ScalarAttributeType)
    requires KeyScalarType(md, keyAttribute) == Success(Some(t))
    ensures exists p :: p in md.dataClass.properties && IsIndex(p) && p.name == keyAttribute
                        && PropertyScalarType(p, md.provider) == Success(t)
  {
    var ks := KeyAttributes(md).value;
    var props := KeyProperties(md.dataClass.properties);
    var k := FindKey(ks, keyAttribute).value;
    var i :| 0 <= i < |ks| && ks[i] == k;
    assert Success(k) == KeyAttributeMetadata(props[i], md.provider);
    assert props[i] in props;
  }

  // A data class whose partition key `id` is stored under the name `pk`.
  const RenamedKey := Property("id", ClassType("kotlin.String"), [DynamoKtPartitionKey, DynamoKtAttribute("pk")], [])
  const RenamedKeyClass := DataClass("K", true, [RenamedKey], [Parameter("id", false, None)], false, _ => true)

  /** Key names are property names: the partition key of a class whose key
      property is renamed is reported under the property name, not the name
      it is stored under. */
  lemma RenamedKeyKeepsPropertyName(provider: Provider)
    ensures StorageName(RenamedKey) == "pk"
    ensures IndexPartitionKey(Metadata(RenamedKeyClass, provider), PrimaryIndexName) == Success("id")
  {
    assert HasPartitionKey(RenamedKey) by {
      assert RenamedKey.annotations[0].DynamoKtPartitionKey?;
    }
    assert FindRename(RenamedKey.annotations) == Some("pk") by {
      assert RenamedKey.annotations[1..] == [DynamoKtAttribute("pk")];
    }
  }
}

=== FILE: data_class_table_schema.dfy ===
/** The runtime operations of `DataClassTableSchema`: writing an item as an
    attribute map (`itemToMap`, with and without null filtering and with a
    name selection), reading one attribute (`attributeValue`), and rebuilding
    an item from an attribute map (`mapToItem`). */
module DataClassTableSchema {
  import opened Wrappers
  import opened AttributeValues
  import opened Converters
  import opened DataClasses
  import opened DataClassAttribute
  import opened DataClassAttributes
  import opened Schemas
  import opened EnhancedTypes
  import opened Names

  /** `item` is an instance of the schema's class: every attribute's property can be read. */
  ghost predicate ItemOf(attrs: seq<Attribute>, item: Instance) {
    forall i :: 0 <= i < |attrs| ==> Readable(attrs[i], item)
  }

  /** `attrs.associate { it.convert(item) }`: one entry per attribute in order,
      a later entry overwriting an earlier one under the same storage name. */
  function AssociateConverted(attrs: seq<Attribute>, item: Instance): (r: map<string, AttributeValue>)
    requires ItemOf(attrs, item)
    ensures forall n :: n in r <==> Declared(attrs, n)
    decreases |attrs|
  {
    if |attrs| == 0 then map[]
    else
      var last := attrs[|attrs| - 1];
      var entry := Convert(last, item);
      AssociateConverted(attrs[..|attrs| - 1], item)[entry.0 := entry.1]
  }

  /** The entry under each storage name comes from the last attribute stored
      under that name, the one `get` finds. */
  lemma {:induction false} AssociateConvertedIsLastWins(attrs: seq<Attribute>, item: Instance, n: string)
    requires ItemOf(attrs, item)
    requires Declared(attrs, n)
    ensures Get(attrs, n).Some?
    ensures AssociateConverted(attrs, item)[n] == Convert(Get(attrs, n).value, item).1
    decreases |attrs|
  {
    var last := attrs[|attrs| - 1];
    if last.attributeName != n {
      var init := attrs[..|attrs| - 1];
      var i :| 0 <= i < |attrs| && attrs[i].attributeName == n;
      assert init[i] == attrs[i];
      AssociateConvertedIsLastWins(init, item, n);
    }
  }

  /** `itemToMap(item, ignoreNulls)`: the converted attributes, without the
      entries holding the null marker when `ignoreNulls` is set. */
  function ItemToMap(s: Schema, item: Instance, ignoreNulls: bool): (r: map<string, AttributeValue>)
    requires ItemOf(s.attributes, item)
    ensures forall n :: n in r ==> Declared(s.attributes, n)
    ensures ignoreNulls ==> forall n :: n in r ==> r[n] != NullMarker
  {
    var m := AssociateConverted(s.attributes, item);
    if ignoreNulls then map n | n in m && m[n] != NullMarker :: m[n] else m
  }

  /** Without null filtering there is exactly one entry per storage name, taken
      from the last attribute with that name: the null marker when its
      property holds null, else its converter's encoding of the value. */
  lemma ItemToMapEntries(s: Schema, item: Instance)
    requires ItemOf(s.attributes, item)
    ensures forall n :: n in ItemToMap(s, item, false) <==> n in AttributeNames(s.attributes)
    ensures forall n :: n in ItemToMap(s, item, false) ==>
              var a := Get(s.attributes, n).value;
              && (item.values[a.prop.name] == Null ==> ItemToMap(s, item, false)[n] == NullMarker)
              && (item.values[a.prop.name] != Null ==>
                    ItemToMap(s, item, false)[n] == a.converter.encode(item.values[a.prop.name]))
  {
    forall n | n in ItemToMap(s, item, false)
      ensures Get(s.attributes, n).Some?
      ensures ItemToMap(s, item, false)[n] == Convert(Get(s.attributes, n).value, item).1
    {
      AssociateConvertedIsLastWins(s.attributes, item, n);
    }
  }

  /** With distinct storage names, each attribute's own entry is its conversion. */
  lemma ItemToMapDistinct(s: Schema, item: Instance, i: nat)
    requires ItemOf(s.attributes, item)
    requires i < |s.attributes|
    requires forall j, k :: 0 <= j < k < |s.attributes| ==>
               s.attributes[j].attributeName != s.attributes[k].attributeName
    ensures s.attributes[i].attributeName in ItemToMap(s, item, false)
    ensures ItemToMap(s, item, false)[s.attributes[i].attributeName] == Convert(s.attributes[i], item).1
  {
    var n := s.attributes[i].attributeName;
    assert Declared(s.attributes, n);
    AssociateConvertedIsLastWins(s.attributes, item, n);
    GetDistinct(s.attributes, i);
  }

  /** Ignoring nulls removes exactly the entries that hold the null marker and
      changes nothing else. */
  lemma IgnoreNullsDropsOnlyNullMarkers(s: Schema, item: Instance)
    requires ItemOf(s.attributes, item)
    ensures var full := ItemToMap(s, item, false);
            var kept := ItemToMap(s, item, true);
            && (forall n :: n in kept <==> n in full && full[n] != NullMarker)
            && (forall n :: n in kept ==> kept[n] == full[n])
  {
  }

  /** Whatever the null filtering, the keys are storage names of the schema. */
  lemma ItemToMapKeysAreAttributeNames(s: Schema, item: Instance, ignoreNulls: bool)
    requires ItemOf(s.attributes, item)
    ensures forall n :: n in ItemToMap(s, item, ignoreNulls) ==> n in AttributeNames(s.attributes)
  {
  }

  /** `attributes.filter { it.attributeName in names }`. */
  function Selected(attrs: seq<Attribute>, names: seq<string>): (r: seq<Attribute>)
    ensures forall n :: Declared(r, n) <==> Declared(attrs, n) && n in names
    ensures forall i :: 0 <= i < |r| ==> exists j :: 0 <= j < |attrs| && r[i] == attrs[j]
    decreases |attrs|
  {
    if |attrs| == 0 then []
    else
      var init := Selected(attrs[..|attrs| - 1], names);
      var last := attrs[|attrs| - 1];
      assert forall n :: Declared(attrs, n) <==> Declared(attrs[..|attrs| - 1], n) || last.attributeName == n by {
        forall n | Declared(attrs, n) && last.attributeName != n
          ensures Declared(attrs[..|attrs| - 1], n)
        {
          var i :| 0 <= i < |attrs| && attrs[i].attributeName == n;
          assert attrs[..|attrs| - 1][i] == attrs[i];
        }
        forall n | Declared(attrs[..|attrs| - 1], n) ensures Declared(attrs, n) {
          var i :| 0 <= i < |attrs| - 1 && attrs[..|attrs| - 1][i].attributeName == n;
          assert attrs[i] == attrs[..|attrs| - 1][i];
        }
      }
      assert forall i :: 0 <= i < |init| ==> exists j :: 0 <= j < |attrs| && init[i] == attrs[j] by {
        forall i | 0 <= i < |init| ensures exists j :: 0 <= j < |attrs| && init[i] == attrs[j] {
          var j :| 0 <= j < |attrs| - 1 && init[i] == attrs[..|attrs| - 1][j];
          assert attrs[j] == attrs[..|attrs| - 1][j];
        }
      }
      if last.attributeName in names then
        var r := init + [last];
        assert forall n :: Declared(r, n) <==> Declared(init, n) || last.attributeName == n by {
          forall n | Declared(r, n) && last.attributeName != n ensures Declared(init, n) {
            var i :| 0 <= i < |r| && r[i].attributeName == n;
            assert r[i] == init[i];
          }
          forall n | Declared(init, n) ensures Declared(r, n) {
            var i :| 0 <= i < |init| && init[i].attributeName == n;
            assert r[i] == init[i];
          }
          assert r[|r| - 1] == last;
        }
        r
      else init
  }

  /** Every attribute of a selection can be read from an item of the schema. */
  lemma SelectedItemOf(attrs: seq<Attribute>, names: seq<string>, item: Instance)
    requires ItemOf(attrs, item)
    ensures ItemOf(Selected(attrs, names), item)
  {
    var r := Selected(attrs, names);
    forall i | 0 <= i < |r| ensures Readable(r[i], item) {
      var j :| 0 <= j < |attrs| && r[i] == attrs[j];
    }
  }

  /** `itemToMap(item, attributes)`: the converted attributes whose storage
      name is among `names`; null markers are kept. */
  function ItemToMapSelected(s: Schema, item: Instance, names: seq<string>): (r: map<string, AttributeValue>)
    requires ItemOf(s.attributes, item)
    ensures forall n :: n in r <==> Declared(s.attributes, n) && n in names
  {
    SelectedItemOf(s.attributes, names, item);
    AssociateConverted(Selected(s.attributes, names), item)
  }

  /** Selecting keeps, for every selected storage name, the same attribute `get` finds. */
  lemma {:induction false} GetSelected(attrs: seq<Attribute>, names: seq<string>, n: string)
    requires n in names
    ensures Get(Selected(attrs, names), n) == Get(attrs, n)
    decreases |attrs|
  {
    if |attrs| > 0 {
      GetSelected(attrs[..|attrs| - 1], names, n);
      var last := attrs[|attrs| - 1];
      if last.attributeName in names {
        var init := Selected(attrs[..|attrs| - 1], names);
        assert (init + [last])[..|init + [last]| - 1] == init;
      }
    }
  }

  /** The selection is the full map restricted to the selected names: nothing
      is added, nothing is dropped for being null, and undeclared names are ignored. */
  lemma SelectionIsRestriction(s: Schema, item: Instance, names: seq<string>)
    requires ItemOf(s.attributes, item)
    ensures var full := ItemToMap(s, item, false);
            var sel := ItemToMapSelected(s, item, names);
            && (forall n :: n in sel <==> n in full && n in names)
            && (forall n :: n in sel ==> sel[n] == full[n])
  {
    var sel := ItemToMapSelected(s, item, names);
    var r := Selected(s.attributes, names);
    SelectedItemOf(s.attributes, names, item);
    forall n | n in sel ensures sel[n] == ItemToMap(s, item, false)[n] {
      AssociateConvertedIsLastWins(r, item, n);
      AssociateConvertedIsLastWins(s.attributes, item, n);
      GetSelected(s.attributes, names, n);
    }
  }

  /** `attributeValue(item, name)`: the conversion of the attribute `get` finds. */
  function AttributeValueOf(s: Schema, item: Instance, name: string): (r: Option<AttributeValue>)
    requires ItemOf(s.attributes, item)
    ensures r.None? <==> !Declared(s.attributes, name)
  {
    match Get(s.attributes, name)
    case None => None
    case Some(a) =>
      assert exists i :: 0 <= i < |s.attributes| && s.attributes[i] == a;
      Some(Convert(a, item).1)
  }

  /** `attributeValue` agrees with the full map: absent exactly when the name
      is not declared, and otherwise the map's entry. */
  lemma AttributeValueAgreesWithItemToMap(s: Schema, item: Instance, name: string)
    requires ItemOf(s.attributes, item)
    ensures AttributeValueOf(s, item, name).None? <==> name !in ItemToMap(s, item, false)
    ensures name in ItemToMap(s, item, false) ==>
              AttributeValueOf(s, item, name) == Some(ItemToMap(s, item, false)[name])
  {
    if Declared(s.attributes, name) {
      AssociateConvertedIsLastWins(s.attributes, item, name);
    }
  }

  /** `isAbstract()`. */
  function IsAbstract(s: Schema): (r: bool)
    ensures !r
  {
    false
  }

  // ---- mapToItem ----

  /** The `filterNot` of `mapToItem`: drops the attributes whose storage name is
      absent from the map and whose parameter has no default. */
  function Kept(attrs: seq<Attribute>, m: map<string, AttributeValue>): (r: seq<Attribute>)
    ensures |r| <= |attrs|
    ensures forall a :: a in r <==> a in attrs && (a.attributeName in m || !Optional(a))
    decreases |attrs|
  {
    if |attrs| == 0 then []
    else
      var last := attrs[|attrs| - 1];
      var init := Kept(attrs[..|attrs| - 1], m);
      assert attrs == attrs[..|attrs| - 1] + [last];
      if last.attributeName !in m && Optional(last) then init else init + [last]
  }

  /** `.mapNotNull { attributes[it.attributeName]?.unConvert(map) }.toMap()` over
      `kept`: each attribute is looked up again by its storage name, decoded
      from the map, and its value bound to the constructor parameter; absent
      names contribute nothing, a later binding of the same parameter wins,
      and the first converter failure aborts. */
  function CollectArguments(kept: seq<Attribute>, all: seq<Attribute>, m: map<string, AttributeValue>)
    : (r: Result<map<string, Native>>)
    ensures r.Success? ==> forall k :: k in r.value ==>
              exists j :: 0 <= j < |all| && all[j].attributeName in m && all[j].constructorParam.name == k
    decreases |kept|
  {
    if |kept| == 0 then Success(map[])
    else
      var args :- CollectArguments(kept[..|kept| - 1], all, m);
      match Get(all, kept[|kept| - 1].attributeName)
      case None => Success(args)
      case Some(a) =>
        var bound :- UnConvert(a, m);
        match bound
        case None => Success(args)
        case Some(kv) => Success(args[kv.0 := kv.1])
  }

  /** `mapToItem(map)`: the collected arguments passed to the primary constructor. */
  function MapToItem(s: Schema, m: map<string, AttributeValue>): (r: Result<Instance>)
    ensures r.Success? ==> exists args :: CallBy(s.dataClass, args) == r
  {
    var args :- CollectArguments(Kept(s.attributes, m), s.attributes, m);
    CallBy(s.dataClass, args)
  }

  /** The `filterNot` changes nothing: the attributes it drops have no entry in
      the map, so `unConvert` yields nothing for them anyway. */
  lemma {:induction false} KeptIsRedundant(attrs: seq<Attribute>, all: seq<Attribute>, m: map<string, AttributeValue>)
    ensures CollectArguments(Kept(attrs, m), all, m) == CollectArguments(attrs, all, m)
    decreases |attrs|
  {
    if |attrs| > 0 {
      var last := attrs[|attrs| - 1];
      var init := attrs[..|attrs| - 1];
      KeptIsRedundant(init, all, m);
      if last.attributeName !in m && Optional(last) {
        match Get(all, last.attributeName)
        case None =>
        case Some(a) => assert UnConvert(a, m) == Success(None);
      } else {
        var k := Kept(init, m) + [last];
        assert k[..|k| - 1] == Kept(init, m);
      }
    }
  }

  /** A parameter none of whose attributes has an entry in the map receives no
      argument, so the constructor applies its default (as `lives = 9` does for
      a cat stored without lives). */
  lemma AbsentAttributeTakesDefault(s: Schema, m: map<string, AttributeValue>, q: Parameter)
    requires DistinctParameterNames(s.dataClass.parameters)
    requires q in s.dataClass.parameters
    requires forall j :: 0 <= j < |s.attributes| && s.attributes[j].constructorParam.name == q.name ==>
               s.attributes[j].attributeName !in m
    requires MapToItem(s, m).Success?
    ensures q.default.Some?
    ensures MapToItem(s, m).value.values[q.name] == q.default.value
  {
    var args := CollectArguments(Kept(s.attributes, m), s.attributes, m).value;
    assert q.name !in args;
    assert MapToItem(s, m) == CallBy(s.dataClass, args);
  }

  // ---- the record round trip ----

  /** The schema pairs every constructor parameter with an attribute of the
      same name, under distinct storage names: what `create` builds for a
      data class whose properties are its constructor parameters. */
  ghost predicate WellFormed(s: Schema) {
    && DistinctParameterNames(s.dataClass.parameters)
    && (forall j, k :: 0 <= j < k < |s.attributes| ==>
          s.attributes[j].attributeName != s.attributes[k].attributeName)
    && (forall j :: 0 <= j < |s.attributes| ==>
          s.attributes[j].constructorParam in s.dataClass.parameters
          && s.attributes[j].prop.name == s.attributes[j].constructorParam.name)
    && (forall p :: p in s.dataClass.parameters ==>
          exists j :: 0 <= j < |s.attributes| && s.attributes[j].constructorParam == p)
  }

  /** The schema the constructor builds is well formed when the class is what
      Kotlin makes of a data class: distinct property and parameter names,
      distinct storage names, and a property behind every constructor parameter. */
  lemma CreateSchemaIsWellFormed(dc: DataClass, classes: map<string, DataClass>, provider: Provider, depth: Frames)
    requires CreateSchema(dc, classes, provider, depth).Success?
    requires DistinctParameterNames(dc.parameters)
    requires UniqueKeys(dc.properties, PropertyName)
    requires forall i, j :: 0 <= i < |dc.properties| && 0 <= j < |dc.properties| && i != j ==>
               StorageName(dc.properties[i]) != StorageName(dc.properties[j])
    requires forall p :: p in dc.parameters ==> exists q :: q in dc.properties && q.name == p.name
    ensures WellFormed(CreateSchema(dc, classes, provider, depth).value)
  {
    var s := CreateSchema(dc, classes, provider, depth).value;
    var pairs := NamePairs(dc);
    SchemaFollowsPairs(dc, classes, provider, depth);
    PairedStorageNamesDistinct(dc);
    NamePairsCoverParameters(dc);
    forall p | p in dc.parameters
      ensures exists j :: 0 <= j < |s.attributes| && s.attributes[j].constructorParam == p
    {
      var j :| 0 <= j < |pairs| && pairs[j].1 == p;
      assert s.attributes[j].constructorParam == p;
    }
  }

  // `data class P(val a: String)`, with a provider that has a converter for every type.
  const SinglePropertyClass := DataClass("P", true, [PropA], [ParamA], false, _ => true)

  /** The requirements of `CreateSchemaIsWellFormed` can all be met: a data
      class with one property, which is its constructor parameter, gets a
      well-formed schema. */
  lemma SinglePropertyClassIsWellFormed()
    ensures CreateSchema(SinglePropertyClass, map[], _ => Some(StringConverter), Frame(NoFrames)).Success?
    ensures WellFormed(CreateSchema(SinglePropertyClass, map[], _ => Some(StringConverter), Frame(NoFrames)).value)
  {
    var dc := SinglePropertyClass;
    var provider: Provider := _ => Some(StringConverter);
    SortOneProperty();
    assert NamePairs(dc) == [(PropA, ParamA)] by {
      assert ParameterNamed([ParamA], "a") == Some(ParamA);
      assert [PropA][1..] == [];
    }
    assert ResolveConverter(PropA, map[], provider, CannotInstantiate, Frame(NoFrames)) == Success(StringConverter);
    CreateSchemaIsWellFormed(dc, map[], provider, Frame(NoFrames));
  }

  /** The schema holds one attribute per name pair, in order. */
  lemma SchemaFollowsPairs(dc: DataClass, classes: map<string, DataClass>, provider: Provider, depth: Frames)
    requires CreateSchema(dc, classes, provider, depth).Success?
    ensures var s := CreateSchema(dc, classes, provider, depth).value;
            && s.dataClass == dc
            && |s.attributes| == |NamePairs(dc)|
            && forall i :: 0 <= i < |s.attributes| ==>
                 && s.attributes[i].attributeName == StorageName(NamePairs(dc)[i].0)
                 && s.attributes[i].prop == NamePairs(dc)[i].0
                 && s.attributes[i].constructorParam == NamePairs(dc)[i].1
  {
  }

  /** Distinct properties stored under distinct names give pairs stored under
      distinct names. */
  lemma PairedStorageNamesDistinct(dc: DataClass)
    requires UniqueKeys(dc.properties, PropertyName)
    requires forall i, j :: 0 <= i < |dc.properties| && 0 <= j < |dc.properties| && i != j ==>
               StorageName(dc.properties[i]) != StorageName(dc.properties[j])
    ensures var pairs := NamePairs(dc);
            forall j, k :: 0 <= j < k < |pairs| ==> StorageName(pairs[j].0) != StorageName(pairs[k].0)
  {
    var pairs := NamePairs(dc);
    forall j, k | 0 <= j < k < |pairs|
      ensures StorageName(pairs[j].0) != StorageName(pairs[k].0)
    {
      assert pairs[j].0.name != pairs[k].0.name;
      var a :| 0 <= a < |dc.properties| && dc.properties[a] == pairs[j].0;
      var b :| 0 <= b < |dc.properties| && dc.properties[b] == pairs[k].0;
    }
  }

  /** Every constructor parameter backed by a property appears in a pair. */
  lemma NamePairsCoverParameters(dc: DataClass)
    requires DistinctParameterNames(dc.parameters)
    requires forall p :: p in dc.parameters ==> exists q :: q in dc.properties && q.name == p.name
    ensures var pairs := NamePairs(dc);
            forall p :: p in dc.parameters ==> exists j :: 0 <= j < |pairs| && pairs[j].1 == p
  {
    var pairs := NamePairs(dc);
    forall p | p in dc.parameters
      ensures exists j :: 0 <= j < |pairs| && pairs[j].1 == p
    {
      var q :| q in dc.properties && q.name == p.name;
      ParameterNamedOwn(dc.parameters, p);
      assert (q, p) in pairs;
      var j :| 0 <= j < |pairs| && pairs[j] == (q, p);
    }
  }

  /** The item is what the constructor builds from its own property values:
      one value per parameter, null only where the type allows it, and
      accepted by the class's own checks. */
  ghost predicate Constructible(dc: DataClass, item: Instance) {
    && item.values.Keys == ParameterNames(dc.parameters)
    && (forall p :: p in dc.parameters ==> p.nullable || item.values[p.name] != Null)
    && dc.accepts(item.values)
  }

  /** Every attribute's converter reads back what it writes for the item. */
  ghost predicate ConvertersRoundTrip(attrs: seq<Attribute>, item: Instance)
    requires ItemOf(attrs, item)
  {
    forall j :: 0 <= j < |attrs| ==> RoundTrips(attrs[j].converter, item.values[attrs[j].prop.name])
  }

  /** The parameter names the attributes bind. */
  ghost function BoundNames(attrs: seq<Attribute>): set<string> {
    set j | 0 <= j < |attrs| :: attrs[j].constructorParam.name
  }

  lemma CallByRebuilds(dc: DataClass, item: Instance)
    requires DistinctParameterNames(dc.parameters)
    requires Constructible(dc, item)
    ensures CallBy(dc, item.values) == Success(item)
  {
    OwnValuesAreBound(dc, item);
  }

  lemma OwnValuesAreBound(dc: DataClass, item: Instance)
    requires Constructible(dc, item)
    ensures BoundValues(dc.parameters, item.values) == item.values
  {
    var b := BoundValues(dc.parameters, item.values);
    forall n | n in item.values
      ensures n in b && b[n] == item.values[n]
    {
      var p := ParameterNamed(dc.parameters, n).value;
      assert BoundValue(p, item.values) == Some(item.values[n]);
    }
  }

  /** The item's values for the parameters the attributes bind. */
  ghost function ValuesBound(attrs: seq<Attribute>, item: Instance): map<string, Native> {
    map n | n in BoundNames(attrs) && n in item.values :: item.values[n]
  }

  /** One step of decoding the item's own map: the `k`-th attribute binds its
      parameter to the item's value. */
  lemma CollectArgumentsStep(s: Schema, item: Instance, m: map<string, AttributeValue>, k: nat,
                             before: map<string, Native>)
    requires ItemOf(s.attributes, item)
    requires forall j, k :: 0 <= j < k < |s.attributes| ==>
               s.attributes[j].attributeName != s.attributes[k].attributeName
    requires ConvertersRoundTrip(s.attributes, item)
    requires m == ItemToMap(s, item, false)
    requires 0 < k <= |s.attributes|
    requires CollectArguments(s.attributes[..k - 1], s.attributes, m) == Success(before)
    ensures CollectArguments(s.attributes[..k], s.attributes, m)
            == Success(before[s.attributes[k - 1].constructorParam.name := item.values[s.attributes[k - 1].prop.name]])
  {
    var attrs := s.attributes;
    var a := attrs[k - 1];
    var kept := attrs[..k];
    assert kept[..|kept| - 1] == attrs[..k - 1];
    assert kept[|kept| - 1] == a;
    GetDistinct(attrs, k - 1);
    ItemToMapDistinct(s, item, k - 1);
    UnConvertInvertsConvert(a, item, m);
    CollectArgumentsAppend(kept, attrs, m, before, a, (a.constructorParam.name, item.values[a.prop.name]));
  }

  lemma CollectArgumentsAppend(kept: seq<Attribute>, all: seq<Attribute>, m: map<string, AttributeValue>,
                               before: map<string, Native>, a: Attribute, kv: (string, Native))
    requires |kept| > 0
    requires CollectArguments(kept[..|kept| - 1], all, m) == Success(before)
    requires Get(all, kept[|kept| - 1].attributeName) == Some(a)
    requires UnConvert(a, m) == Success(Some(kv))
    ensures CollectArguments(kept, all, m) == Success(before[kv.0 := kv.1])
  {
  }

  lemma ValuesBoundExtend(attrs: seq<Attribute>, item: Instance, k: nat)
    requires 0 < k <= |attrs|
    requires attrs[k - 1].prop.name == attrs[k - 1].constructorParam.name
    requires Readable(attrs[k - 1], item)
    ensures ValuesBound(attrs[..k - 1], item)[attrs[k - 1].constructorParam.name := item.values[attrs[k - 1].prop.name]]
            == ValuesBound(attrs[..k], item)
  {
    BoundNamesExtend(attrs, k);
  }

  lemma BoundNamesExtend(attrs: seq<Attribute>, k: nat)
    requires 0 < k <= |attrs|
    ensures BoundNames(attrs[..k]) == BoundNames(attrs[..k - 1]) + {attrs[k - 1].constructorParam.name}
  {
    assert forall j :: 0 <= j < k - 1 ==> attrs[..k][j] == attrs[..k - 1][j];
    assert attrs[..k][k - 1] == attrs[k - 1];
  }

  /** Decoding the first `k` attributes from the item's own map binds each of
      their parameters to the item's value. */
  lemma {:induction false} CollectArgumentsRoundTrip(s: Schema, item: Instance, m: map<string, AttributeValue>, k: nat)
    requires ItemOf(s.attributes, item)
    requires WellFormed(s)
    requires ConvertersRoundTrip(s.attributes, item)
    requires m == ItemToMap(s, item, false)
    requires k <= |s.attributes|
    ensures CollectArguments(s.attributes[..k], s.attributes, m) == Success(ValuesBound(s.attributes[..k], item))
    decreases k
  {
    var attrs := s.attributes;
    if k == 0 {
      assert BoundNames(attrs[..0]) == {};
    } else {
      var a := attrs[k - 1];
      CollectArgumentsRoundTrip(s, item, m, k - 1);
      CollectArgumentsStep(s, item, m, k, ValuesBound(attrs[..k - 1], item));
      ValuesBoundExtend(attrs, item, k);
    }
  }

  /** Writing an item with `itemToMap(item, false)` and reading the map back
      with `mapToItem` rebuilds the item, provided the converters round-trip. */
  lemma MapToItemInvertsItemToMap(s: Schema, item: Instance)
    requires ItemOf(s.attributes, item)
    requires WellFormed(s)
    requires Constructible(s.dataClass, item)
    requires ConvertersRoundTrip(s.attributes, item)
    ensures MapToItem(s, ItemToMap(s, item, false)) == Success(item)
  {
    ReadBackRebuilds(s, item, ItemToMap(s, item, false));
  }

  lemma ReadBackRebuilds(s: Schema, item: Instance, m: map<string, AttributeValue>)
    requires ItemOf(s.attributes, item)
    requires WellFormed(s)
    requires Constructible(s.dataClass, item)
    requires ConvertersRoundTrip(s.attributes, item)
    requires m == ItemToMap(s, item, false)
    ensures MapToItem(s, m) == Success(item)
  {
    ArgumentsOfWrittenItem(s, item, m);
    CallByRebuilds(s.dataClass, item);
    MapToItemCallsConstructor(s, m, item.values);
  }

  /** Reading back what `itemToMap` wrote binds every parameter to the item's value. */
  lemma ArgumentsOfWrittenItem(s: Schema, item: Instance, m: map<string, AttributeValue>)
    requires ItemOf(s.attributes, item)
    requires WellFormed(s)
    requires Constructible(s.dataClass, item)
    requires ConvertersRoundTrip(s.attributes, item)
    requires m == ItemToMap(s, item, false)
    ensures CollectArguments(Kept(s.attributes, m), s.attributes, m) == Success(item.values)
  {
    KeptIsRedundant(s.attributes, s.attributes, m);
    CollectEveryArgument(s, item, m);
    ValuesBoundIsItem(s, item);
  }

  lemma CollectEveryArgument(s: Schema, item: Instance, m: map<string, AttributeValue>)
    requires ItemOf(s.attributes, item)
    requires WellFormed(s)
    requires ConvertersRoundTrip(s.attributes, item)
    requires m == ItemToMap(s, item, false)
    ensures CollectArguments(s.attributes, s.attributes, m) == Success(ValuesBound(s.attributes, item))
  {
    CollectArgumentsRoundTrip(s, item, m, |s.attributes|);
    assert s.attributes[..|s.attributes|] == s.attributes;
  }

  lemma MapToItemCallsConstructor(s: Schema, m: map<string, AttributeValue>, args: map<string, Native>)
    requires CollectArguments(Kept(s.attributes, m), s.attributes, m) == Success(args)
    ensures MapToItem(s, m) == CallBy(s.dataClass, args)
  {
  }

  lemma ValuesBoundIsItem(s: Schema, item: Instance)
    requires WellFormed(s)
    requires Constructible(s.dataClass, item)
    ensures ValuesBound(s.attributes, item) == item.values
  {
    BoundNamesAreParameterNames(s);
  }

  lemma BoundNamesAreParameterNames(s: Schema)
    requires WellFormed(s)
    ensures BoundNames(s.attributes) == ParameterNames(s.dataClass.parameters)
  {
    forall n | n in ParameterNames(s.dataClass.parameters) ensures n in BoundNames(s.attributes) {
      var p :| p in s.dataClass.parameters && p.name == n;
      var j :| 0 <= j < |s.attributes| && s.attributes[j].constructorParam == p;
    }
  }
}

=== FILE: data_classes.dfy ===
/** The explicit description of a Kotlin data class that stands in for the
    reflection the library performs (`declaredMemberProperties`,
    `primaryConstructor`, `findAnnotation`), the annotations of
    `dataClassAnnotations.kt`, and the reflective constructor call `callBy`. */
module DataClasses {
  import opened Wrappers
  import opened Converters

  /** The shape of a property's declared type (`KType`), as far as the library inspects it. */
  datatype KType =
    | ListType(element: KType)
    | SetType(element: KType)
    | MapType(key: KType, value: KType)
    | ClassType(className: string)

  /** The number of type constructors in `t`. */
  function Size(t: KType): nat {
    match t
    case ListType(e) => 1 + Size(e)
    case SetType(e) => 1 + Size(e)
    case MapType(k, v) => 1 + Size(k) + Size(v)
    case ClassType(_) => 1
  }

  /** The class of a type, `returnType.classifier`. */
  function Classifier(t: KType): string {
    match t
    case ListType(_) => "kotlin.collections.List"
    case SetType(_) => "kotlin.collections.Set"
    case MapType(_, _) => "kotlin.collections.Map"
    case ClassType(name) => name
  }

  /** The library's property annotations; any other annotation is `OtherAnnotation`. */
  datatype Annotation =
    | DynamoKtPartitionKey
    | DynamoKtSortKey
    | DynamoKtConverted(converter: ConverterClass)
    | DynamoKtSecondaryPartitionKey(indexNames: seq<string>)
    | DynamoKtSecondarySortKey(indexNames: seq<string>)
    | DynamoKtAttribute(name: string)
    | DynamoKtFlatten
    | OtherAnnotation(className: string)

  /** What a getter annotation's class is meta-annotated with: the enhanced
      client's `BeanTableSchemaAttributeTag(generatorClass)`. `attributeTagFor`
      is the tag the generator's static `attributeTagFor` function returns, or
      `None` when the generator has no such function. */
  datatype AttributeTagMeta = AttributeTagMeta(generatorClass: string, attributeTagFor: Option<string>)

  /** An annotation on a property's getter. */
  datatype GetterAnnotation = GetterAnnotation(className: string, attributeTag: Option<AttributeTagMeta>)

  /** A declared member property, in the order reflection lists it. */
  datatype Property = Property(
    name: string,
    returnType: KType,
    annotations: seq<Annotation>,
    getterAnnotations: seq<GetterAnnotation>)

  /** A parameter of the primary constructor. `default` is the value its default
      expression produces, `None` when the parameter has no default. */
  datatype Parameter = Parameter(name: string, nullable: bool, default: Option<Native>)

  /** A class, as reflection describes it. `accepts` is the verdict of the
      constructor's own code (an `init` block) on the argument values. */
  datatype DataClass = DataClass(
    name: string,
    isData: bool,
    properties: seq<Property>,
    parameters: seq<Parameter>,
    preserveEmptyObject: bool,
    accepts: map<string, Native> -> bool)

  /** An instance: the value of each property, by property name. */
  datatype Instance = Instance(values: map<string, Native>)

  /** `clazz.isData` for a class name: the class is a known data class. */
  predicate IsDataClass(classes: map<string, DataClass>, n: string) {
    n in classes && classes[n].isData
  }

  /** `KParameter.isOptional`: the parameter has a default value. */
  predicate IsOptional(p: Parameter) {
    p.default.Some?
  }

  function PropertyName(p: Property): string {
    p.name
  }

  function ParameterName(p: Parameter): string {
    p.name
  }

  // ---- annotation lookups (`findAnnotation` returns the first match) ----

  /** `findAnnotation<DynamoKtAttribute>()?.name`. */
  function FindRename(anns: seq<Annotation>): (r: Option<string>)
    ensures r.None? <==> forall i :: 0 <= i < |anns| ==> !anns[i].DynamoKtAttribute?
    ensures r.Some? ==> exists i :: 0 <= i < |anns| && anns[i] == DynamoKtAttribute(r.value)
                          && forall j :: 0 <= j < i ==> !anns[j].DynamoKtAttribute?
  {
    if |anns| == 0 then None
    else if anns[0].DynamoKtAttribute? then Some(anns[0].name)
    else
      var r := FindRename(anns[1..]);
      assert r.Some? ==> exists i :: 1 <= i < |anns| && anns[i] == DynamoKtAttribute(r.value)
                          && forall j :: 0 <= j < i ==> !anns[j].DynamoKtAttribute? by {
        if r.Some? {
          var i :| 0 <= i < |anns[1..]| && anns[1..][i] == DynamoKtAttribute(r.value)
                   && forall j :: 0 <= j < i ==> !anns[1..][j].DynamoKtAttribute?;
          assert anns[i + 1] == anns[1..][i];
          forall j | 1 <= j < i + 1 ensures !anns[j].DynamoKtAttribute? {
            assert anns[j] == anns[1..][j - 1];
          }
        }
      }
      r
  }

  /** `findAnnotation<DynamoKtConverted>()?.converter`. */
  function FindConverter(anns: seq<Annotation>): (r: Option<ConverterClass>)
    ensures r.None? <==> forall i :: 0 <= i < |anns| ==> !anns[i].DynamoKtConverted?
    ensures r.Some? ==> exists i :: 0 <= i < |anns| && anns[i] == DynamoKtConverted(r.value)
                          && forall j :: 0 <= j < i ==> !anns[j].DynamoKtConverted?
  {
    if |anns| == 0 then None
    else if anns[0].DynamoKtConverted? then Some(anns[0].converter)
    else
      assert forall i :: 1 <= i < |anns| ==> anns[i] == anns[1..][i - 1];
      var r := FindConverter(anns[1..]);
      assert r.Some? ==> exists i :: 1 <= i < |anns| && anns[i] == DynamoKtConverted(r.value)
                          && forall j :: 0 <= j < i ==> !anns[j].DynamoKtConverted? by {
        if r.Some? {
          var i :| 0 <= i < |anns[1..]| && anns[1..][i] == DynamoKtConverted(r.value)
                   && forall j :: 0 <= j < i ==> !anns[1..][j].DynamoKtConverted?;
          assert anns[i + 1] == anns[1..][i];
        }
      }
      r
  }

  /** `findAnnotation<DynamoKtSecondaryPartitionKey>()?.indexNames ?: emptyArray()`. */
  function SecondaryPartitionIndexNames(anns: seq<Annotation>): (r: seq<string>)
    ensures r != [] ==> exists i :: 0 <= i < |anns| && anns[i] == DynamoKtSecondaryPartitionKey(r)
    ensures (forall i :: 0 <= i < |anns| ==> !anns[i].DynamoKtSecondaryPartitionKey?) ==> r == []
    ensures (exists i :: 0 <= i < |anns| && anns[i].DynamoKtSecondaryPartitionKey?) ==>
              exists i :: 0 <= i < |anns| && anns[i] == DynamoKtSecondaryPartitionKey(r)
                          && forall j :: 0 <= j < i ==> !anns[j].DynamoKtSecondaryPartitionKey?
  {
    if |anns| == 0 then []
    else if anns[0].DynamoKtSecondaryPartitionKey? then anns[0].indexNames
    else
      assert forall i :: 1 <= i < |anns| ==> anns[i] == anns[1..][i - 1];
      var r := SecondaryPartitionIndexNames(anns[1..]);
      assert (exists i :: 0 <= i < |anns| && anns[i].DynamoKtSecondaryPartitionKey?) ==>
               exists i :: 0 <= i < |anns| && anns[i] == DynamoKtSecondaryPartitionKey(r)
                           && forall j :: 0 <= j < i ==> !anns[j].DynamoKtSecondaryPartitionKey? by {
        if exists i :: 0 <= i < |anns| && anns[i].DynamoKtSecondaryPartitionKey? {
          var k :| 0 <= k < |anns| && anns[k].DynamoKtSecondaryPartitionKey?;
          assert anns[1..][k - 1].DynamoKtSecondaryPartitionKey?;
          var i :| 0 <= i < |anns[1..]| && anns[1..][i] == DynamoKtSecondaryPartitionKey(r)
                   && forall j :: 0 <= j < i ==> !anns[1..][j].DynamoKtSecondaryPartitionKey?;
          assert anns[i + 1] == anns[1..][i];
          forall j | 1 <= j < i + 1 ensures !anns[j].DynamoKtSecondaryPartitionKey? {
            assert anns[j] == anns[1..][j - 1];
          }
        }
      }
      r
  }

  /** `findAnnotation<DynamoKtSecondarySortKey>()?.indexNames ?: emptyArray()`. */
  function SecondarySortIndexNames(anns: seq<Annotation>): (r: seq<string>)
    ensures r != [] ==> exists i :: 0 <= i < |anns| && anns[i] == DynamoKtSecondarySortKey(r)
    ensures (forall i :: 0 <= i < |anns| ==> !anns[i].DynamoKtSecondarySortKey?) ==> r == []
    ensures (exists i :: 0 <= i < |anns| && anns[i].DynamoKtSecondarySortKey?) ==>
              exists i :: 0 <= i < |anns| && anns[i] == DynamoKtSecondarySortKey(r)
                          && forall j :: 0 <= j < i ==> !anns[j].DynamoKtSecondarySortKey?
  {
    if |anns| == 0 then []
    else if anns[0].DynamoKtSecondarySortKey? then anns[0].indexNames
    else
      assert forall i :: 1 <= i < |anns| ==> anns[i] == anns[1..][i - 1];
      var r := SecondarySortIndexNames(anns[1..]);
      assert (exists i :: 0 <= i < |anns| && anns[i].DynamoKtSecondarySortKey?) ==>
               exists i :: 0 <= i < |anns| && anns[i] == DynamoKtSecondarySortKey(r)
                           && forall j :: 0 <= j < i ==> !anns[j].DynamoKtSecondarySortKey? by {
        if exists i :: 0 <= i < |anns| && anns[i].DynamoKtSecondarySortKey? {
          var k :| 0 <= k < |anns| && anns[k].DynamoKtSecondarySortKey?;
          assert anns[1..][k - 1].DynamoKtSecondarySortKey?;
          var i :| 0 <= i < |anns[1..]| && anns[1..][i] == DynamoKtSecondarySortKey(r)
                   && forall j :: 0 <= j < i ==> !anns[1..][j].DynamoKtSecondarySortKey?;
          assert anns[i + 1] == anns[1..][i];
          forall j | 1 <= j < i + 1 ensures !anns[j].DynamoKtSecondarySortKey? {
            assert anns[j] == anns[1..][j - 1];
          }
        }
      }
      r
  }

  predicate HasPartitionKey(p: Property) {
    exists i :: 0 <= i < |p.annotations| && p.annotations[i].DynamoKtPartitionKey?
  }

  predicate HasSortKey(p: Property) {
    exists i :: 0 <= i < |p.annotations| && p.annotations[i].DynamoKtSortKey?
  }

  predicate HasSecondaryPartitionKey(p: Property) {
    exists i :: 0 <= i < |p.annotations| && p.annotations[i].DynamoKtSecondaryPartitionKey?
  }

  predicate HasSecondarySortKey(p: Property) {
    exists i :: 0 <= i < |p.annotations| && p.annotations[i].DynamoKtSecondarySortKey?
  }

  /** The name a property is stored under: the `DynamoKtAttribute` name when
      present, else the property name. */
  function StorageName(p: Property): (r: string)
    ensures FindRename(p.annotations).None? ==> r == p.name
    ensures FindRename(p.annotations).Some? ==> r == FindRename(p.annotations).value
    ensures FindRename(p.annotations).Some? ==>
              exists i :: 0 <= i < |p.annotations| && p.annotations[i] == DynamoKtAttribute(r)
                          && forall j :: 0 <= j < i ==> !p.annotations[j].DynamoKtAttribute?
  {
    match FindRename(p.annotations)
    case Some(n) => n
    case None => p.name
  }

  // ---- the reflective constructor call ----

  /** The value `callBy` binds to `p`: the argument when one is given, else the
      default, else nothing. */
  function BoundValue(p: Parameter, args: map<string, Native>): Option<Native> {
    if p.name in args then Some(args[p.name]) else p.default
  }

  /** The first parameter `callBy` has no value for. */
  function FirstMissing(ps: seq<Parameter>, args: map<string, Native>): (r: Option<Parameter>)
    ensures r.None? <==> forall p :: p in ps ==> BoundValue(p, args).Some?
    ensures r.Some? ==> r.value in ps && BoundValue(r.value, args).None?
  {
    if |ps| == 0 then None
    else if BoundValue(ps[0], args).None? then Some(ps[0])
    else
      assert forall p :: p in ps <==> p == ps[0] || p in ps[1..] by {
        assert ps == [ps[0]] + ps[1..];
      }
      FirstMissing(ps[1..], args)
  }

  /** The first parameter of a non-nullable type that would receive null. */
  function FirstNullViolation(ps: seq<Parameter>, args: map<string, Native>): (r: Option<Parameter>)
    ensures r.None? <==> forall p :: p in ps ==> p.nullable || BoundValue(p, args) != Some(Null)
    ensures r.Some? ==> r.value in ps && !r.value.nullable && BoundValue(r.value, args) == Some(Null)
  {
    if |ps| == 0 then None
    else if !ps[0].nullable && BoundValue(ps[0], args) == Some(Null) then Some(ps[0])
    else
      assert forall p :: p in ps <==> p == ps[0] || p in ps[1..] by {
        assert ps == [ps[0]] + ps[1..];
      }
      FirstNullViolation(ps[1..], args)
  }

  /** The first parameter named `n`. */
  function ParameterNamed(ps: seq<Parameter>, n: string): (r: Option<Parameter>)
    ensures r.None? <==> forall p :: p in ps ==> p.name != n
    ensures r.Some? ==> r.value in ps && r.value.name == n
  {
    if |ps| == 0 then None
    else if ps[0].name == n then Some(ps[0])
    else
      assert forall p :: p in ps <==> p == ps[0] || p in ps[1..] by {
        assert ps == [ps[0]] + ps[1..];
      }
      ParameterNamed(ps[1..], n)
  }

  /** Parameter names are distinct, as Kotlin guarantees for a constructor. */
  ghost predicate DistinctParameterNames(ps: seq<Parameter>) {
    forall i, j :: 0 <= i < |ps| && 0 <= j < |ps| && i != j ==> ps[i].name != ps[j].name
  }

  /** Under distinct names, looking a parameter up by its own name finds it. */
  lemma ParameterNamedOwn(ps: seq<Parameter>, p: Parameter)
    requires DistinctParameterNames(ps)
    requires p in ps
    ensures ParameterNamed(ps, p.name) == Some(p)
  {
    var q := ParameterNamed(ps, p.name).value;
    var i :| 0 <= i < |ps| && ps[i] == p;
    var j :| 0 <= j < |ps| && ps[j] == q;
  }

  /** The names of the parameters `ps`. */
  function ParameterNames(ps: seq<Parameter>): (r: set<string>)
    ensures forall n :: n in r <==> exists p :: p in ps && p.name == n
  {
    set p | p in ps :: p.name
  }

  /** The values the constructor receives, one per parameter name. */
  function BoundValues(ps: seq<Parameter>, args: map<string, Native>): (r: map<string, Native>)
    ensures forall n :: n in r <==> exists p :: p in ps && p.name == n
  {
    map n | n in ParameterNames(ps) :: BoundValue(ParameterNamed(ps, n).value, args).GetOr(Null)
  }

  /** `KFunction.callBy(args)` on the primary constructor of `dc`: a parameter
      missing from `args` takes its default, and fails the call when it has
      none; null passed to a non-nullable parameter fails the call; finally the
      constructor's own code may reject the values. */
  function CallBy(dc: DataClass, args: map<string, Native>): (r: Result<Instance>)
    ensures r.Success? <==>
              && (forall p :: p in dc.parameters ==> BoundValue(p, args).Some?)
              && (forall p :: p in dc.parameters ==> p.nullable || BoundValue(p, args) != Some(Null))
              && dc.accepts(BoundValues(dc.parameters, args))
    ensures r.Success? ==> forall n :: n in r.value.values <==> exists p :: p in dc.parameters && p.name == n
    ensures r.Success? && DistinctParameterNames(dc.parameters) ==>
              forall p :: p in dc.parameters ==> Some(r.value.values[p.name]) == BoundValue(p, args)
    ensures (exists p :: p in dc.parameters && BoundValue(p, args).None?) ==>
              r == Failure(MissingArgument(FirstMissing(dc.parameters, args).value.name))
  {
    match FirstMissing(dc.parameters, args)
    case Some(p) => Failure(MissingArgument(p.name))
    case None =>
      match FirstNullViolation(dc.parameters, args)
      case Some(p) => Failure(NullArgument(p.name))
      case None =>
        var values := BoundValues(dc.parameters, args);
        if dc.accepts(values) then Success(Instance(values)) else Failure(ConstructorThrew(dc.name))
  }
}

=== FILE: dev_attribute.dfy ===
/** The dev package's field compilation (`toImmutableDataClassAttribute`): the
    storage name, the converter (an explicit `DynamoKtConverted` class first,
    else the default provider's converter for the translated type), the key
    role tags, and the type translation, whose documents take their schema
    from the shared schema cache and honour `DynamoKtPreserveEmptyObject`. */
module ImmutableDataClassAttribute {
  import opened Wrappers
  import opened Converters
  import opened DataClasses
  import opened EnhancedTypes
  import opened ImmutableDataClassBuilder
  import Schemas
  import Filters

  /** A document built from the schema cache `cacheId`, carrying its class's
      preserve-empty-object flag. */
  predicate CachedDocument(d: EnhancedType, classes: map<string, DataClass>, cacheId: nat) {
    d.DocumentOf? && d.schema == Cached(cacheId)
    && d.className in classes && d.preserveEmptyObject == classes[d.className].preserveEmptyObject
  }

  /** `KType.toEnhancedType(schemaCache)`. The cache stands in for the schema
      of a nested data class, so the translation cannot recurse without end. */
  function ToEnhancedType(t: KType, classes: map<string, DataClass>, cacheId: nat): (r: EnhancedType)
    ensures Mirrors(t, r, classes)
    ensures AllDocuments(r, d => CachedDocument(d, classes, cacheId))
  {
    match t
    case ListType(x) => ListOf(ToEnhancedType(x, classes, cacheId))
    case SetType(x) => SetOf(ToEnhancedType(x, classes, cacheId))
    case MapType(k, v) => MapOf(ToEnhancedType(k, classes, cacheId), ToEnhancedType(v, classes, cacheId))
    case ClassType(n) =>
      if IsDataClass(classes, n) then DocumentOf(n, Cached(cacheId), classes[n].preserveEmptyObject)
      else Of(n)
  }

  /** An enhanced type with the schema and flag of every document erased. */
  function Shape(e: EnhancedType): EnhancedType {
    match e
    case ListOf(x) => ListOf(Shape(x))
    case SetOf(x) => SetOf(Shape(x))
    case MapOf(k, v) => MapOf(Shape(k), Shape(v))
    case DocumentOf(n, _, _) => DocumentOf(n, Cached(0), false)
    case Of(n) => Of(n)
  }

  /** Two translations of the same declared type differ at most in their documents' schemas and flags. */
  lemma {:induction false} MirrorsDetermineShape(t: KType, e1: EnhancedType, e2: EnhancedType, classes: map<string, DataClass>)
    requires Mirrors(t, e1, classes) && Mirrors(t, e2, classes)
    ensures Shape(e1) == Shape(e2)
    decreases t
  {
    match t
    case ListType(x) => MirrorsDetermineShape(x, e1.element, e2.element, classes);
    case SetType(x) => MirrorsDetermineShape(x, e1.element, e2.element, classes);
    case MapType(k, v) =>
      MirrorsDetermineShape(k, e1.key, e2.key, classes);
      MirrorsDetermineShape(v, e1.value, e2.value, classes);
    case ClassType(n) =>
  }

  /** The two packages translate a declared type to the same shape; they differ
      only in where a document's schema comes from and in its
      preserve-empty-object flag. */
  lemma PackagesAgreeOnShape(t: KType, classes: map<string, DataClass>, provider: Provider, depth: Schemas.Frames, cacheId: nat)
    requires Schemas.ToEnhancedType(t, classes, provider, depth).Success?
    ensures Shape(Schemas.ToEnhancedType(t, classes, provider, depth).value) == Shape(ToEnhancedType(t, classes, cacheId))
  {
    MirrorsDetermineShape(t, Schemas.ToEnhancedType(t, classes, provider, depth).value, ToEnhancedType(t, classes, cacheId), classes);
  }

  /** The role tags of the enhanced client (`StaticAttributeTags`), and an
      extension's own tag, identified by the value its generator returned. */
  datatype Tag =
    | PrimaryPartitionKey
    | PrimarySortKey
    | SecondaryPartitionKey(indexNames: seq<string>)
    | SecondarySortKey(indexNames: seq<string>)
    | ExtensionTag(tag: string)

  /** The tag one property annotation contributes, if any. */
  function TagOf(a: Annotation): (r: Option<Tag>)
    ensures a.DynamoKtPartitionKey? <==> r == Some(PrimaryPartitionKey)
    ensures a.DynamoKtSortKey? <==> r == Some(PrimarySortKey)
    ensures a.DynamoKtSecondaryPartitionKey? <==> r.Some? && r.value.SecondaryPartitionKey?
    ensures a.DynamoKtSecondarySortKey? <==> r.Some? && r.value.SecondarySortKey?
    ensures a.DynamoKtSecondaryPartitionKey? ==> r.value.indexNames == a.indexNames
    ensures a.DynamoKtSecondarySortKey? ==> r.value.indexNames == a.indexNames
    ensures r.Some? ==> !r.value.ExtensionTag?
  {
    match a
    case DynamoKtPartitionKey => Some(PrimaryPartitionKey)
    case DynamoKtSortKey => Some(PrimarySortKey)
    case DynamoKtSecondaryPartitionKey(names) => Some(SecondaryPartitionKey(names))
    case DynamoKtSecondarySortKey(names) => Some(SecondarySortKey(names))
    case _ => None
  }

  /** The first loop of `tags()`: one tag per key annotation, in annotation order. */
  function AnnotationTags(anns: seq<Annotation>): (r: seq<Tag>)
    ensures forall t :: t in r <==> exists i :: 0 <= i < |anns| && TagOf(anns[i]) == Some(t)
    ensures |r| <= |anns|
  {
    if |anns| == 0 then []
    else
      var rest := AnnotationTags(anns[1..]);
      assert forall i :: 1 <= i < |anns| ==> anns[i] == anns[1..][i - 1];
      assert forall t :: (exists i :: 0 <= i < |anns[1..]| && TagOf(anns[1..][i]) == Some(t)) ==>
                         exists i :: 1 <= i < |anns| && TagOf(anns[i]) == Some(t) by {
        forall t | exists i :: 0 <= i < |anns[1..]| && TagOf(anns[1..][i]) == Some(t)
          ensures exists i :: 1 <= i < |anns| && TagOf(anns[i]) == Some(t)
        {
          var i :| 0 <= i < |anns[1..]| && TagOf(anns[1..][i]) == Some(t);
          assert TagOf(anns[i + 1]) == Some(t);
        }
      }
      TagOf(anns[0]).ToSeq() + rest
  }

  /** The annotation contributes a key tag. */
  predicate HasTag(a: Annotation) {
    TagOf(a).Some?
  }

  /** `buildList` keeps annotation order: the tags are those of the annotations
      at exactly the positions of the key annotations, one tag each. */
  lemma {:induction false} AnnotationTagsKeepOrder(anns: seq<Annotation>)
    ensures var pos := Filters.KeptPositions(anns, HasTag);
            && |AnnotationTags(anns)| == |pos|
            && forall k :: 0 <= k < |pos| ==> Some(AnnotationTags(anns)[k]) == TagOf(anns[pos[k]])
    decreases |anns|
  {
    if |anns| > 0 {
      var rest := AnnotationTags(anns[1..]);
      var pos := Filters.KeptPositions(anns[1..], HasTag);
      var shifted := Filters.Shift(pos);
      AnnotationTagsKeepOrder(anns[1..]);
      Filters.KeptPositionsStep(anns, HasTag);
      forall k | 0 <= k < |pos| ensures Some(rest[k]) == TagOf(anns[shifted[k]]) {
        assert anns[1..][pos[k]] == anns[shifted[k]];
      }
      if HasTag(anns[0]) {
        var r := AnnotationTags(anns);
        assert r == [TagOf(anns[0]).value] + rest;
        forall k | 0 <= k < |r| ensures Some(r[k]) == TagOf(anns[([0] + shifted)[k]]) {
          if k > 0 {
            assert r[k] == rest[k - 1] && ([0] + shifted)[k] == shifted[k - 1];
          }
        }
      } else {
        assert AnnotationTags(anns) == rest;
      }
    }
  }

  /** The message prefix of the error for a tag annotation whose generator has no `attributeTagFor`. */
  const AttributeTagForRequired: string := "static attributeTagFor function required for "

  /** A getter annotation meta-annotated as an attribute tag whose generator lacks `attributeTagFor`. */
  predicate MissingGenerator(g: GetterAnnotation) {
    g.attributeTag.Some? && g.attributeTag.value.attributeTagFor.None?
  }

  /** The second loop of `tags()`: the tag each meta-tagged getter annotation's
      generator returns; other getter annotations are skipped. */
  function GetterTags(gs: seq<GetterAnnotation>): (r: Result<seq<Tag>>)
    ensures r.Success? <==> forall i :: 0 <= i < |gs| ==> !MissingGenerator(gs[i])
    ensures r.Failure? ==> r.error == IllegalState(AttributeTagForRequired)
    ensures r.Success? ==> forall t :: t in r.value <==>
              exists i :: 0 <= i < |gs| && gs[i].attributeTag.Some?
                          && Some(t) == (match gs[i].attributeTag.value.attributeTagFor
                                         case Some(s) => Some(ExtensionTag(s))
                                         case None => None)
    ensures r.Success? ==> forall t :: t in r.value ==> t.ExtensionTag?
  {
    if |gs| == 0 then Success([])
    else
      var first :- match gs[0].attributeTag
        case None => Success([])
        case Some(meta) =>
          match meta.attributeTagFor
          case None => Failure(IllegalState(AttributeTagForRequired))
          case Some(s) => Success([ExtensionTag(s)]);
      var rest :- GetterTags(gs[1..]);
      assert forall i :: 1 <= i < |gs| ==> gs[i] == gs[1..][i - 1];
      Success(first + rest)
  }

  /** `tags()`: the key-role tags followed by the extension tags. */
  function Tags(p: Property): (r: Result<seq<Tag>>)
    ensures r.Success? <==> GetterTags(p.getterAnnotations).Success?
    ensures r.Success? ==> r.value == AnnotationTags(p.annotations) + GetterTags(p.getterAnnotations).value
  {
    var extensions :- GetterTags(p.getterAnnotations);
    Success(AnnotationTags(p.annotations) + extensions)
  }

  /** The compiled field: storage name, the property it reads and stages
      into, converter and tags. */
  datatype ImmutableAttribute = ImmutableAttribute(
    name: string,
    propertyName: string,
    converter: Converter,
    tags: seq<Tag>)

  /** The attribute's getter, `::get` on the property. */
  function Getter(a: ImmutableAttribute, item: Instance): Native
    requires a.propertyName in item.values
  {
    item.values[a.propertyName]
  }

  /** The attribute's setter, `builder[name] = value` with the property name. */
  function Setter(a: ImmutableAttribute, b: Builder, value: Native): Builder {
    Set(b, a.propertyName, value)
  }

  /** The dev package's `initConverter`, whose missing `create` fails `first { }`. */
  function InitDevConverter(cls: ConverterClass): (r: Result<Converter>)
    ensures r.Failure? ==> r.error == NoSuchElement || r.error == IllegalArgument(CallArityMismatch, None)
    ensures (exists i :: 0 <= i < |cls.constructors| && cls.constructors[i].isPublic) ==>
              var k := FirstPublicConstructor(cls.constructors).value;
              r == if k.parameterCount == 0 then Success(k.instance)
                   else Failure(IllegalArgument(CallArityMismatch, None))
    ensures (forall i :: 0 <= i < |cls.constructors| ==> !cls.constructors[i].isPublic) ==>
              (r.Success? <==> exists f :: f in cls.staticFunctions && IsPublicCreate(f))
    ensures r.Success? ==>
              (exists k :: k in cls.constructors && k.isPublic && k.parameterCount == 0 && r.value == k.instance) ||
              (exists f :: f in cls.staticFunctions && IsPublicCreate(f) && r.value == f.result)
  {
    InitConverter(cls, NoSuchElement)
  }

  /** The converter of a property: the annotated class's, else the default
      provider's for the property's translated type. */
  function ConverterOf(p: Property, classes: map<string, DataClass>, provider: Provider, cacheId: nat): (r: Result<Converter>)
    ensures FindConverter(p.annotations).Some? ==> r == InitDevConverter(FindConverter(p.annotations).value)
    ensures FindConverter(p.annotations).None? ==>
              (r.Success? <==> provider(ToEnhancedType(p.returnType, classes, cacheId)).Some?)
              && (r.Success? ==> provider(ToEnhancedType(p.returnType, classes, cacheId)) == Some(r.value))
              && (r.Failure? ==> r.error == ConverterNotFound)
  {
    match FindConverter(p.annotations)
    case Some(cls) => InitDevConverter(cls)
    case None =>
      match provider(ToEnhancedType(p.returnType, classes, cacheId))
      case Some(c) => Success(c)
      case None => Failure(ConverterNotFound)
  }

  /** `toImmutableDataClassAttribute`: the converter is resolved first, then the
      tags; the storage name is the rename when there is one. */
  function ToImmutableAttribute(p: Property, classes: map<string, DataClass>, provider: Provider, cacheId: nat)
    : (r: Result<ImmutableAttribute>)
    ensures r.Success? <==> ConverterOf(p, classes, provider, cacheId).Success? && Tags(p).Success?
    ensures ConverterOf(p, classes, provider, cacheId).Failure? ==> r == Failure(ConverterOf(p, classes, provider, cacheId).error)
    ensures ConverterOf(p, classes, provider, cacheId).Success? && Tags(p).Failure? ==> r == Failure(Tags(p).error)
    ensures r.Success? ==> r.value.name == StorageName(p) && r.value.propertyName == p.name
    ensures r.Success? ==> Success(r.value.tags) == Tags(p)
    ensures FindConverter(p.annotations).Some? ==>
              (r.Success? ==> Success(r.value.converter) == InitDevConverter(FindConverter(p.annotations).value))
              && (InitDevConverter(FindConverter(p.annotations).value).Failure? ==>
                    r == Failure(InitDevConverter(FindConverter(p.annotations).value).error))
    ensures FindConverter(p.annotations).None? ==>
              (r.Success? ==> provider(ToEnhancedType(p.returnType, classes, cacheId)) == Some(r.value.converter))
              && (provider(ToEnhancedType(p.returnType, classes, cacheId)).None? ==> r == Failure(ConverterNotFound))
  {
    var converter :- ConverterOf(p, classes, provider, cacheId);
    var tags :- Tags(p);
    Success(ImmutableAttribute(StorageName(p), p.name, converter, tags))
  }

  /** With an explicit converter class, the default provider plays no part. */
  lemma ExplicitConverterIgnoresProvider(p: Property, classes: map<string, DataClass>,
                                         provider1: Provider, provider2: Provider, cacheId: nat)
    requires FindConverter(p.annotations).Some?
    ensures ToImmutableAttribute(p, classes, provider1, cacheId) == ToImmutableAttribute(p, classes, provider2, cacheId)
  {
  }

  /** The setter stages under the property name: a renamed attribute's storage
      name stays unstaged, and the getter reads back what the setter staged
      once the builder's values become the item's. */
  lemma SetterStagesUnderPropertyName(a: ImmutableAttribute, b: Builder, value: Native)
    ensures Get(Setter(a, b, value), a.propertyName) == value
    ensures a.name != a.propertyName ==> Get(Setter(a, b, value), a.name) == Get(b, a.name)
    ensures Getter(a, Instance(Setter(a, b, value).values)) == value
  {
  }

  /** Every key annotation of the property yields its tag, index names included,
      and every tag comes from a key annotation or a tag generator. */
  lemma TagsFollowAnnotations(p: Property)
    requires Tags(p).Success?
    ensures forall i :: 0 <= i < |p.annotations| && p.annotations[i].DynamoKtSecondaryPartitionKey? ==>
              SecondaryPartitionKey(p.annotations[i].indexNames) in Tags(p).value
    ensures forall i :: 0 <= i < |p.annotations| && p.annotations[i].DynamoKtSecondarySortKey? ==>
              SecondarySortKey(p.annotations[i].indexNames) in Tags(p).value
    ensures HasPartitionKey(p) ==> PrimaryPartitionKey in Tags(p).value
    ensures HasSortKey(p) ==> PrimarySortKey in Tags(p).value
    ensures forall t :: t in Tags(p).value && !t.ExtensionTag? ==>
              exists i :: 0 <= i < |p.annotations| && TagOf(p.annotations[i]) == Some(t)
  {
    var keyTags := AnnotationTags(p.annotations);
    assert forall t :: t in keyTags ==> t in Tags(p).value;
  }
}

=== FILE: dev_builder.dfy ===
/** The dev package's `ImmutableDataClassBuilder`: a staging map from property
    names to values that the attribute setters fill, and `build`, which calls
    the primary constructor with the staged values. A null or absent value for
    a parameter with a default is left out so that the default applies. */
module ImmutableDataClassBuilder {
  import opened Wrappers
  import opened Converters
  import opened DataClasses

  /** The staged values; `Null` is a staged null. */
  datatype Builder = Builder(values: map<string, Native>)

  /** The message prefix of the exception `build` wraps construction failures in. */
  const CouldNotMap: string := "Could not map item to "

  /** `get(name)`: the staged value, null when nothing is staged under `name`. */
  function Get(b: Builder, name: string): (r: Native)
    ensures name !in b.values ==> r == Null
    ensures name in b.values ==> r == b.values[name]
  {
    if name in b.values then b.values[name] else Null
  }

  /** `set(name, value)`. */
  function Set(b: Builder, name: string, value: Native): (r: Builder)
    ensures Get(r, name) == value
    ensures forall n :: n != name ==> Get(r, n) == Get(b, n)
    ensures r.values.Keys == b.values.Keys + {name}
  {
    Builder(b.values[name := value])
  }

  /** A parameter `build` leaves out: its value is null and it has a default. */
  predicate Omitted(p: Parameter, b: Builder) {
    Get(b, p.name) == Null && IsOptional(p)
  }

  /** The arguments `build` passes: each parameter's staged value (null when
      none), except the parameters it omits. */
  function Arguments(ps: seq<Parameter>, b: Builder): (r: map<string, Native>)
    ensures forall n :: n in r ==> r[n] == Get(b, n)
    ensures forall n :: n in r ==> exists p :: p in ps && p.name == n && !Omitted(p, b)
    ensures forall p :: p in ps && !Omitted(p, b) ==> p.name in r
    ensures DistinctParameterNames(ps) ==> forall p :: p in ps && Omitted(p, b) ==> p.name !in r
  {
    if |ps| == 0 then map[]
    else
      var rest := Arguments(ps[1..], b);
      assert forall p :: p in ps <==> p == ps[0] || p in ps[1..] by {
        assert ps == [ps[0]] + ps[1..];
      }
      assert DistinctParameterNames(ps) ==> DistinctParameterNames(ps[1..]) && forall p :: p in ps[1..] ==> p.name != ps[0].name by {
        if DistinctParameterNames(ps) {
          forall p | p in ps[1..] ensures p.name != ps[0].name {
            var i :| 0 <= i < |ps[1..]| && ps[1..][i] == p;
            assert ps[i + 1] == p;
          }
          forall i, j | 0 <= i < |ps[1..]| && 0 <= j < |ps[1..]| && i != j ensures ps[1..][i].name != ps[1..][j].name {
            assert ps[1..][i] == ps[i + 1] && ps[1..][j] == ps[j + 1];
          }
        }
      }
      if Omitted(ps[0], b) then rest else rest[ps[0].name := Get(b, ps[0].name)]
  }

  /** `build()`: `callBy` with the arguments; any failure is rethrown as an
      illegal argument naming the class and carrying the cause. */
  function Build(b: Builder, dc: DataClass): (r: Result<Instance>)
    ensures r.Success? <==> CallBy(dc, Arguments(dc.parameters, b)).Success?
    ensures r.Success? ==> r == CallBy(dc, Arguments(dc.parameters, b))
    ensures r.Failure? ==> r.error == IllegalArgument(CouldNotMap + dc.name, Some(CallBy(dc, Arguments(dc.parameters, b)).error))
  {
    match CallBy(dc, Arguments(dc.parameters, b))
    case Success(item) => Success(item)
    case Failure(e) => Failure(IllegalArgument(CouldNotMap + dc.name, Some(e)))
  }

  /** A later `set` of the same name replaces the earlier one. */
  lemma SetOverwrites(b: Builder, name: string, v: Native, w: Native)
    ensures Set(Set(b, name, v), name, w) == Set(b, name, w)
  {
  }

  /** Every parameter receives a value: `build` never fails for a missing argument. */
  lemma BuildBindsEveryParameter(b: Builder, dc: DataClass)
    ensures forall p :: p in dc.parameters ==> BoundValue(p, Arguments(dc.parameters, b)).Some?
    ensures Build(b, dc).Failure? ==> !Build(b, dc).error.cause.value.MissingArgument?
  {
    var args := Arguments(dc.parameters, b);
    assert forall p :: p in dc.parameters ==> BoundValue(p, args).Some?;
  }

  /** The value each parameter of a built instance receives: the default for
      an omitted parameter, the staged value (null when none) otherwise. */
  lemma BuiltValues(b: Builder, dc: DataClass, p: Parameter)
    requires DistinctParameterNames(dc.parameters)
    requires Build(b, dc).Success?
    requires p in dc.parameters
    ensures Omitted(p, b) ==> Build(b, dc).value.values[p.name] == p.default.value
    ensures !Omitted(p, b) ==> Build(b, dc).value.values[p.name] == Get(b, p.name)
  {
    var args := Arguments(dc.parameters, b);
    assert Some(Build(b, dc).value.values[p.name]) == BoundValue(p, args);
  }

  /** A parameter without a default that nothing was staged for is passed null,
      so a nullable field missing from the item reads back as null. */
  lemma MissingNullableIsNull(b: Builder, dc: DataClass, p: Parameter)
    requires DistinctParameterNames(dc.parameters)
    requires p in dc.parameters && !IsOptional(p) && p.name !in b.values
    requires Build(b, dc).Success?
    ensures Build(b, dc).value.values[p.name] == Null
  {
    BuiltValues(b, dc, p);
  }

  /** The same parameter without a default, when not nullable, makes `build`
      fail, wrapping a null-argument error. */
  lemma MissingNonNullableFails(b: Builder, dc: DataClass, p: Parameter)
    requires DistinctParameterNames(dc.parameters)
    requires p in dc.parameters && !IsOptional(p) && !p.nullable && p.name !in b.values
    ensures Build(b, dc).Failure?
    ensures Build(b, dc).error.cause.value.NullArgument?
  {
    var args := Arguments(dc.parameters, b);
    assert BoundValue(p, args) == Some(Null);
    BuildBindsEveryParameter(b, dc);
  }

  /** Staging a value under a name no constructor parameter has changes nothing. */
  lemma UnmatchedNameIsIgnored(b: Builder, dc: DataClass, name: string, v: Native)
    requires forall p :: p in dc.parameters ==> p.name != name
    ensures Build(Set(b, name, v), dc) == Build(b, dc)
  {
    var b2 := Set(b, name, v);
    var a1 := Arguments(dc.parameters, b);
    var a2 := Arguments(dc.parameters, b2);
    assert forall p :: p in dc.parameters ==> (Omitted(p, b2) <==> Omitted(p, b));
    assert a1.Keys == a2.Keys;
    assert a1 == a2;
  }
}

=== FILE: enhanced_types.dfy ===
/** The enhanced client's `EnhancedType`, as far as the library builds it from
    a property's declared type, and the default converter provider that maps
    such a type to a converter. */
module EnhancedTypes {
  import opened Wrappers
  import opened Converters
  import opened DataClasses
  import opened DataClassAttribute

  /** The table schema a document type carries. */
  datatype NestedSchema =
    /** A schema built afresh for this occurrence of the class (the io package). */
    | Fresh(attributes: seq<Attribute>)
    /** The schema the dev package takes from its shared schema cache,
        identified by the cache it comes from. */
    | Cached(cacheId: nat)

  datatype EnhancedType =
    | ListOf(element: EnhancedType)
    | SetOf(element: EnhancedType)
    | MapOf(key: EnhancedType, value: EnhancedType)
    | DocumentOf(className: string, schema: NestedSchema, preserveEmptyObject: bool)
    | Of(className: string)

  /** `AttributeConverterProvider.defaultProvider().converterFor`: `None` when
      the provider has no converter for the type (the SDK throws). */
  type Provider = EnhancedType -> Option<Converter>

  /** `e` has the shape of the declared type `t`: collections become the same
      collection of the translated arguments, data classes become documents,
      and every other class becomes a plain type. */
  ghost predicate Mirrors(t: KType, e: EnhancedType, classes: map<string, DataClass>) {
    match t
    case ListType(x) => e.ListOf? && Mirrors(x, e.element, classes)
    case SetType(x) => e.SetOf? && Mirrors(x, e.element, classes)
    case MapType(k, v) => e.MapOf? && Mirrors(k, e.key, classes) && Mirrors(v, e.value, classes)
    case ClassType(n) =>
      if IsDataClass(classes, n) then e.DocumentOf? && e.className == n else e == Of(n)
  }

  /** Every document inside `e` satisfies `doc`. */
  ghost predicate AllDocuments(e: EnhancedType, doc: EnhancedType -> bool) {
    match e
    case ListOf(x) => AllDocuments(x, doc)
    case SetOf(x) => AllDocuments(x, doc)
    case MapOf(k, v) => AllDocuments(k, doc) && AllDocuments(v, doc)
    case DocumentOf(_, _, _) => doc(e)
    case Of(_) => true
  }
}

=== FILE: filters.dfy ===
/** Kotlin's `filter` on a list, described by the positions it keeps: the result
    is the input read at those positions, in increasing order, so it keeps the
    input's order and each kept element exactly as often as the input has it. */
module Filters {

  /** The positions of `s` whose element passes `keep`, in increasing order. */
  ghost function KeptPositions<T>(s: seq<T>, keep: T -> bool): (r: seq<nat>)
    ensures forall k :: 0 <= k < |r| ==> r[k] < |s|
    ensures forall k, l :: 0 <= k < l < |r| ==> r[k] < r[l]
    ensures forall i :: 0 <= i < |s| ==> (i in r <==> keep(s[i]))
    decreases |s|
  {
    if |s| == 0 then []
    else
      var rest := KeptPositions(s[1..], keep);
      var shifted := Shift(rest);
      assert forall i :: 1 <= i < |s| ==> (i in shifted <==> i - 1 in rest) by {
        forall i | 1 <= i < |s| ensures i in shifted <==> i - 1 in rest {
          if i - 1 in rest {
            var k :| 0 <= k < |rest| && rest[k] == i - 1;
            assert shifted[k] == i;
          }
        }
      }
      assert forall i :: 1 <= i < |s| ==> s[i] == s[1..][i - 1];
      if keep(s[0]) then [0] + shifted else shifted
  }

  /** Every position one further on. */
  function Shift(r: seq<nat>): (t: seq<nat>)
    ensures |t| == |r|
    ensures forall k :: 0 <= k < |r| ==> t[k] == r[k] + 1
    ensures forall k :: 0 <= k < |t| ==> t[k] > 0
  {
    seq(|r|, k requires 0 <= k < |r| => r[k] + 1)
  }

  /** `r` is `s` read at the positions `pos`. */
  ghost predicate ReadAt<T>(r: seq<T>, s: seq<T>, pos: seq<nat>) {
    && |r| == |pos|
    && (forall k :: 0 <= k < |pos| ==> pos[k] < |s|)
    && (forall k :: 0 <= k < |r| ==> r[k] == s[pos[k]])
  }

  /** Reading the tail of `s` at `pos` is reading `s` one position further on. */
  lemma ReadAtShift<T>(r: seq<T>, s: seq<T>, pos: seq<nat>)
    requires |s| > 0
    requires ReadAt(r, s[1..], pos)
    ensures ReadAt(r, s, Shift(pos))
  {
    forall k | 0 <= k < |r| ensures r[k] == s[Shift(pos)[k]] {
      assert s[1..][pos[k]] == s[pos[k] + 1];
    }
  }

  /** Prepending the head of `s` and position 0. */
  lemma ReadAtCons<T>(r: seq<T>, s: seq<T>, pos: seq<nat>)
    requires |s| > 0
    requires ReadAt(r, s, pos)
    ensures ReadAt([s[0]] + r, s, [0] + pos)
  {
    var r' := [s[0]] + r;
    var pos' := [0] + pos;
    forall k | 0 <= k < |r'| ensures r'[k] == s[pos'[k]] {
      if k > 0 {
        assert r'[k] == r[k - 1] && pos'[k] == pos[k - 1];
      }
    }
  }

  /** The positions kept in `s` are those kept in its tail, one further on,
      after position 0 when the head passes. */
  lemma KeptPositionsStep<T>(s: seq<T>, keep: T -> bool)
    requires |s| > 0
    ensures var rest := Shift(KeptPositions(s[1..], keep));
            KeptPositions(s, keep) == if keep(s[0]) then [0] + rest else rest
  {
  }
}

=== FILE: names.dfy ===
/** Ordering and sorting of names: Kotlin's `String.compareTo` and `sortedBy { it.name }`,
    and `toSet()` on a list of names (a de-duplication that keeps first occurrences). */
module Names {

  /** The UTF-16 code units of a character, as a JVM string stores it: one unit
      below 0x10000, else a lead surrogate and a trail surrogate. */
  function Utf16(c: char): (r: seq<int>)
    ensures 1 <= |r| <= 2
  {
    var v := c as int;
    if v < 0x10000 then [v] else [0xD800 + (v - 0x10000) / 0x400, 0xDC00 + (v - 0x10000) % 0x400]
  }

  /** The UTF-16 code units of a string. */
  function Encode(s: string): (r: seq<int>)
    ensures |s| <= |r| <= 2 * |s|
  {
    if |s| == 0 then [] else Utf16(s[0]) + Encode(s[1..])
  }

  /** Lexicographic order on code-unit sequences, a proper prefix first. */
  predicate UnitsLess(a: seq<int>, b: seq<int>)
    decreases |a|
  {
    if |a| == 0 then |b| > 0
    else if |b| == 0 then false
    else a[0] < b[0] || (a[0] == b[0] && UnitsLess(a[1..], b[1..]))
  }

  /** The position of a character in code-unit order: characters below the
      surrogate block keep their value, supplementary characters (whose lead
      surrogate lies in 0xD800-0xDBFF) come next, and the characters from
      0xE000 to 0xFFFF come last. */
  function CodeUnitRank(c: char): int {
    var v := c as int;
    if v < 0xD800 || v >= 0x10000 then v else v + 0x110000
  }

  predicate CharLess(c: char, d: char) {
    CodeUnitRank(c) < CodeUnitRank(d)
  }

  lemma CodeUnitRankInjective(c: char, d: char)
    requires c != d
    ensures CodeUnitRank(c) != CodeUnitRank(d)
  {
    assert c as int != d as int;
  }

  /** `a < b` under Kotlin's `String.compareTo`: character by character in
      code-unit order, a proper prefix first. */
  predicate Less(a: string, b: string)
    decreases |a|
  {
    if |a| == 0 then |b| > 0
    else if |b| == 0 then false
    else CharLess(a[0], b[0]) || (a[0] == b[0] && Less(a[1..], b[1..]))
  }

  /** `Less` is exactly the comparison of UTF-16 code units that
      `String.compareTo` performs. */
  lemma {:induction false} LessIsCodeUnitOrder(a: string, b: string)
    ensures Less(a, b) <==> UnitsLess(Encode(a), Encode(b))
    decreases |a|
  {
    if |a| > 0 && |b| > 0 {
      assert Encode(a) == Utf16(a[0]) + Encode(a[1..]);
      assert Encode(b) == Utf16(b[0]) + Encode(b[1..]);
      if a[0] == b[0] {
        UnitsLessCommonPrefix(Utf16(a[0]), Encode(a[1..]), Encode(b[1..]));
        LessIsCodeUnitOrder(a[1..], b[1..]);
      } else {
        FirstDifferentCharDecides(a[0], b[0], Encode(a[1..]), Encode(b[1..]));
      }
    }
  }

  lemma {:induction false} UnitsLessCommonPrefix(u: seq<int>, x: seq<int>, y: seq<int>)
    ensures UnitsLess(u + x, u + y) <==> UnitsLess(x, y)
    decreases |u|
  {
    if |u| == 0 {
      assert u + x == x && u + y == y;
    } else {
      assert (u + x)[0] == u[0] == (u + y)[0];
      assert (u + x)[1..] == u[1..] + x && (u + y)[1..] == u[1..] + y;
      UnitsLessCommonPrefix(u[1..], x, y);
    }
  }

  /** The code units of two different characters differ within the shorter
      encoding, so the first different character decides the order. */
  lemma FirstDifferentCharDecides(c: char, d: char, x: seq<int>, y: seq<int>)
    requires c != d
    ensures UnitsLess(Utf16(c) + x, Utf16(d) + y) <==> CharLess(c, d)
  {
    var u, v := Utf16(c) + x, Utf16(d) + y;
    var cv, dv := c as int, d as int;
    assert cv != dv;
    if cv >= 0x10000 && dv >= 0x10000 {
      SupplementaryOrder(cv - 0x10000, dv - 0x10000);
      assert u[1..][0] == Utf16(c)[1] && v[1..][0] == Utf16(d)[1];
    }
  }

  /** Comparing offsets from 0x10000 by lead surrogate, then by trail surrogate,
      compares the offsets. */
  lemma SupplementaryOrder(x: int, y: int)
    requires 0 <= x && 0 <= y && x != y
    ensures x < y <==> x / 0x400 < y / 0x400 || (x / 0x400 == y / 0x400 && x % 0x400 < y % 0x400)
  {
    assert x == 0x400 * (x / 0x400) + x % 0x400;
    assert y == 0x400 * (y / 0x400) + y % 0x400;
  }

  /** A supplementary character sorts before U+FF21, although its scalar value is larger. */
  lemma SupplementaryBeforeHighBmp()
    ensures Less("\U{20000}", "\U{FF21}")
    ensures UnitsLess(Encode("\U{20000}"), Encode("\U{FF21}"))
  {
    LessIsCodeUnitOrder("\U{20000}", "\U{FF21}");
  }

  lemma {:induction false} LessIrreflexive(a: string)
    ensures !Less(a, a)
    decreases |a|
  {
    if |a| > 0 {
      LessIrreflexive(a[1..]);
    }
  }

  lemma {:induction false} LessTransitive(a: string, b: string, c: string)
    requires Less(a, b) && Less(b, c)
    ensures Less(a, c)
    decreases |a|
  {
    if |a| > 0 && a[0] == b[0] && b[0] == c[0] {
      LessTransitive(a[1..], b[1..], c[1..]);
    }
  }

  lemma {:induction false} LessTotal(a: string, b: string)
    requires a != b
    ensures Less(a, b) || Less(b, a)
    decreases |a|
  {
    if |a| > 0 && |b| > 0 {
      if a[0] == b[0] {
        assert a == [a[0]] + a[1..] && b == [b[0]] + b[1..];
        LessTotal(a[1..], b[1..]);
      } else {
        CodeUnitRankInjective(a[0], b[0]);
      }
    }
  }

  lemma LessAsymmetric(a: string, b: string)
    requires Less(a, b)
    ensures !Less(b, a)
  {
    if Less(b, a) {
      LessTransitive(a, b, a);
      LessIrreflexive(a);
    }
  }

  /** "Not greater" is transitive. */
  lemma NotLessTransitive(a: string, b: string, c: string)
    requires !Less(b, a) && !Less(c, b)
    ensures !Less(c, a)
  {
    if Less(c, a) {
      if a != b && b != c {
        LessTotal(a, b);
        LessTotal(b, c);
        LessTransitive(a, b, c);
        LessAsymmetric(a, c);
      }
    }
  }

  ghost predicate SortedBy<T>(s: seq<T>, key: T -> string) {
    forall i, j :: 0 <= i < j < |s| ==> !Less(key(s[j]), key(s[i]))
  }

  /** No two positions of `s` share a key. */
  ghost predicate UniqueKeys<T>(s: seq<T>, key: T -> string) {
    forall i, j :: 0 <= i < |s| && 0 <= j < |s| && i != j ==> key(s[i]) != key(s[j])
  }

  /** Appending an element no smaller than every element keeps a sequence sorted. */
  lemma AppendSorted<T>(t: seq<T>, x: T, key: T -> string)
    requires SortedBy(t, key)
    requires forall i :: 0 <= i < |t| ==> !Less(key(x), key(t[i]))
    ensures SortedBy(t + [x], key)
  {
  }

  /** Inserts `x` into the sorted `t` after every element whose key is not greater than `x`'s. */
  function Insert<T(!new)>(x: T, t: seq<T>, key: T -> string): (r: seq<T>)
    requires SortedBy(t, key)
    ensures |r| == |t| + 1
    ensures multiset(r) == multiset(t) + multiset{x}
    ensures forall y :: y in r <==> y == x || y in t
    decreases |t|
  {
    if |t| == 0 then [x]
    else
      var last := t[|t| - 1];
      var init := t[..|t| - 1];
      assert t == init + [last];
      if Less(key(x), key(last)) then Insert(x, init, key) + [last] else t + [x]
  }

  lemma {:induction false} InsertSorted<T(!new)>(x: T, t: seq<T>, key: T -> string)
    requires SortedBy(t, key)
    ensures SortedBy(Insert(x, t, key), key)
    decreases |t|
  {
    if |t| > 0 {
      var last := t[|t| - 1];
      var init := t[..|t| - 1];
      assert t == init + [last];
      if Less(key(x), key(last)) {
        var r' := Insert(x, init, key);
        InsertSorted(x, init, key);
        forall i | 0 <= i < |r'|
          ensures !Less(key(last), key(r'[i]))
        {
          var y := r'[i];
          assert y in r';
          if y == x {
            LessAsymmetric(key(x), key(last));
          } else {
            var k :| 0 <= k < |init| && init[k] == y;
            assert t[k] == y;
          }
        }
        AppendSorted(r', last, key);
      } else {
        forall i | 0 <= i < |t|
          ensures !Less(key(x), key(t[i]))
        {
          if i < |t| - 1 {
            NotLessTransitive(key(t[i]), key(last), key(x));
          }
        }
        AppendSorted(t, x, key);
      }
    }
  }

  /** Appending an element whose key is new keeps the keys unique. */
  lemma AppendUnique<T>(t: seq<T>, x: T, key: T -> string)
    requires UniqueKeys(t, key)
    requires forall i :: 0 <= i < |t| ==> key(t[i]) != key(x)
    ensures UniqueKeys(t + [x], key)
  {
  }

  /** Elements drawn from `x` and all but the last of `t` avoid the last element's key. */
  lemma KeysAvoidLast<T>(r: seq<T>, x: T, t: seq<T>, key: T -> string)
    requires |t| > 0 && UniqueKeys(t, key)
    requires key(x) != key(t[|t| - 1])
    requires forall y :: y in r ==> y == x || y in t[..|t| - 1]
    ensures forall i :: 0 <= i < |r| ==> key(r[i]) != key(t[|t| - 1])
  {
    forall i | 0 <= i < |r|
      ensures key(r[i]) != key(t[|t| - 1])
    {
      var y := r[i];
      assert y in r;
      if y != x {
        var k :| 0 <= k < |t| - 1 && t[..|t| - 1][k] == y;
        assert t[k] == y;
      }
    }
  }

  lemma {:induction false} InsertUnique<T(!new)>(x: T, t: seq<T>, key: T -> string)
    requires SortedBy(t, key) && UniqueKeys(t, key)
    requires forall y :: y in t ==> key(y) != key(x)
    ensures UniqueKeys(Insert(x, t, key), key)
    decreases |t|
  {
    if |t| > 0 {
      var last := t[|t| - 1];
      var init := t[..|t| - 1];
      assert t == init + [last];
      if Less(key(x), key(last)) {
        var r' := Insert(x, init, key);
        InsertUnique(x, init, key);
        assert last in t;
        KeysAvoidLast(r', x, t, key);
        AppendUnique(r', last, key);
      } else {
        forall i | 0 <= i < |t|
          ensures key(t[i]) != key(x)
        {
          assert t[i] in t;
        }
        AppendUnique(t, x, key);
      }
    }
  }

  /** Kotlin's `sortedBy(key)`: the elements of `s` ordered by key. */
  function SortBy<T(!new)>(s: seq<T>, key: T -> string): (r: seq<T>)
    ensures SortedBy(r, key)
    ensures multiset(r) == multiset(s)
    ensures |r| == |s|
    ensures forall y :: y in r <==> y in s
    decreases |s|
  {
    if |s| == 0 then []
    else
      var init := s[..|s| - 1];
      var last := s[|s| - 1];
      assert s == init + [last];
      var r' := SortBy(init, key);
      InsertSorted(last, r', key);
      Insert(last, r', key)
  }

  lemma {:induction false} SortByUnique<T(!new)>(s: seq<T>, key: T -> string)
    requires UniqueKeys(s, key)
    ensures UniqueKeys(SortBy(s, key), key)
    decreases |s|
  {
    if |s| > 0 {
      var init := s[..|s| - 1];
      var last := s[|s| - 1];
      assert s == init + [last];
      var r' := SortBy(init, key);
      SortByUnique(init, key);
      forall y | y in r'
        ensures key(y) != key(last)
      {
        var k :| 0 <= k < |init| && init[k] == y;
        assert s[k] == y;
      }
      InsertUnique(last, r', key);
    }
  }

  ghost predicate StrictlySorted(a: seq<string>) {
    forall i, j :: 0 <= i < j < |a| ==> Less(a[i], a[j])
  }

  /** The keys of `s`, in order. */
  function KeysOf<T>(s: seq<T>, key: T -> string): (r: seq<string>)
    ensures |r| == |s|
    ensures forall i :: 0 <= i < |s| ==> r[i] == key(s[i])
  {
    seq(|s|, i requires 0 <= i < |s| => key(s[i]))
  }

  lemma SortedUniqueKeysAreStrict<T>(s: seq<T>, key: T -> string)
    requires SortedBy(s, key) && UniqueKeys(s, key)
    ensures StrictlySorted(KeysOf(s, key))
  {
    var a := KeysOf(s, key);
    forall i, j | 0 <= i < j < |a|
      ensures Less(a[i], a[j])
    {
      LessTotal(a[i], a[j]);
    }
  }

  /** A strictly sorted sequence is determined by its elements. */
  lemma {:induction false} StrictlySortedUnique(a: seq<string>, b: seq<string>)
    requires StrictlySorted(a) && StrictlySorted(b)
    requires |a| == |b|
    requires forall x :: x in a <==> x in b
    ensures a == b
    decreases |a|
  {
    if |a| > 0 {
      assert a[0] in a;
      assert b[0] in b;
      if a[0] != b[0] {
        var k :| 0 <= k < |b| && b[k] == a[0];
        var l :| 0 <= l < |a| && a[l] == b[0];
        assert k > 0 && l > 0;
        assert Less(b[0], a[0]) && Less(a[0], b[0]);
        LessAsymmetric(a[0], b[0]);
      }
      forall x
        ensures x in a[1..] <==> x in b[1..]
      {
        if x in a[1..] {
          var k :| 1 <= k < |a| && a[k] == x;
          assert Less(a[0], x);
          LessIrreflexive(x);
          assert x in b;
        }
        if x in b[1..] {
          var k :| 1 <= k < |b| && b[k] == x;
          assert Less(b[0], x);
          LessIrreflexive(x);
          assert x in a;
        }
      }
      StrictlySortedUnique(a[1..], b[1..]);
      assert a == [a[0]] + a[1..] && b == [b[0]] + b[1..];
    }
  }

  /** The position of the first occurrence of `x` in `s`. */
  function FirstIndex(s: seq<string>, x: string): (r: nat)
    requires x in s
    ensures r < |s| && s[r] == x
    ensures forall k :: 0 <= k < r ==> s[k] != x
  {
    if s[0] == x then 0
    else
      assert x in s[1..] by {
        var k :| 0 <= k < |s| && s[k] == x;
        assert s[1..][k - 1] == x;
      }
      var r := 1 + FirstIndex(s[1..], x);
      assert forall k :: 1 <= k < r ==> s[k] == s[1..][k - 1];
      r
  }

  /** Extending a sequence at its end keeps the first occurrence of an element
      it already holds. */
  lemma FirstIndexOfPrefix(s: seq<string>, n: nat, x: string)
    requires n <= |s|
    requires x in s[..n]
    ensures x in s && FirstIndex(s, x) == FirstIndex(s[..n], x)
  {
    var a := FirstIndex(s[..n], x);
    assert s[a] == x;
  }

  /** Kotlin's `toSet()` on a list: each element once, in order of first occurrence. */
  function Distinct(s: seq<string>): (r: seq<string>)
    ensures forall x :: x in r <==> x in s
    ensures forall i, j :: 0 <= i < j < |r| ==> r[i] != r[j]
    ensures |r| <= |s|
    decreases |s|
  {
    if |s| == 0 then []
    else
      var init := Distinct(s[..|s| - 1]);
      assert forall x :: x in s <==> x in s[..|s| - 1] || x == s[|s| - 1] by {
        assert s == s[..|s| - 1] + [s[|s| - 1]];
      }
      if s[|s| - 1] in init then init else init + [s[|s| - 1]]
  }

  /** `r` holds elements of `s`, in the order of their first occurrence in `s`. */
  ghost predicate InFirstOccurrenceOrder(s: seq<string>, r: seq<string>) {
    forall i, j :: 0 <= i < j < |r| ==> r[i] in s && r[j] in s && FirstIndex(s, r[i]) < FirstIndex(s, r[j])
  }

  /** The order of first occurrence in a prefix is the order in the whole. */
  lemma OrderOfPrefix(s: seq<string>, n: nat, r: seq<string>)
    requires n <= |s|
    requires forall x :: x in r ==> x in s[..n]
    requires InFirstOccurrenceOrder(s[..n], r)
    ensures InFirstOccurrenceOrder(s, r)
    ensures forall i :: 0 <= i < |r| ==> r[i] in s && FirstIndex(s, r[i]) < n
  {
    forall i | 0 <= i < |r|
      ensures r[i] in s && FirstIndex(s, r[i]) == FirstIndex(s[..n], r[i]) < n
    {
      FirstIndexOfPrefix(s, n, r[i]);
    }
  }

  /** An element occurring first after all of `r` extends the order. */
  lemma OrderAppend(s: seq<string>, r: seq<string>, x: string)
    requires x in s
    requires InFirstOccurrenceOrder(s, r)
    requires forall i :: 0 <= i < |r| ==> r[i] in s && FirstIndex(s, r[i]) < FirstIndex(s, x)
    ensures InFirstOccurrenceOrder(s, r + [x])
  {
    var r' := r + [x];
    forall i, j | 0 <= i < j < |r'|
      ensures r'[i] in s && r'[j] in s && FirstIndex(s, r'[i]) < FirstIndex(s, r'[j])
    {
      assert r'[i] == r[i];
      if j < |r| {
        assert r'[j] == r[j];
      }
    }
  }

  /** One step of `Distinct`: the last element is appended unless already listed. */
  lemma DistinctStep(s: seq<string>)
    requires |s| > 0
    ensures var init := Distinct(s[..|s| - 1]);
            Distinct(s) == if s[|s| - 1] in init then init else init + [s[|s| - 1]]
  {
  }

  /** `Distinct` lists the elements in the order of their first occurrence. */
  lemma {:induction false} DistinctKeepsFirstOccurrenceOrder(s: seq<string>)
    ensures InFirstOccurrenceOrder(s, Distinct(s))
    decreases |s|
  {
    if |s| > 0 {
      var n := |s| - 1;
      var t := s[..n];
      var init := Distinct(t);
      DistinctKeepsFirstOccurrenceOrder(t);
      OrderOfPrefix(s, n, init);
      DistinctStep(s);
      if s[n] !in init {
        FirstIndexOfNewLast(s);
        OrderAppend(s, init, s[n]);
      }
    }
  }

  /** A last element that occurs nowhere before first occurs at the end. */
  lemma FirstIndexOfNewLast(s: seq<string>)
    requires |s| > 0 && s[|s| - 1] !in Distinct(s[..|s| - 1])
    ensures FirstIndex(s, s[|s| - 1]) == |s| - 1
  {
    var n := |s| - 1;
    assert forall k :: 0 <= k < n ==> s[k] == s[..n][k];
  }
}

=== FILE: schemas.dfy ===
/** Schema derivation in the io package: `KType.toEnhancedType`, the converter
    resolution and attribute list of `DataClassAttributes.create`, and the
    constructor of `DataClassTableSchema`. The three call each other: a
    property whose type is a data class gets a document type backed by a
    freshly built schema of that class. There is no cache, so a class that
    reaches itself recurses until the JVM stack is exhausted; `depth` counts
    the frames still free, and running out of them is `StackOverflow`. */
module Schemas {
  import opened Wrappers
  import opened Converters
  import opened DataClasses
  import opened DataClassAttribute
  import opened DataClassAttributes
  import opened EnhancedTypes

  /** The stack frames still free: each nested schema takes one. */
  datatype Frames = NoFrames | Frame(rest: Frames)

  /** The part of a `DataClassTableSchema` its runtime operations use. */
  datatype Schema = Schema(dataClass: DataClass, attributes: seq<Attribute>)

  /** A document the io package builds: a fresh schema, and the client's
      default for empty objects (the class's `DynamoKtPreserveEmptyObject`
      is not consulted). */
  predicate FreshDocument(d: EnhancedType) {
    d.DocumentOf? && d.schema.Fresh? && !d.preserveEmptyObject
  }

  /** `KType.toEnhancedType()`. */
  function ToEnhancedType(t: KType, classes: map<string, DataClass>, provider: Provider, depth: Frames)
    : (r: Result<EnhancedType>)
    ensures r.Success? ==> Mirrors(t, r.value, classes)
    ensures r.Success? ==> AllDocuments(r.value, FreshDocument)
    ensures (forall n :: n in classes ==> !classes[n].isData) ==> r.Success?
    ensures t.ClassType? && IsDataClass(classes, t.className) && depth.NoFrames? ==> r == Failure(StackOverflow)
    ensures t.ClassType? && IsDataClass(classes, t.className) && depth.Frame? ==>
              (r.Failure? <==> CreateSchema(classes[t.className], classes, provider, depth.rest).Failure?)
    decreases depth, 0, Size(t)
  {
    match t
    case ListType(x) =>
      var e :- ToEnhancedType(x, classes, provider, depth);
      Success(ListOf(e))
    case SetType(x) =>
      var e :- ToEnhancedType(x, classes, provider, depth);
      Success(SetOf(e))
    case MapType(k, v) =>
      var ek :- ToEnhancedType(k, classes, provider, depth);
      var ev :- ToEnhancedType(v, classes, provider, depth);
      Success(MapOf(ek, ev))
    case ClassType(n) =>
      if !IsDataClass(classes, n) then Success(Of(n)) else DataClassDocument(n, classes, provider, depth)
  }

  /** The document type of the data class `n`, backed by a fresh schema of
      it built one frame deeper. */
  function DataClassDocument(n: string, classes: map<string, DataClass>, provider: Provider, depth: Frames)
    : (r: Result<EnhancedType>)
    requires IsDataClass(classes, n)
    ensures r.Success? ==> r.value.DocumentOf? && r.value.className == n && FreshDocument(r.value)
    ensures depth.NoFrames? ==> r == Failure(StackOverflow)
    ensures depth.Frame? ==> (r.Failure? <==> CreateSchema(classes[n], classes, provider, depth.rest).Failure?)
    ensures depth.Frame? && r.Success? ==>
              r.value.schema == Fresh(CreateSchema(classes[n], classes, provider, depth.rest).value.attributes)
    ensures depth.Frame? && r.Failure? ==> r.error == CreateSchema(classes[n], classes, provider, depth.rest).error
    decreases depth, 0, 0
  {
    match depth
    case NoFrames => Failure(StackOverflow)
    case Frame(rest) =>
      var s :- CreateSchema(classes[n], classes, provider, rest);
      Success(DocumentOf(n, Fresh(s.attributes), false))
  }

  /** The converter of one property: the class named by `DynamoKtConverted`,
      instantiated reflectively, when the annotation is present; otherwise the
      default provider's converter for the property's translated type. */
  function ResolveConverter(p: Property, classes: map<string, DataClass>, provider: Provider,
                            noCreate: ConverterClass -> Error, depth: Frames): (r: Result<Converter>)
    ensures FindConverter(p.annotations).Some? ==>
              var cls := FindConverter(p.annotations).value;
              r == InitConverter(cls, noCreate(cls))
    ensures FindConverter(p.annotations).None? && r.Success? ==>
              exists e :: Mirrors(p.returnType, e, classes) && provider(e) == Some(r.value)
    ensures FindConverter(p.annotations).None? ==>
              var e := ToEnhancedType(p.returnType, classes, provider, depth);
              && (e.Failure? ==> r == Failure(e.error))
              && (e.Success? ==> (r.Success? <==> provider(e.value).Some?))
              && (e.Success? && provider(e.value).Some? ==> r == Success(provider(e.value).value))
              && (e.Success? && provider(e.value).None? ==> r == Failure(ConverterNotFound))
    decreases depth, 1, 0
  {
    match FindConverter(p.annotations)
    case Some(cls) => InitConverter(cls, noCreate(cls))
    case None =>
      var e :- ToEnhancedType(p.returnType, classes, provider, depth);
      match provider(e)
      case Some(c) => Success(c)
      case None => Failure(ConverterNotFound)
  }

  /** `props.zip(params).map { ... }` over the given pairs: one attribute per
      pair, in order; the first pair whose converter cannot be resolved
      aborts the whole list with that pair's error. */
  function BuildAttributes(pairs: seq<(Property, Parameter)>, classes: map<string, DataClass>,
                           provider: Provider, noCreate: ConverterClass -> Error, depth: Frames)
    : (r: Result<seq<Attribute>>)
    ensures r.Success? <==>
              forall i :: 0 <= i < |pairs| ==> ResolveConverter(pairs[i].0, classes, provider, noCreate, depth).Success?
    ensures r.Success? ==> |r.value| == |pairs|
    ensures r.Success? ==> forall i :: 0 <= i < |pairs| ==>
              && r.value[i].attributeName == StorageName(pairs[i].0)
              && r.value[i].prop == pairs[i].0
              && r.value[i].constructorParam == pairs[i].1
              && Success(r.value[i].converter) == ResolveConverter(pairs[i].0, classes, provider, noCreate, depth)
    decreases depth, 1, |pairs|
  {
    if |pairs| == 0 then Success([])
    else
      var c :- ResolveConverter(pairs[0].0, classes, provider, noCreate, depth);
      var rest :- BuildAttributes(pairs[1..], classes, provider, noCreate, depth);
      Success([Attribute(StorageName(pairs[0].0), pairs[0].0, c, pairs[0].1)] + rest)
  }

  /** Once the first converter resolves, the list fails exactly as its tail does. */
  lemma BuildAttributesTailFails(pairs: seq<(Property, Parameter)>, classes: map<string, DataClass>,
                                 provider: Provider, noCreate: ConverterClass -> Error, depth: Frames)
    requires |pairs| > 0
    requires ResolveConverter(pairs[0].0, classes, provider, noCreate, depth).Success?
    requires BuildAttributes(pairs, classes, provider, noCreate, depth).Failure?
    ensures BuildAttributes(pairs[1..], classes, provider, noCreate, depth)
            == Failure(BuildAttributes(pairs, classes, provider, noCreate, depth).error)
  {
  }

  /** A failing attribute list fails with the error of the first pair whose
      converter cannot be resolved. */
  lemma {:induction false} BuildAttributesFailsAtFirst(pairs: seq<(Property, Parameter)>, classes: map<string, DataClass>,
                                                      provider: Provider, noCreate: ConverterClass -> Error, depth: Frames)
    requires BuildAttributes(pairs, classes, provider, noCreate, depth).Failure?
    ensures exists i :: (
              && 0 <= i < |pairs|
              && ResolveConverter(pairs[i].0, classes, provider, noCreate, depth)
                 == Failure(BuildAttributes(pairs, classes, provider, noCreate, depth).error)
              && forall j :: 0 <= j < i ==> ResolveConverter(pairs[j].0, classes, provider, noCreate, depth).Success?)
    decreases |pairs|
  {
    var e := BuildAttributes(pairs, classes, provider, noCreate, depth).error;
    if ResolveConverter(pairs[0].0, classes, provider, noCreate, depth).Success? {
      var rest := pairs[1..];
      BuildAttributesTailFails(pairs, classes, provider, noCreate, depth);
      BuildAttributesFailsAtFirst(rest, classes, provider, noCreate, depth);
      var i :| && 0 <= i < |rest|
               && ResolveConverter(rest[i].0, classes, provider, noCreate, depth) == Failure(e)
               && forall j :: 0 <= j < i ==> ResolveConverter(rest[j].0, classes, provider, noCreate, depth).Success?;
      ResolvedPrefixShifts(pairs, classes, provider, noCreate, depth, i);
    }
  }

  /** The pairs resolved before a failure in the tail, with the head resolved
      too, are the pairs before that failure in the whole list. */
  lemma ResolvedPrefixShifts(pairs: seq<(Property, Parameter)>, classes: map<string, DataClass>,
                             provider: Provider, noCreate: ConverterClass -> Error, depth: Frames, i: nat)
    requires 0 < |pairs| && i < |pairs| - 1
    requires ResolveConverter(pairs[0].0, classes, provider, noCreate, depth).Success?
    requires forall j :: 0 <= j < i ==> ResolveConverter(pairs[1..][j].0, classes, provider, noCreate, depth).Success?
    ensures pairs[i + 1] == pairs[1..][i]
    ensures forall j :: 0 <= j < i + 1 ==> ResolveConverter(pairs[j].0, classes, provider, noCreate, depth).Success?
  {
    forall j | 0 < j < i + 1
      ensures ResolveConverter(pairs[j].0, classes, provider, noCreate, depth).Success?
    {
      assert pairs[j] == pairs[1..][j - 1];
    }
  }

  /** The constructor of `DataClassTableSchema` (which requires a data class)
      with `DataClassAttributes.create`, pairing each property with the
      constructor parameter of its own name. */
  function CreateSchema(dc: DataClass, classes: map<string, DataClass>, provider: Provider, depth: Frames)
    : (r: Result<Schema>)
    ensures !dc.isData ==> r == Failure(IllegalArgument(FailedRequirement, None))
    ensures r.Success? ==> r.value.dataClass == dc && |r.value.attributes| == |NamePairs(dc)|
    ensures r.Success? ==> forall i :: 0 <= i < |r.value.attributes| ==>
              && r.value.attributes[i].prop in dc.properties
              && r.value.attributes[i].constructorParam in dc.parameters
              && r.value.attributes[i].prop.name == r.value.attributes[i].constructorParam.name
              && r.value.attributes[i].attributeName == StorageName(r.value.attributes[i].prop)
    ensures dc.isData ==>
              var attrs := BuildAttributes(NamePairs(dc), classes, provider, CannotInstantiate, depth);
              && (r.Success? <==> attrs.Success?)
              && (r.Success? ==> r.value.attributes == attrs.value)
              && (r.Failure? ==> r.error == attrs.error)
    decreases depth, 2, 0
  {
    if !dc.isData then Failure(IllegalArgument(FailedRequirement, None))
    else
      var attrs :- BuildAttributes(NamePairs(dc), classes, provider, CannotInstantiate, depth);
      Success(Schema(dc, attrs))
  }

  /** `DataClassAttribute.create`, the second copy of the attribute list, whose
      converter lookup fails with `NoSuchElementException` from `first { }`
      instead of naming the class. */
  function CreateAttributeList(dc: DataClass, classes: map<string, DataClass>, provider: Provider, depth: Frames)
    : (r: Result<seq<Attribute>>)
    ensures r.Success? ==> |r.value| == |NamePairs(dc)|
    ensures r.Success? ==> forall i :: 0 <= i < |r.value| ==>
              && r.value[i].prop == NamePairs(dc)[i].0
              && r.value[i].constructorParam == NamePairs(dc)[i].1
              && r.value[i].attributeName == StorageName(NamePairs(dc)[i].0)
  {
    BuildAttributes(NamePairs(dc), classes, provider, _ => NoSuchElement, depth)
  }

  /** `DataClassAttribute.create` as written: properties sorted by name zipped
      by position with the constructor parameters sorted by name. */
  function CreateAttributeListAsWritten(dc: DataClass, classes: map<string, DataClass>, provider: Provider, depth: Frames)
    : (r: Result<seq<Attribute>>)
    ensures r.Success? ==> |r.value| == |ZipPairs(dc)|
    ensures r.Success? ==> forall i :: 0 <= i < |r.value| ==>
              r.value[i].prop == ZipPairs(dc)[i].0 && r.value[i].constructorParam == ZipPairs(dc)[i].1
  {
    BuildAttributes(ZipPairs(dc), classes, provider, _ => NoSuchElement, depth)
  }

  /** A provider with a converter for every type. */
  const EveryTypeProvider: Provider := _ => Some(StringConverter)

  /** An unannotated `String` property resolves to the provider's converter. */
  lemma StringPropertyResolves(p: Property, noCreate: ConverterClass -> Error, depth: Frames)
    requires p.annotations == [] && p.returnType == ClassType("kotlin.String")
    ensures ResolveConverter(p, map[], EveryTypeProvider, noCreate, depth) == Success(StringConverter)
  {
    assert FindConverter(p.annotations) == None;
    assert ToEnhancedType(p.returnType, map[], EveryTypeProvider, depth) == Success(Of("kotlin.String"));
  }

  /** For `data class X(val a: String, val c: String) { val b: String }` the
      attribute list as written binds the body property `b` to the constructor
      parameter `c`. */
  lemma AttributeListAsWrittenMisbinds()
    ensures var r := CreateAttributeListAsWritten(BodyPropertyClass, map[], EveryTypeProvider, NoFrames);
            r.Success? && |r.value| == 2 && r.value[1].prop == PropB && r.value[1].constructorParam == ParamC
  {
    ZipPairsMisalignBodyProperty();
    StringPairsBind(BodyPropertyClass, ZipPairs(BodyPropertyClass), PropB, ParamC);
  }

  /** Pairing by name binds the property `c` of the same class to its own parameter. */
  lemma AttributeListByNameBindsOwnParameter()
    ensures var r := CreateAttributeList(BodyPropertyClass, map[], EveryTypeProvider, NoFrames);
            r.Success? && |r.value| == 2 && r.value[1].prop == PropC && r.value[1].constructorParam == ParamC
  {
    ZipPairsMisalignBodyProperty();
    StringPairsBind(BodyPropertyClass, NamePairs(BodyPropertyClass), PropC, ParamC);
  }

  /** Both pairings of a class whose two pairs are unannotated `String` properties build, and
      the second attribute binds the second pair. */
  lemma StringPairsBind(dc: DataClass, pairs: seq<(Property, Parameter)>, p: Property, q: Parameter)
    requires pairs == [(PropA, ParamA), (p, q)]
    requires p.annotations == [] && p.returnType == ClassType("kotlin.String")
    requires pairs == ZipPairs(dc) || pairs == NamePairs(dc)
    ensures pairs == ZipPairs(dc) ==>
              var r := CreateAttributeListAsWritten(dc, map[], EveryTypeProvider, NoFrames);
              r.Success? && |r.value| == 2 && r.value[1].prop == p && r.value[1].constructorParam == q
    ensures pairs == NamePairs(dc) ==>
              var r := CreateAttributeList(dc, map[], EveryTypeProvider, NoFrames);
              r.Success? && |r.value| == 2 && r.value[1].prop == p && r.value[1].constructorParam == q
  {
    StringPairsBuild(pairs, _ => NoSuchElement, NoFrames);
  }

  /** Pairs of unannotated `String` properties always build. */
  lemma StringPairsBuild(pairs: seq<(Property, Parameter)>, noCreate: ConverterClass -> Error, depth: Frames)
    requires forall i :: 0 <= i < |pairs| ==>
               pairs[i].0.annotations == [] && pairs[i].0.returnType == ClassType("kotlin.String")
    ensures BuildAttributes(pairs, map[], EveryTypeProvider, noCreate, depth).Success?
  {
    forall i | 0 <= i < |pairs|
      ensures ResolveConverter(pairs[i].0, map[], EveryTypeProvider, noCreate, depth).Success?
    {
      StringPropertyResolves(pairs[i].0, noCreate, depth);
    }
  }

  /** Which error an uninstantiable converter class raises never changes a
      converter that does resolve. */
  lemma ResolveConverterErrorIrrelevant(p: Property, classes: map<string, DataClass>, provider: Provider,
                                        e1: ConverterClass -> Error, e2: ConverterClass -> Error, depth: Frames)
    requires ResolveConverter(p, classes, provider, e1, depth).Success?
    ensures ResolveConverter(p, classes, provider, e2, depth) == ResolveConverter(p, classes, provider, e1, depth)
  {
  }

  lemma {:induction false} BuildAttributesErrorIrrelevant(pairs: seq<(Property, Parameter)>, classes: map<string, DataClass>,
                                                         provider: Provider, e1: ConverterClass -> Error,
                                                         e2: ConverterClass -> Error, depth: Frames)
    requires BuildAttributes(pairs, classes, provider, e1, depth).Success?
    ensures BuildAttributes(pairs, classes, provider, e2, depth) == BuildAttributes(pairs, classes, provider, e1, depth)
    decreases |pairs|
  {
    if |pairs| > 0 {
      ResolveConverterErrorIrrelevant(pairs[0].0, classes, provider, e1, e2, depth);
      BuildAttributesErrorIrrelevant(pairs[1..], classes, provider, e1, e2, depth);
    }
  }

  /** The two copies of `create` build the same attributes for a data class
      whenever the second one succeeds. */
  lemma AttributeListsAgree(dc: DataClass, classes: map<string, DataClass>, provider: Provider, depth: Frames)
    requires dc.isData
    requires CreateAttributeList(dc, classes, provider, depth).Success?
    ensures CreateSchema(dc, classes, provider, depth).Success?
    ensures CreateSchema(dc, classes, provider, depth).value.attributes == CreateAttributeList(dc, classes, provider, depth).value
  {
    BuildAttributesErrorIrrelevant(NamePairs(dc), classes, provider, _ => NoSuchElement, CannotInstantiate, depth);
  }

  /** The declared type `t` refers to the class `n`, directly or as a type argument. */
  predicate Mentions(t: KType, n: string) {
    match t
    case ListType(x) => Mentions(x, n)
    case SetType(x) => Mentions(x, n)
    case MapType(k, v) => Mentions(k, n) || Mentions(v, n)
    case ClassType(m) => m == n
  }

  /** A type that mentions the class `n` translates only if `n` itself does. */
  lemma {:induction false} MentionFailsWithItsClass(t: KType, n: string, classes: map<string, DataClass>,
                                                    provider: Provider, depth: Frames)
    requires Mentions(t, n)
    requires ToEnhancedType(ClassType(n), classes, provider, depth).Failure?
    ensures ToEnhancedType(t, classes, provider, depth).Failure?
    decreases Size(t)
  {
    match t
    case ListType(x) => MentionFailsWithItsClass(x, n, classes, provider, depth);
    case SetType(x) => MentionFailsWithItsClass(x, n, classes, provider, depth);
    case MapType(k, v) =>
      if Mentions(k, n) {
        MentionFailsWithItsClass(k, n, classes, provider, depth);
      } else {
        MentionFailsWithItsClass(v, n, classes, provider, depth);
      }
    case ClassType(m) =>
  }

  /** One property whose converter cannot be resolved fails the whole schema. */
  lemma UnresolvedConverterFailsSchema(dc: DataClass, classes: map<string, DataClass>, provider: Provider,
                                       depth: Frames, i: nat)
    requires i < |NamePairs(dc)|
    requires FindConverter(NamePairs(dc)[i].0.annotations).None?
    requires ToEnhancedType(NamePairs(dc)[i].0.returnType, classes, provider, depth).Failure?
    ensures CreateSchema(dc, classes, provider, depth).Failure?
  {
    assert !ResolveConverter(NamePairs(dc)[i].0, classes, provider, CannotInstantiate, depth).Success?;
  }

  /** A data class with a property, paired with a constructor parameter and
      without an explicit converter, whose type refers back to the class
      itself (`data class Node(val children: List<Node>)`) never yields a
      schema: every attempt recurses until the stack is exhausted. */
  lemma {:induction false} SelfReferenceNeverBuilds(n: string, classes: map<string, DataClass>,
                                                    provider: Provider, depth: Frames, i: nat)
    requires IsDataClass(classes, n)
    requires i < |NamePairs(classes[n])|
    requires FindConverter(NamePairs(classes[n])[i].0.annotations).None?
    requires Mentions(NamePairs(classes[n])[i].0.returnType, n)
    ensures CreateSchema(classes[n], classes, provider, depth).Failure?
    decreases depth
  {
    if depth.Frame? {
      SelfReferenceNeverBuilds(n, classes, provider, depth.rest, i);
    }
    var p := NamePairs(classes[n])[i].0;
    MentionFailsWithItsClass(p.returnType, n, classes, provider, depth);
    UnresolvedConverterFailsSchema(classes[n], classes, provider, depth, i);
  }
}

=== FILE: table_extensions.dfy ===
/** `createTableEnhancedRequestWithIndices`: the split of a table's indices into
    global and local secondary indices for a create-table request, and the
    default projection. An index whose partition key differs from the table's
    is global; one that shares it, other than the primary index, is local. */
module TableExtensions {
  import opened Wrappers
  import opened DataClasses
  import opened DataClassTableMetadata

  datatype ProjectionType = ALL | KEYS_ONLY | INCLUDE

  /** DynamoDB's `Projection`: which attributes an index copies. */
  datatype Projection = Projection(projectionType: ProjectionType, nonKeyAttributes: seq<string>)

  /** `EnhancedGlobalSecondaryIndex` / `EnhancedLocalSecondaryIndex`. */
  datatype SecondaryIndex = SecondaryIndex(indexName: string, projection: Projection)

  /** `CreateTableEnhancedRequest`; an index list left unset is `None`. */
  datatype CreateTableRequest = CreateTableRequest(
    globalSecondaryIndices: Option<seq<SecondaryIndex>>,
    localSecondaryIndices: Option<seq<SecondaryIndex>>)

  /** `defaultProjectionBuilder`: every index projects all attributes. */
  function DefaultProjection(ix: IndexMetadata): (r: Projection)
    ensures r.projectionType == ALL && r.nonKeyAttributes == []
  {
    Projection(ALL, [])
  }

  predicate IsGlobal(ix: IndexMetadata, primaryKey: string) {
    ix.partitionKey.Some? && ix.partitionKey.value.name != primaryKey
  }

  predicate IsLocal(ix: IndexMetadata, primaryKey: string) {
    ix.partitionKey.Some? && ix.partitionKey.value.name == primaryKey && ix.name != PrimaryIndexName
  }

  /** The test of the local filter when `local` holds, else of the global filter. */
  predicate Keeps(ix: IndexMetadata, primaryKey: string, local: bool) {
    if local then IsLocal(ix, primaryKey) else IsGlobal(ix, primaryKey)
  }

  /** The positions of the indices a filter keeps, in increasing order. */
  ghost function Positions(ixs: seq<IndexMetadata>, primaryKey: string, local: bool): (r: seq<nat>)
    ensures forall k :: 0 <= k < |r| ==> r[k] < |ixs|
    ensures forall k, l :: 0 <= k < l < |r| ==> r[k] < r[l]
    ensures forall i :: 0 <= i < |ixs| ==> (i in r <==> Keeps(ixs[i], primaryKey, local))
    ensures |r| > 0 <==> exists i :: 0 <= i < |ixs| && Keeps(ixs[i], primaryKey, local)
    decreases |ixs|
  {
    if |ixs| == 0 then []
    else
      var init := Positions(ixs[..|ixs| - 1], primaryKey, local);
      assert forall i :: 0 <= i < |ixs| - 1 ==> ixs[..|ixs| - 1][i] == ixs[i];
      if Keeps(ixs[|ixs| - 1], primaryKey, local) then init + [|ixs| - 1] else init
  }

  /** `partitionKey().get().name()`: an index without a partition key fails. */
  function PartitionKeyName(ix: IndexMetadata): (r: Result<string>)
    ensures r.Success? <==> ix.partitionKey.Some?
    ensures r.Success? ==> r.value == ix.partitionKey.value.name
    ensures r.Failure? ==> r.error == NoSuchElement
  {
    match ix.partitionKey
    case Some(k) => Success(k.name)
    case None => Failure(NoSuchElement)
  }

  /** One of the two `filter` calls: for each index in turn, its partition key
      is read, then the table's primary partition key, then the test applies. */
  function Filter(ixs: seq<IndexMetadata>, primaryKey: Result<string>, local: bool): (r: Result<seq<IndexMetadata>>)
    ensures r.Success? <==>
              (forall i :: 0 <= i < |ixs| ==> ixs[i].partitionKey.Some?) && (|ixs| > 0 ==> primaryKey.Success?)
    ensures |ixs| > 0 && ixs[0].partitionKey.None? ==> r == Failure(NoSuchElement)
    ensures r.Failure? ==> r.error == NoSuchElement || (primaryKey.Failure? && r.error == primaryKey.error)
    ensures |ixs| == 0 ==> r == Success([])
    decreases |ixs|
  {
    if |ixs| == 0 then Success([])
    else
      var last := ixs[|ixs| - 1];
      var init :- Filter(ixs[..|ixs| - 1], primaryKey, local);
      var key :- PartitionKeyName(last);
      var p :- primaryKey;
      assert forall i :: 0 <= i < |ixs| - 1 ==> ixs[..|ixs| - 1][i] == ixs[i];
      Success(if Keeps(last, p, local) then init + [last] else init)
  }

  /** A filter keeps exactly the indices that pass its test, in their order. */
  lemma {:induction false} FilterKeepsPositions(ixs: seq<IndexMetadata>, primaryKey: Result<string>, local: bool)
    requires Filter(ixs, primaryKey, local).Success?
    ensures primaryKey.Success? ==>
            var pos := Positions(ixs, primaryKey.value, local);
            var kept := Filter(ixs, primaryKey, local).value;
            |kept| == |pos| && forall k :: 0 <= k < |pos| ==> kept[k] == ixs[pos[k]]
    decreases |ixs|
  {
    if |ixs| > 0 && primaryKey.Success? {
      var init := Filter(ixs[..|ixs| - 1], primaryKey, local).value;
      FilterKeepsPositions(ixs[..|ixs| - 1], primaryKey, local);
      KeptAtPositions(ixs, primaryKey.value, local, init, Filter(ixs, primaryKey, local).value);
    }
  }

  /** Extending the kept indices by the last index when it passes the test
      keeps them aligned with the positions of the longer sequence. */
  lemma KeptAtPositions(ixs: seq<IndexMetadata>, p: string, local: bool, init: seq<IndexMetadata>, kept: seq<IndexMetadata>)
    requires |ixs| > 0
    requires var pos := Positions(ixs[..|ixs| - 1], p, local);
             |init| == |pos| && forall k :: 0 <= k < |pos| ==> init[k] == ixs[..|ixs| - 1][pos[k]]
    requires kept == if Keeps(ixs[|ixs| - 1], p, local) then init + [ixs[|ixs| - 1]] else init
    ensures var pos := Positions(ixs, p, local);
            |kept| == |pos| && forall k :: 0 <= k < |pos| ==> kept[k] == ixs[pos[k]]
  {
    var pos0 := Positions(ixs[..|ixs| - 1], p, local);
    var keep := Keeps(ixs[|ixs| - 1], p, local);
    assert Positions(ixs, p, local) == if keep then pos0 + [|ixs| - 1] else pos0;
    forall k | 0 <= k < |pos0| ensures init[k] == ixs[pos0[k]] {
      assert ixs[..|ixs| - 1][pos0[k]] == ixs[pos0[k]];
    }
    AppendAligned(ixs, pos0, init, keep, kept);
  }

  /** Appending the last element to a selection and its position to the
      positions keeps the two aligned. */
  lemma AppendAligned<T>(xs: seq<T>, pos0: seq<nat>, init: seq<T>, keep: bool, kept: seq<T>)
    requires |xs| > 0
    requires |init| == |pos0| && forall k :: 0 <= k < |pos0| ==> pos0[k] < |xs| && init[k] == xs[pos0[k]]
    requires kept == if keep then init + [xs[|xs| - 1]] else init
    ensures var pos := if keep then pos0 + [|xs| - 1] else pos0;
            |kept| == |pos| && forall k :: 0 <= k < |pos| ==> kept[k] == xs[pos[k]]
  {
  }


  /** The request entry for one kept index. */
  function Entries(kept: seq<IndexMetadata>, createProjection: IndexMetadata -> Projection): (r: seq<SecondaryIndex>)
    ensures |r| == |kept|
    ensures forall k :: 0 <= k < |kept| ==> r[k] == SecondaryIndex(kept[k].name, createProjection(kept[k]))
  {
    seq(|kept|, k requires 0 <= k < |kept| => SecondaryIndex(kept[k].name, createProjection(kept[k])))
  }

  /** A list the request builder is given only when it is non-empty. */
  function UnlessEmpty(s: seq<SecondaryIndex>): (r: Option<seq<SecondaryIndex>>)
    ensures r.Some? <==> |s| > 0
    ensures r.Some? ==> r.value == s
  {
    if |s| == 0 then None else Some(s)
  }

  /** `TableMetadata.createTableEnhancedRequestWithIndices(createProjection)` for
      the table's indices and its primary partition key. */
  function CreateTableEnhancedRequestWithIndices(ixs: seq<IndexMetadata>, primaryKey: Result<string>,
                                                 createProjection: IndexMetadata -> Projection)
    : (r: Result<CreateTableRequest>)
    ensures r.Success? <==>
              (forall i :: 0 <= i < |ixs| ==> ixs[i].partitionKey.Some?) && (|ixs| > 0 ==> primaryKey.Success?)
    ensures r.Failure? ==> r.error == NoSuchElement || (primaryKey.Failure? && r.error == primaryKey.error)
    ensures r.Success? && |ixs| == 0 ==> r.value == CreateTableRequest(None, None)
    ensures r.Success? && primaryKey.Success? ==>
              (r.value.globalSecondaryIndices.Some? <==> exists i :: 0 <= i < |ixs| && IsGlobal(ixs[i], primaryKey.value))
    ensures r.Success? && primaryKey.Success? ==>
              (r.value.localSecondaryIndices.Some? <==> exists i :: 0 <= i < |ixs| && IsLocal(ixs[i], primaryKey.value))
    ensures r.Success? && primaryKey.Success? && r.value.globalSecondaryIndices.Some? ==>
              var pos := Positions(ixs, primaryKey.value, false);
              var g := r.value.globalSecondaryIndices.value;
              |g| == |pos| && forall k :: 0 <= k < |pos| ==> g[k] == SecondaryIndex(ixs[pos[k]].name, createProjection(ixs[pos[k]]))
    ensures r.Success? && primaryKey.Success? && r.value.localSecondaryIndices.Some? ==>
              var pos := Positions(ixs, primaryKey.value, true);
              var l := r.value.localSecondaryIndices.value;
              |l| == |pos| && forall k :: 0 <= k < |pos| ==> l[k] == SecondaryIndex(ixs[pos[k]].name, createProjection(ixs[pos[k]]))
  {
    var globals :- Filter(ixs, primaryKey, false);
    var locals :- Filter(ixs, primaryKey, true);
    FilterKeepsPositions(ixs, primaryKey, false);
    FilterKeepsPositions(ixs, primaryKey, true);
    Success(CreateTableRequest(UnlessEmpty(Entries(globals, createProjection)), UnlessEmpty(Entries(locals, createProjection))))
  }

  /** Every index with a partition key is global, local, or the primary index
      keyed on the primary partition key, and exactly one of the three. */
  lemma EveryIndexClassifiedOnce(ixs: seq<IndexMetadata>, primaryKey: string, i: nat)
    requires i < |ixs| && ixs[i].partitionKey.Some?
    ensures var inGlobal := i in Positions(ixs, primaryKey, false);
            var inLocal := i in Positions(ixs, primaryKey, true);
            var primary := ixs[i].name == PrimaryIndexName && ixs[i].partitionKey.value.name == primaryKey;
            (inGlobal || inLocal || primary) && !(inGlobal && inLocal) && !(inGlobal && primary) && !(inLocal && primary)
  {
  }

  /** The request a data class's table metadata yields. */
  function CreateTableRequestFor(md: Metadata, createProjection: IndexMetadata -> Projection)
    : (r: Result<CreateTableRequest>)
    ensures Indices(md).Failure? ==> r == Failure(Indices(md).error)
    ensures Indices(md).Success? ==>
              r == CreateTableEnhancedRequestWithIndices(Indices(md).value, IndexPartitionKey(md, PrimaryIndexName), createProjection)
  {
    var ixs :- Indices(md);
    CreateTableEnhancedRequestWithIndices(ixs, IndexPartitionKey(md, PrimaryIndexName), createProjection)
  }

  /** For a data class whose indices resolve, the request can be built exactly
      when the class has a partition key; without one, reading the primary
      index's partition key fails first. */
  lemma DataClassRequestNeedsPartitionKey(md: Metadata, createProjection: IndexMetadata -> Projection)
    requires Indices(md).Success?
    ensures CreateTableRequestFor(md, createProjection).Success? <==> PartitionKeyProperty(md.dataClass).Some?
    ensures PartitionKeyProperty(md.dataClass).None? ==> CreateTableRequestFor(md, createProjection) == Failure(NoSuchElement)
  {
    var ixs := Indices(md).value;
    assert Success(ixs[0]) == IndexOf(md, PrimaryIndexName);
    if PartitionKeyProperty(md.dataClass).Some? {
      forall i | 0 <= i < |ixs| ensures ixs[i].partitionKey.Some? {
        SecondaryIndexHasPartitionKey(md, i);
      }
    }
  }

  /** Every index a data class lists has a partition key once the primary one does. */
  lemma SecondaryIndexHasPartitionKey(md: Metadata, i: nat)
    requires Indices(md).Success?
    requires i < |Indices(md).value|
    requires PartitionKeyProperty(md.dataClass).Some?
    ensures Indices(md).value[i].partitionKey.Some?
  {
    var ix := Indices(md).value[i];
    assert Success(ix) == IndexOf(md, ix.name);
    ListedIndexNames(md, i);
    if ix.name != PrimaryIndexName {
      var j :| 0 <= j < |md.dataClass.properties| && ix.name in SecondaryPartitionIndexNames(md.dataClass.properties[j].annotations);
    }
  }

  /** The primary index of a data class is in neither list of the request. */
  lemma PrimaryIndexInNeitherList(md: Metadata)
    requires Indices(md).Success?
    requires PartitionKeyProperty(md.dataClass).Some?
    ensures var p := IndexPartitionKey(md, PrimaryIndexName).value;
            0 !in Positions(Indices(md).value, p, false) && 0 !in Positions(Indices(md).value, p, true)
  {
    var ixs := Indices(md).value;
    assert Success(ixs[0]) == IndexOf(md, PrimaryIndexName);
  }
}

=== FILE: wrappers.dfy ===
/** Option and Result, the failure-compatible datatypes the rest of the model
    uses in place of Kotlin's nullable types and thrown exceptions. */
module Wrappers {

  /** Kotlin's `T?`: `None` plays the part of `null`. */
  datatype Option<+T> = None | Some(value: T) {

    predicate IsFailure() {
      None?
    }

    function PropagateFailure<U>(): Option<U>
      requires None?
    {
      None
    }

    function Extract(): T
      requires Some?
    {
      value
    }

    /** The value, or `default` when there is none (Kotlin's `?:`). */
    function GetOr(default: T): T {
      if Some? then value else default
    }

    /** The option as a sequence of zero or one element (Kotlin's `listOfNotNull`). */
    function ToSeq(): (s: seq<T>)
      ensures |s| <= 1
      ensures Some? <==> |s| == 1
      ensures Some? ==> s[0] == value
    {
      if Some? then [value] else []
    }
  }

  /** A computation that either returns a value or throws the exception `error`. */
  datatype Result<+R> = Success(value: R) | Failure(error: Error) {

    predicate IsFailure() {
      Failure?
    }

    function PropagateFailure<U>(): Result<U>
      requires Failure?
    {
      Failure(error)
    }

    function Extract(): R
      requires Success?
    {
      value
    }
  }

  /** The exceptions the modelled code throws or lets escape. */
  datatype Error =
    /** `IllegalArgumentException`, optionally carrying the exception it wraps. */
    | IllegalArgument(message: string, cause: Option<Error>)
    /** `IllegalStateException`, thrown by Kotlin's `error(...)` and by the SDK. */
    | IllegalState(message: string)
    /** `NoSuchElementException`, thrown by `first { }` and `Optional.get()` on no element. */
    | NoSuchElement
    /** The JVM's null-dereference exception, thrown by `!!` and by a null platform value in a non-null position. */
    | NullDereference
    /** A reflective call on a constructor that is not public. */
    | IllegalCallableAccess
    /** `callBy` was given no argument for a parameter that has no default. */
    | MissingArgument(parameter: string)
    /** `callBy` passed null to a parameter whose type is not nullable. */
    | NullArgument(parameter: string)
    /** The data class's own constructor code rejected the arguments. */
    | ConstructorThrew(typeName: string)
    /** A converter could not decode the value stored under `attributeName`. */
    | ConverterThrew(attributeName: string)
    /** The default converter provider has no converter for the requested type. */
    | ConverterNotFound
    /** The JVM call stack was exhausted. */
    | StackOverflow

  /** The message of Kotlin's `require(false)`. */
  const FailedRequirement: string := "Failed requirement."
}
